=== FILE: README.md ===
# Baukasten flat-URL core, modelled in Dafny

The Baukasten CMS serves a headless frontend. Its API plugin gives every
page a public URI. With the *section toggle* on, that URI is the CMS's
hierarchical path (`team/jane`). With it off, every ancestor whose
template is `section` is dropped from the path (`jane`). The flat URI then
has to be resolved back to a page, listed in `index.json`, used in the
previous/next navigation, and written into the sitemap.

This project models that flat-URL system and the small shaping rules
around it:

- the page tree, with an explicit toggle;
- URI generation (`UrlHelper`);
- effective parent and sibling navigation (`NavigationHelper`);
- the flat-URL resolver, with its priority order and 301 fallback (`FlatUrlResolver`);
- the `index.json` builder (`IndexApi`);
- the route table and the `.json` route (`Routes`);
- language lists (`LanguageHelper`);
- the sitemap hooks;
- the `section.json` template;
- the block-to-array conversion;
- the `getLinkArray` field method;
- the site-wide data helpers (`SiteDataHelper`);
- the cache-clear routes.

The page tree is an immutable `Site` (`pages.dfy`):
- a map from page id to page record;
- the depth-first page index;
- a rank that grows from parent to child, so ancestor walks terminate;
- the framework's path lookup `find`.

The framework's own functions are given data, not models: `uri()`,
`slug()`, `find`, `index()` and `children()`. The section toggle is a
`bool` parameter. Field values are strings. A field is empty
(`isEmpty()`) when what is left after `trim` is `""` or the empty list
`[]`. The
framework's `toBool` is `Fields.ToBool`: an empty field gives the default;
any other value counts as true when, with surrounding whitespace stripped
as `filter_var` does, it is one of `1`, `true`, `on`, `yes`, in any letter
case.

Files and modules, one module per source file or helper:
- `wrappers.dfy`, `strings.dfy` and `fields.dfy` hold the PHP string semantics the model needs: truthiness, `?:`, `str_replace`, `explode`, `trim`/`ltrim`/`rtrim`, `strcmp`, `strtolower`, `isEmpty` and `toBool`.
- `pages.dfy` holds the tree.
- `url_helper.dfy`, `navigation.dfy`, `flat_url_resolver.dfy`, `index_api.dfy`, `language_helper.dfy` and `routes.dfy` follow the API plugin's classes.
- `sitemap.dfy`, `section_json.dfy`, `attributes.dfy`, `blocks.dfy`, `link_array.dfy`, `site_data.dfy` and `cache_manager.dfy` follow the plugins and the template.
- `scenarios.dfy` works one small site through the whole pipeline.

Where the code and its documentation disagree, the model follows the code:
- **No redirect from the handler.** `handleFlatUrlResolution` is documented to return a page or a redirect, but it never redirects. Its direct lookup serves a readable hierarchical path such as `team/jane` first. Its fallback, `tryHierarchicalFallback`, repeats that same lookup, which has already failed, so inside the handler the fallback only ever yields `null`. The fallback's 301 is reachable only by calling it directly (`FlatUrlResolver.HandleOutcomes`, `Scenarios.JaneRequests`).
- **Effective parent of a top-level page.** `getEffectiveParent`'s final comment says the home page is returned. Top-level pages have no parent, so when the walk runs off the root the result is `null` (`Scenarios.JaneEffectiveParent`).
- **Navigation siblings.** `getNavigationSiblings` takes the siblings from the page's direct parent in both toggle branches. The `effectiveParent` argument is never read (`Navigation.SiblingsIgnoreToggleAndParentArgument`).
- **Stripped content in `section.json`.** The template computes a stripped copy of the page content but never adds it to the output. The model's document has no such key.
- **Default-language URL.** `getDefaultLanguage` removes every occurrence of `/` + code from the default language's URL, as its test expects. The sitemap's identical `str_replace` is the subject of a finding below.

## Model

| member | source | states |
|---|---|---|
| Fields.ToBool | site/plugins/baukasten-api/src/Helpers/UrlHelper.php:17 | `toBool($default)`: a field of nothing but whitespace, or `[]` inside whitespace, gives the default; any other field is true exactly when it reads as true once its surrounding whitespace is stripped. |
| Fields.ToBoolIgnoresWhitespace | site/plugins/baukasten-api/src/Helpers/UrlHelper.php:17 | `" Yes\n"` reads as true and `" \t"` gives the default. |
| Fields.ToBoolEmptyList | site/plugins/baukasten-api/src/Helpers/UrlHelper.php:17 | The empty list inside whitespace, `" []\n"`, gives the default. |
| UrlHelper.SectionToggleState | site/plugins/baukasten-api/src/Helpers/UrlHelper.php:15-18 | An empty toggle field (unset, whitespace-only or `[]`) reads as on; otherwise the toggle is on exactly when the field reads as true. |
| UrlHelper.GeneratePageUri | site/plugins/baukasten-api/src/Helpers/UrlHelper.php:27-52 | Home is `home` whatever the flag and toggle; with the flag off or the toggle on the result is the page's hierarchical `uri()`; otherwise it is the flat URI. |
| UrlHelper.GeneratePageUriCases | site/plugins/baukasten-api/src/Helpers/UrlHelper.php:27-52 | The three cases, with the flat case spelled out as the `/`-join of the slugs of the upward chain, root-most first. |
| UrlHelper.FlatSegments | site/plugins/baukasten-api/src/Helpers/UrlHelper.php:40-51 | The walk that prepends the slug of every non-section page until home or the root; its contract is `FlatSegmentsFollowChain`, `SlugsCount` and `FlatSegmentsSkipSections`. |
| UrlHelper.FlatUri | site/plugins/baukasten-api/src/Helpers/UrlHelper.php:40-51 | The `/`-join of those segments; `FlatUriEndsWithOwnSlug` and `AllSectionChainGivesEmptyUri` state what it gives. |
| UrlHelper.PageUri | site/plugins/baukasten-api/src/Helpers/UrlHelper.php:27-52 | `generatePageUri($page)` with the flag at its default `true`; `GeneratePageUriCases` states its cases. |
| UrlHelper.UntilHome | site/plugins/baukasten-api/src/Helpers/UrlHelper.php:40-51 | The upward walk is a prefix of the ancestor chain that holds no home page and stops exactly before the first home page. |
| UrlHelper.FlatSegmentsFollowChain | site/plugins/baukasten-api/src/Helpers/UrlHelper.php:40-51 | The flat segments built while walking up (prepending) equal the slugs of the non-section pages of the chain taken root-most first. |
| UrlHelper.SlugsCount | site/plugins/baukasten-api/src/Helpers/UrlHelper.php:43-48 | The number of segments is the number of non-section pages on the chain. |
| UrlHelper.SlugsFromNonSections | site/plugins/baukasten-api/src/Helpers/UrlHelper.php:43-48 | Every segment is the slug of some non-section page of the chain: no section contributes a segment. |
| UrlHelper.AllSectionsNoSlugs | site/plugins/baukasten-api/src/Helpers/UrlHelper.php:43-48 | A chain of sections alone gives no segment at all. |
| UrlHelper.FlatSegmentsSkipSections | site/plugins/baukasten-api/src/Helpers/UrlHelper.php:43-48 | For a page's own chain: segment count equals its non-section pages, and every segment comes from one of them. |
| UrlHelper.FlatUriEndsWithOwnSlug | site/plugins/baukasten-api/src/Helpers/UrlHelper.php:43-46 | A non-home, non-section page's flat URI ends with its own slug. |
| UrlHelper.AllSectionChainGivesEmptyUri | site/plugins/baukasten-api/src/Helpers/UrlHelper.php:40-51 | A section page whose whole chain consists of sections gets the empty URI. |
| UrlHelper.FlatSegmentsIgnoreStatus | site/plugins/baukasten-api/src/Helpers/UrlHelper.php:40-51 | The flat URI depends only on slugs, templates, home flags and parents: two trees agreeing on those give the same flat URI, whatever their listing or readability. |
| Navigation.WalkUp | site/plugins/baukasten-api/src/Helpers/NavigationHelper.php:103-112 | The loop returns a page that is home or not a section, or `null`. |
| Navigation.EffectiveParent | site/plugins/baukasten-api/src/Helpers/NavigationHelper.php:91-113 | No parent gives `null`; with the toggle on the result is the direct parent; with it off the result is home or a non-section page. |
| Navigation.WalkUpStopsAtFirstUnskipped | site/plugins/baukasten-api/src/Helpers/NavigationHelper.php:103-112 | The walk stops at the first page of the upward chain that is not a non-home section; it gives `null` exactly when every page of the chain is one. |
| Navigation.EffectiveParentIsFirstUnskippedAncestor | site/plugins/baukasten-api/src/Helpers/NavigationHelper.php:91-113 | With the toggle off, the effective parent is the first ancestor that is home or not a section, and `null` when the walk runs off the root. |
| Navigation.Navigable | site/plugins/baukasten-api/src/Helpers/NavigationHelper.php:68-70 | Keeps exactly the listed pages that are not cover-only items, in their input order. |
| Navigation.NavigationSiblings | site/plugins/baukasten-api/src/Helpers/NavigationHelper.php:57-83 | Empty without a parent; otherwise exactly the parent's listed children that are not cover-only items, in `children()` order. |
| Navigation.SiblingsInIndexOrder | site/plugins/baukasten-api/src/Helpers/NavigationHelper.php:57-83 | The siblings appear in the order of the site's page index. |
| Navigation.SiblingsIgnoreToggleAndParentArgument | site/plugins/baukasten-api/src/Helpers/NavigationHelper.php:57-83 | The siblings are the same whatever the toggle and whatever effective parent is passed in. |
| Navigation.Position | site/plugins/baukasten-api/src/Helpers/NavigationHelper.php:28-42 | The first position of a page in the collection, `None` iff it is absent. |
| Navigation.NextIn | site/plugins/baukasten-api/src/Helpers/NavigationHelper.php:28-34 | The next page exists iff the page occurs before the last position; it is the element right after the page's first occurrence. |
| Navigation.PrevIn | site/plugins/baukasten-api/src/Helpers/NavigationHelper.php:36-42 | The previous page exists iff the page's first occurrence is not at the start; it is the element right before it. |
| Navigation.Entry | site/plugins/baukasten-api/src/Helpers/NavigationHelper.php:29-33 | An entry carries the neighbour's id, title and `generatePageUri`. |
| Navigation.PageNavigation | site/plugins/baukasten-api/src/Helpers/NavigationHelper.php:16-48 | `nextPage`/`prevPage` are present iff the sibling collection has a neighbour; each is a sibling, with its title and public URI; both are `null` for a page without a parent. |
| Navigation.NeighboursAreAdjacentSiblings | site/plugins/baukasten-api/src/Helpers/NavigationHelper.php:16-48 | The next and previous entries sit right after and right before the page in the sibling collection. |
| FlatUrlResolver.FlatMatches | site/plugins/baukasten-api/src/Services/FlatUrlResolver.php:79-102 | Exactly the index pages that are accessible and whose flat URI equals the path, in index order. |
| FlatUrlResolver.FlatMatchesDistinct | site/plugins/baukasten-api/src/Services/FlatUrlResolver.php:79-102 | Each page is returned at most once. |
| FlatUrlResolver.FlatMatchesEmpty | site/plugins/baukasten-api/src/Services/FlatUrlResolver.php:79-102 | No matching page gives no candidate. |
| FlatUrlResolver.FlatMatchesSingleton | site/plugins/baukasten-api/src/Services/FlatUrlResolver.php:79-102 | A single matching page is the single candidate. |
| FlatUrlResolver.FindPagesByFlatUrl | site/plugins/baukasten-api/src/Services/FlatUrlResolver.php:72-103 | The loop (flat-URI check, then the slug check) returns exactly the matching pages, without duplicates; the slug branch adds nothing the first check missed. |
| FlatUrlResolver.Depth | site/plugins/baukasten-api/src/Services/FlatUrlResolver.php:121-122 | The depth of a URI is its number of `/` plus one. |
| FlatUrlResolver.CompareAsWritten | site/plugins/baukasten-api/src/Services/FlatUrlResolver.php:119-141 | The `usort` comparator as written (depth, listed first, a strict `!==` test on `num` and then `num` subtraction with `null` as 0, `strcmp` of slugs). On pages whose number matches their status, as the framework builds them (`isListed()` is `num() !== null`), it equals the key order `Compare`. |
| FlatUrlResolver.Compare | site/plugins/baukasten-api/src/Services/FlatUrlResolver.php:119-141 | The priority order as a key comparison (depth, listed first, `num` with null as 0, slug): the sign is that of the lexicographic key comparison, and 0 exactly for equal keys. |
| FlatUrlResolver.CompareAntisymmetric | site/plugins/baukasten-api/src/Services/FlatUrlResolver.php:119-141 | Swapping the arguments flips the sign of the key order. |
| FlatUrlResolver.CompareTransitive | site/plugins/baukasten-api/src/Services/FlatUrlResolver.php:119-141 | The key order is transitive, strictly when one step is strict. |
| FlatUrlResolver.CompareAgreesWithoutNullZeroPair | site/plugins/baukasten-api/src/Services/FlatUrlResolver.php:132-137 | The written comparator and the key order agree on every pair except one `null` against one `0`; two pages with the same status never form that pair in a well-formed site. |
| FlatUrlResolver.FirstMinimalIndex | site/plugins/baukasten-api/src/Services/FlatUrlResolver.php:119-143 | The position a stable `usort` with the written comparator moves to the front is a valid candidate position; `FirstMinimalIsLeast` and `FirstMinimalIsFirst` state that it is the first least candidate. |
| FlatUrlResolver.ResolvePriorityConflict | site/plugins/baukasten-api/src/Services/FlatUrlResolver.php:112-144 | `null` iff there is no candidate; otherwise the winner is one of the candidates, the one at `FirstMinimalIndex`. |
| FlatUrlResolver.FirstMinimalIsLeast | site/plugins/baukasten-api/src/Services/FlatUrlResolver.php:112-144 | In a well-formed site the winner is minimal under the written comparator among all candidates. |
| FlatUrlResolver.FirstMinimalIsFirst | site/plugins/baukasten-api/src/Services/FlatUrlResolver.php:112-144 | Every candidate before the winner compares strictly greater under the written comparator, so the winner is the first minimal one, as a stable sort gives. |
| FlatUrlResolver.TryHierarchicalFallback | site/plugins/baukasten-api/src/Services/FlatUrlResolver.php:153-172 | No readable page gives `null`; a readable page gives a 301 to its public URI iff the toggle is off and that URI differs from the path; otherwise the page is served. |
| FlatUrlResolver.HandleFlatUrlResolution | site/plugins/baukasten-api/src/Services/FlatUrlResolver.php:21-63 | A readable page at the path is served first; with the toggle on nothing else is found; whatever is served is readable. `HandleOutcomes`, `HandleServesPriorityWinner` and `FlatUriRoundTrip` state the rest. |
| FlatUrlResolver.HandleOutcomes | site/plugins/baukasten-api/src/Services/FlatUrlResolver.php:21-63 | The handler never redirects; a readable direct match is served first; with the toggle on nothing else is served; a page served by flat resolution is a readable, non-section index page whose public URI is the path. |
| FlatUrlResolver.HandleServesPriorityWinner | site/plugins/baukasten-api/src/Services/FlatUrlResolver.php:42-62 | With several candidates the least candidate under the key order (first among equals) is served when readable, else the answer is `null`. |
| FlatUrlResolver.FlatUriRoundTrip | site/plugins/baukasten-api/src/Services/FlatUrlResolver.php:21-63 | A readable non-section page that is the only page with its flat URI, and whose flat URI is no direct path, is served at that URI. |
| FlatUrlResolver.IsSectionPageAccessible | site/plugins/baukasten-api/src/Services/FlatUrlResolver.php:180-189 | True for non-section pages; equal to the toggle for section pages. |
| FlatUrlResolver.FlatCandidatesAreAccessible | site/plugins/baukasten-api/src/Services/FlatUrlResolver.php:79-102 | Every flat candidate is accessible. |
| IndexApi.Retained | site/plugins/baukasten-api/src/Api/IndexApi.php:36-48 | The two skip tests of the loop; `RetainedCases` and `HomeIsRetained` state which pages they drop. |
| IndexApi.TranslatedUri | site/plugins/baukasten-api/src/Api/IndexApi.php:53-74 | One language's URI; `FlatTranslationMatchesUri`, `FlatSegmentsDefaultSlugs` and `FlatTranslationEndsWithSlug` relate it to the record's `uri` and the page's slug. |
| IndexApi.Translations | site/plugins/baukasten-api/src/Api/IndexApi.php:50-76 | One key per configured language code, each the page's URI in that language under the toggle. |
| IndexApi.ParentUri | site/plugins/baukasten-api/src/Api/IndexApi.php:79-83 | Present iff the page is an item with an effective parent, and then the parent's public URI. |
| IndexApi.Record | site/plugins/baukasten-api/src/Api/IndexApi.php:85-96 | The record's `uri` is the public URI; `coverOnly` is non-null exactly for items; `parent` is set only for items; one translation per language. |
| IndexApi.RetainedIds | site/plugins/baukasten-api/src/Api/IndexApi.php:37-48 | Exactly the index pages that survive the two filters. |
| IndexApi.RecordsOf | site/plugins/baukasten-api/src/Api/IndexApi.php:85-96 | One record per retained page. |
| IndexApi.RecordsOfAt | site/plugins/baukasten-api/src/Api/IndexApi.php:85-96 | The k-th record is the record of the k-th retained page, so index order is kept. |
| IndexApi.GetData | site/plugins/baukasten-api/src/Api/IndexApi.php:30-100 | The loop builds the records of the retained pages in order; a page of the index has a record iff it is retained. |
| IndexApi.RecordsCoverRetained | site/plugins/baukasten-api/src/Api/IndexApi.php:30-100 | A page of the index has a record iff it is retained. |
| IndexApi.HomeIsRetained | site/plugins/baukasten-api/src/Api/IndexApi.php:42-48 | The home page is always kept, since its URI is `home`. |
| IndexApi.RetainedCases | site/plugins/baukasten-api/src/Api/IndexApi.php:37-48 | Cover-only items are dropped; with the toggle on everything else is kept; with it off a section with an empty URI is dropped; non-section pages are kept. |
| IndexApi.FlatSegmentsDefaultSlugs | site/plugins/baukasten-api/src/Api/IndexApi.php:56-74 | When no page of the chain has its own slug in a language, the per-language flat segments are the default ones. |
| IndexApi.FlatTranslationMatchesUri | site/plugins/baukasten-api/src/Api/IndexApi.php:56-74 | Then that language's flat translation equals the record's `uri`. |
| IndexApi.FlatTranslationEndsWithSlug | site/plugins/baukasten-api/src/Api/IndexApi.php:56-74 | With the toggle off, a non-home, non-section page's translation ends with its slug in that language. |
| Routes.Dispatch | site/plugins/baukasten-api/src/Api/Routes.php:19-112 | A path gets the action of the first route, in table order, whose pattern accepts it, and none iff no pattern does. |
| Routes.RouteTableShape | site/plugins/baukasten-api/src/Api/Routes.php:19-112 | Five GET routes; `(:any).json` is fourth and the catch-all `(:any)` last; all but `/` answer in every language. |
| Routes.JsonRequestsReachJsonRoute | site/plugins/baukasten-api/src/Api/Routes.php:46-110 | A `<name>.json` request other than `index.json`/`global.json` reaches the `.json` route even though `(:any)` would also accept it. |
| Routes.PanelRedirectOutcome | site/plugins/baukasten-api/src/Api/Routes.php:39-44 | `/` redirects to `/panel`. |
| Routes.JsonPageUri | site/plugins/baukasten-api/src/Api/Routes.php:54-71 | The page URI is a suffix of the full path without `.json` when the path ends in `.json`, else a suffix of the route parameter. |
| Routes.FirstWithUri | site/plugins/baukasten-api/src/Api/Routes.php:79-90 | The first page of the list whose public URI equals the requested one, `None` iff there is none. |
| Routes.JsonPage | site/plugins/baukasten-api/src/Api/Routes.php:46-101 | An empty page URI gives `null`; a rendered page always exists. |
| Routes.JsonPagePrefersIndex | site/plugins/baukasten-api/src/Api/Routes.php:79-100 | A retained page with the requested URI wins over the direct lookup (the first such page in index order); otherwise the direct lookup decides. |
| Routes.FlatPageAction | site/plugins/baukasten-api/src/Api/Routes.php:103-110 | The catch-all hands the path to the flat-URL resolver unchanged. |
| LanguageHelper.EntryOf | site/plugins/baukasten-api/src/Helpers/LanguageHelper.php:44-50 | An entry copies code, name, URL and locale; `active` iff its code is the current one. |
| LanguageHelper.GetAllLanguages | site/plugins/baukasten-api/src/Helpers/LanguageHelper.php:39-53 | One entry per configured language, in order. |
| LanguageHelper.GetTranslations | site/plugins/baukasten-api/src/Helpers/LanguageHelper.php:16-31 | No entry has the default code; every other language has its entry; nothing else appears; `active` iff the code is the current one. |
| LanguageHelper.TranslationsAreAllButDefault | site/plugins/baukasten-api/src/Helpers/LanguageHelper.php:16-31 | The translations are the full list with the default-code entries removed, order kept, so their count is the language count minus those. |
| LanguageHelper.GetDefaultLanguage | site/plugins/baukasten-api/src/Helpers/LanguageHelper.php:61-73 | The URL is kept when the prefix option is true; otherwise every `/` + code is removed from it. |
| LanguageHelper.DefaultUrlKeptWithoutCode | site/plugins/baukasten-api/src/Helpers/LanguageHelper.php:61-73 | A URL without `/` + code is reported unchanged. |
| LanguageHelper.DefaultUrlDropsCode | site/plugins/baukasten-api/src/Helpers/LanguageHelper.php:61-73 | `en` at `/en/home` is reported at `/home`, active for current language `en`. |
| LanguageHelper.StripLanguagePrefix | site/plugins/baukasten-api/src/Api/Routes.php:62-71 | The result is a suffix of the URI, unchanged when no language prefix `code/` matches. |
| LanguageHelper.StripLanguagePrefixFirstMatch | site/plugins/baukasten-api/src/Api/Routes.php:62-71 | Exactly the first matching language's `code/` prefix is removed, and only that one. |
| Sitemap.SitemapListed | site/plugins/baukasten-sitemap/index.php:10-22 | A page is dropped iff it is a cover-only item or a section while the toggle is off. |
| Sitemap.DropDefaultCodeAsWritten | site/plugins/baukasten-sitemap/index.php:45-47 | The hook's `str_replace('/' . code, '', url)` as written; `DropDefaultCodeAsWrittenCutsSlugs` shows it cutting into a slug. |
| Sitemap.DropSegment | site/plugins/baukasten-sitemap/index.php:45-47 | Whole-segment removal never lengthens the URL; `DropSegmentKeepsOtherSegments` states what it keeps. |
| Sitemap.DropDefaultCode | site/plugins/baukasten-sitemap/index.php:45-47 | The segment-wise removal of `/code`; `DropSegmentKeepsOtherSegments` and `DropDefaultCodeDropsLanguageSegment` state its effect. |
| Sitemap.DropDefaultCodeAsWrittenCutsSlugs | site/plugins/baukasten-sitemap/index.php:45-47 | As written, `/entries` for default language `en` becomes `tries`; the segment-wise removal keeps `/entries`. |
| Sitemap.DropSegmentKeepsOtherSegments | site/plugins/baukasten-sitemap/index.php:45-47 | The corrected removal leaves a URL in which `/code` is never a whole segment unchanged. |
| Sitemap.DropDefaultCodeDropsLanguageSegment | site/plugins/baukasten-sitemap/index.php:45-47 | The corrected removal still turns `/en/about` into `/about`. |
| Sitemap.LanguagePrefix | site/plugins/baukasten-sitemap/index.php:69-77 | A prefix is only ever `/code` of a language whose `/code/` occurs in the URL, with several languages, and with the option exactly true or a non-default code. |
| Sitemap.LanguagePrefixFirstMatch | site/plugins/baukasten-sitemap/index.php:69-77 | The first language whose `/code/` occurs decides alone: `/code` when there are several languages and the option is exactly true or the code is not the default one, else no prefix. |
| Sitemap.LanguagePrefixNoMatch | site/plugins/baukasten-sitemap/index.php:69-77 | When no language's `/code/` occurs, there is no prefix. |
| Sitemap.LookupPath | site/plugins/baukasten-sitemap/index.php:52-61 | The CMS URL with the base removed, leading `/` trimmed and the first language's `code/` prefix stripped; `StripLanguagePrefixFirstMatch` states the last step. |
| Sitemap.Localised | site/plugins/baukasten-sitemap/index.php:42-47 | The base-URL swap and the default-code removal; `RewriteReplacesBaseUrl` and `RewriteWithToggleOn` state its result. |
| Sitemap.FlatRebuilt | site/plugins/baukasten-sitemap/index.php:79-80 | The rebuilt flat URL never ends in `/`. |
| Sitemap.RewriteUrl | site/plugins/baukasten-sitemap/index.php:29-84 | A falsy frontend URL leaves the URL unchanged; a URL rebuilt from a flat URI never ends in `/`. `RewriteReplacesBaseUrl`, `RewriteFlatUrl` and `RewriteWithToggleOn` state the three paths. |
| Sitemap.RewriteReplacesBaseUrl | site/plugins/baukasten-sitemap/index.php:42-47 | A URL `cmsUrl + rest` that is not rebuilt (toggle on or no page found) becomes `frontend + rest`; with one language or the option exactly `false` the default `/code` segment is then dropped from it. |
| Sitemap.SingleLanguageNoPrefix | site/plugins/baukasten-sitemap/index.php:69-77 | With one language there is never a prefix. |
| Sitemap.RewriteNeedsFrontend | site/plugins/baukasten-sitemap/index.php:31-36 | With a falsy frontend URL (after trimming `/`) no URL is rewritten. |
| Sitemap.RewriteFlatUrl | site/plugins/baukasten-sitemap/index.php:50-81 | With the toggle off and the page found, the URL is frontend + prefix + `/` + flat URI with trailing `/` trimmed, starts with the frontend URL and has no trailing `/`. |
| Sitemap.FlatRebuiltKeepsFrontend | site/plugins/baukasten-sitemap/index.php:79-80 | The final `rtrim` never cuts into the frontend URL. |
| Sitemap.RewriteWithToggleOn | site/plugins/baukasten-sitemap/index.php:37-47 | With the toggle on, a URL without the CMS base URL and without a default-language segment is left as it is. |
| SectionJson.ThumbnailOfFile | site/templates/section.json.php:22-35 | `[]` without a file; otherwise the file's URL and size. |
| SectionJson.ItemOf | site/templates/section.json.php:37-46 | The item copies the child's title, URI, cover-only flag and number; `parent` is the lower-cased section title. |
| SectionJson.ItemsOf | site/templates/section.json.php:8-50 | One item per child, in order. |
| SectionJson.GetItems | site/templates/section.json.php:52-54 | `items` is present iff the page has children. |
| SectionJson.ItemsFollowChildren | site/templates/section.json.php:8-54 | The k-th item is the record of the k-th child. |
| SectionJson.ValueOr | site/templates/section.json.php:76-77 | `?:` keeps a truthy value and falls back otherwise. |
| SectionJson.ValueWithFallback | site/templates/section.json.php:62-67 | `default` reads the site field (`16` when falsy); `null` and `''` give `16`; anything else is kept. |
| SectionJson.FallbackNeverEmpty | site/templates/section.json.php:62-67 | A gap is never empty, and `'0'` is kept here where `?:` would replace it. |
| SectionJson.SplitList | site/templates/section.json.php:104 | The caption controls are exactly the non-empty trimmed comma pieces, in their order: none empty, none holding a comma, every such piece kept, and as many as there are. |
| SectionJson.NonEmptyTrimmedPieces | site/templates/section.json.php:104 | The pieces that remain are the non-empty trimmed pieces: an order-keeping selection of them, containing each, of their count. |
| SectionJson.GetSettings | site/templates/section.json.php:56-109 | Every setting from its field: ratios, elements, spans and level by `?:` with their defaults; the four gaps by the fallback rule with their site fields; title and text toggles by `toBool(true)`; fonts, sizes, colours and alignments copied; caption alignment and colour by `?:`; controls split on commas; an overlay range of 0 becomes 50. |
| SectionJson.SettingsDefaults | site/templates/section.json.php:76-107 | The concrete defaults: ratios `16/9`, elements `10`, spans `6`, level `h2`, caption align `bottom`, colour `#000000`, overlay range 50; every `?:` setting is therefore truthy. |
| SectionJson.EmptyFieldsSettings | site/templates/section.json.php:56-109 | A page with every display field empty gets the whole settings value: every default, gaps of `16`, both toggles on, no controls. |
| SectionJson.LayoutOf | site/templates/section.json.php:123-133 | A layout keeps its fields; it has attributes iff the layout data had them. |
| SectionJson.Layouts | site/templates/section.json.php:116-136 | The loop never produces more layouts than it reads. |
| SectionJson.LayoutsKeepTruthyEntries | site/templates/section.json.php:116-136 | Exactly the truthy layout arrays are kept, each converted, and normalised attributes only when asked. |
| SectionJson.KeptEntries | site/templates/section.json.php:116-121 | The falsy check alone: as many entries as pass it, each one of the field's entries. |
| SectionJson.LayoutsAreFilterThenMap | site/templates/section.json.php:116-136 | The loop is the falsy filter followed by the conversion: the k-th layout is the converted k-th kept entry. |
| SectionJson.NormalisedLayoutLastWins | site/templates/section.json.php:123-133 | A normalised attribute map gives each name the converted value of its last pair. |
| SectionJson.FieldLayouts | site/templates/section.json.php:113-177 | A layout key is present iff its field is not empty. |
| SectionJson.SectionDocumentOf | site/templates/section.json.php:111-194 | Items iff children; each layout key and `blocks` iff its field is set, one block array per block; `navigation` is the page navigation. |
| Attributes.Convert | site/plugins/baukasten-blocks/index.php:152 | Exactly the string `true` becomes boolean true; any other value stays the same text. |
| Attributes.LastValue | site/plugins/baukasten-blocks/index.php:150-154 | The reference reading: the value of a pair with the name after which no pair has that name, `None` iff there is none. |
| Attributes.Normalise | site/plugins/baukasten-blocks/index.php:147-156 | The attribute loop; `NormaliseIsLastWins` and `NormaliseKeys` state its result against the reference `LastValue`. |
| Attributes.NormaliseIsLastWins | site/plugins/baukasten-blocks/index.php:147-156 | The map built by the loop has a key iff some pair has that name, and holds the converted value of the last such pair. |
| Attributes.NormaliseKeys | site/plugins/baukasten-blocks/index.php:147-156 | The map's keys are exactly the attribute names. |
| Attributes.OnlyExactTrueIsBoolean | site/plugins/baukasten-blocks/index.php:152 | `false`, `1` and `TRUE` stay text, and a later `true` overwrites an earlier value. |
| Blocks.ImageOf | site/plugins/baukasten-blocks/index.php:101-133 | No file gives `null`; otherwise URL and size are copied, caption and link toggles default to false, and the external link is present iff the file has one. |
| Blocks.NormaliseMetadata | site/plugins/baukasten-blocks/index.php:147-156 | An attribute list becomes a map; an unset one stays unset. |
| Blocks.ConvertBlock | site/plugins/baukasten-blocks/index.php:13-159 | Every block array carries the block's id and type. |
| Blocks.ConvertBlocks | site/plugins/baukasten-blocks/index.php:37-45 | One array per block of a column, in order: the `!$blockData` skip never fires. |
| Blocks.ConvertColumns | site/plugins/baukasten-blocks/index.php:27-48 | One entry per column with its id, width, span and as many blocks. |
| Blocks.ConvertGrid | site/plugins/baukasten-blocks/index.php:59-89 | One grid entry per layout, with its id and as many columns. |
| Blocks.ContentByType | site/plugins/baukasten-blocks/index.php:21-144 | The content by type: columns from the first layout (`[]` without one, `null` columns when it has none); grid title and layouts; image content with the image data; any other type its own content. |
| Blocks.ColumnsUseFirstLayoutOnly | site/plugins/baukasten-blocks/index.php:23-53 | Layouts after the first never change a columns block's result. |
| Blocks.MetadataLastWins | site/plugins/baukasten-blocks/index.php:146-156 | A block's metadata attribute map gives each name its last value, converted. |
| Blocks.DefaultCopiesContent | site/plugins/baukasten-blocks/index.php:141-143 | A block of another type without metadata keeps exactly its stored content. |
| Blocks.NoBlockLost | site/plugins/baukasten-blocks/index.php:13-159 | The converted tree holds exactly as many block arrays as blocks visited, through any nesting of columns and grids. |
| Blocks.NoBlockLostSeq | site/plugins/baukasten-blocks/index.php:37-45 | The same for the blocks of one column. |
| Blocks.NoBlockLostColumns | site/plugins/baukasten-blocks/index.php:27-48 | The same for a list of columns. |
| Blocks.NoBlockLostLayouts | site/plugins/baukasten-blocks/index.php:59-89 | The same for the layouts of a grid. |
| LinkArray.GetLinkArray | site/plugins/baukasten-field-methods/index.php:13-33 | `null` iff no link object; `type` and `hash` copied; `popup` is the object's truthiness; `href` is `null` iff a page is linked, else the href; `uri` present iff a page is linked. |
| LinkArray.LinkTitle | site/plugins/baukasten-field-methods/index.php:20-23 | The title is the link text when truthy, else the linked page's title, else `null`. |
| LinkArray.ExactlyOneTarget | site/plugins/baukasten-field-methods/index.php:25-32 | Exactly one of `href` and `uri` is set. |
| LinkArray.PageUriDoubledWithFile | site/plugins/baukasten-field-methods/index.php:29 | The page URI, written twice in a row when a file is attached. |
| LinkArray.FieldMethod | site/plugins/baukasten-field-methods/index.php:5-11 | The field method answers what `getLinkArray` answers. |
| LinkArray.TitleArgumentIgnored | site/plugins/baukasten-field-methods/index.php:7-9 | Its `title` argument never changes the result. |
| SiteData.GetFavicon | site/plugins/baukasten-api/src/Helpers/SiteDataHelper.php:16-29 | `null` iff no favicon object; each source is the file's URL, `null` when the file is missing. |
| SiteData.LinksOf | site/plugins/baukasten-api/src/Helpers/SiteDataHelper.php:41-43 | One link array per structure item, in order. |
| SiteData.GetNavigation | site/plugins/baukasten-api/src/Helpers/SiteDataHelper.php:38-45 | `null` iff the structure is empty; otherwise entry k is item k's link array, `null` exactly where the item has no link. |
| SiteData.GetLogoCta | site/plugins/baukasten-api/src/Helpers/SiteDataHelper.php:76-83 | `[]` iff the CTA field holds nothing but whitespace or the empty list `[]`; otherwise the link array, present iff there is a link object. |
| SiteData.FontsOf | site/plugins/baukasten-api/src/Helpers/SiteDataHelper.php:94-102 | The fonts are exactly the items with a `file2` (name and URL); empty iff no item has one. |
| SiteData.GetFonts | site/plugins/baukasten-api/src/Helpers/SiteDataHelper.php:91-104 | `null` iff no item has a `file2`; otherwise the non-empty font list. |
| SiteData.FontsKeepOrder | site/plugins/baukasten-api/src/Helpers/SiteDataHelper.php:94-102 | The fonts of two concatenated structures are the fonts of each, in order. |
| SiteData.FontSizeOf | site/plugins/baukasten-api/src/Helpers/SiteDataHelper.php:116-129 | Every other field (name, sizes, line heights, letter spacings) is copied unchanged; `transform` and `decoration` default to `none`, so they are never empty. |
| SiteData.GetFontSizes | site/plugins/baukasten-api/src/Helpers/SiteDataHelper.php:112-132 | One entry per item in order, an empty list when there are none. |
| SiteData.GetHeadlines | site/plugins/baukasten-api/src/Helpers/SiteDataHelper.php:140-153 | The keys are exactly `h1`…`h6`; `h<i>` holds the fields `h<i>font` and `h<i>size`. |
| SiteData.TagsDistinct | site/plugins/baukasten-api/src/Helpers/SiteDataHelper.php:143-144 | The six tags are pairwise different, so no entry overwrites another. |
| SiteData.SixHeadlines | site/plugins/baukasten-api/src/Helpers/SiteDataHelper.php:140-153 | There are exactly six headline entries. |
| SiteData.GetAnalytics | site/plugins/baukasten-api/src/Helpers/SiteDataHelper.php:161-177 | Each code is present iff its toggle is not empty and reads as true; the link is `null` for a whitespace-only or `[]` field and the link array for any other. |
| CacheManager.CacheClear | site/plugins/baukasten-cache-manager/index.php:207-234 | Status 200 iff success and 500 iff failure; on success `cleared` is the list of flushed caches and the message names them. |
| CacheManager.ClearedByType | site/plugins/baukasten-cache-manager/index.php:213-227 | `all` flushes `api` then `pages`; `api` and `pages` flush the one named; any other type flushes nothing and still succeeds. |
| CacheManager.Message | site/plugins/baukasten-cache-manager/index.php:225 | The message is `Cleared ` + the names joined by ` and ` + ` cache(s)`. |
| CacheManager.ClearMessages | site/plugins/baukasten-cache-manager/index.php:223-227 | The message texts for `all`, `api`, and an unknown type (`Cleared  cache(s)`, with two spaces). |
| CacheManager.FailureReportsMessage | site/plugins/baukasten-cache-manager/index.php:228-233 | A failing flush answers 500 with the exception's message; a failing `pages` flush comes after a completed `api` flush, and a failing `api` flush stops before `pages`. |
| CacheManager.FlushOrder | site/plugins/baukasten-cache-manager/index.php:213-221 | Each cache is flushed at most once, `api` always before `pages`. |
| CacheManager.CacheClearRoute | site/plugins/baukasten-cache-manager/index.php:25-44 | Non-admins get 401 `Unauthorized`; admins get the clear of the route's type, `all` for the bare route. |
| CacheManager.OnlyAdminsFlush | site/plugins/baukasten-cache-manager/index.php:25-44 | Only an administrator's request flushes anything; the bare route clears both caches. |
| Scenarios.JaneUris | site/plugins/baukasten-api/src/Helpers/UrlHelper.php:27-52 | In the worked site Jane is at `jane` with the toggle off and at `team/jane` with it on; the section has the empty URI; home is `home`. |
| Scenarios.JaneEffectiveParent | site/plugins/baukasten-api/src/Helpers/NavigationHelper.php:91-113 | With the toggle off the walk runs off the root (no parent); with it on the parent is the section. |
| Scenarios.JaneRequests | site/plugins/baukasten-api/src/Services/FlatUrlResolver.php:21-63 | `jane` is served by flat resolution; `team/jane` is served by the direct lookup; only the fallback alone gives the 301 to `jane`; with the toggle on `jane` is not found. |
| Scenarios.SectionInIndex | site/plugins/baukasten-api/src/Api/IndexApi.php:42-48 | The section leaves `index.json` with the toggle off and stays with it on. |

## Left out

- Framework internals are inputs, not models: the hierarchical `uri()`, slugs, `find`, `index()`, `children()`, `toLinkObject()`, `toFile()` and `toLayouts()`. So are `nextListed`/`prevListed`, which are modelled as the neighbours in the collection.
- The router's exact `(:any)` character class is not modelled. `Routes.IsSegment` approximates it as a non-empty segment without `/`.
- `getLayoutArray` is not part of this model; its source is not among the files. Its output is an input (`SectionJson.LayoutArray`, `None` for a falsy result).
- The image-ratio `calculateHeight`, crop URLs, focus points and thumbhash in blocks and `section.json` are left out: they use float division and `round`.
- The caption sub-fields of an image block are left out, along with its identifier and classes: they are plain field copies.
- `getLogoFile` is left out: it reads the logo file with `file_get_contents`.
- The cache-status route, the HTML status page, the cache size and key walks, and `formatBytes` are left out: they are filesystem I/O and float formatting.
- The exception thrown by a flush is an input (`FlushOutcome`). The logged-in user is an input too.
- The sitemap's XML document walk is left out. The model gives the single URL rewrite (`Sitemap.RewriteUrl`) that the `loc` loop and the `xhtml:link` loop both apply.
- The `section.json` stripped `$content` array is left out because it never reaches the output.
- `SiteData.GetFavicon`: the object field's `toObject()` is always truthy in practice, so `None` stands for "no favicon object" as an input.
- `LinkArray.GetLinkArray`: `popup` is the truthiness of the stored text. The framework's own field-to-boolean conversion of the link object is not modelled.
- `GlobalApi`, `default.json.php` and the global `helpers.php` aliases are left out. They are field-to-key transcription and delegation to the modelled functions.
- The `section.php` redirect, the srcset and mime plugins, the panel preview script and configuration files are left out: they are outside the URL core.
- `FlatUrlResolver.CompareAsWritten` is not transitive on a listed page without a number against one numbered 0. The framework never builds such pages (well-formed sites tie the number to the status), so the model does not treat that as a defect.
- `Sitemap.RewriteUrl` uses the segment-wise removal `DropDefaultCode`, not the written `str_replace` (see Findings).
- `Sitemap.Localised` uses the segment-wise `DropDefaultCode` too, so a slug that starts with the default code is kept, not cut as the written `str_replace` cuts it.
- `Sitemap.RewriteReplacesBaseUrl`: its single-language or non-prefixed case is stated for the segment-wise `DropDefaultCode`, not the written `str_replace`.
- `Sitemap.RewriteWithToggleOn` holds of the corrected removal only. Under the written `str_replace`, a URL containing `/entries` would lose `/en` and the lemma would be false.
- `Navigation.Position`, `Navigation.NextIn` and `Navigation.PrevIn`: for a page that is not in the collection there is no neighbour. The framework's slice behaviour in that case is not modelled.
- `Navigation.PageNavigation` inherits the `NextIn` gap: an unlisted page with two or more listed siblings gets no next page, where the framework's `slice(false + 1)` yields the second sibling.
- `SectionJson.GetSettings`: `captionOverlayRange` is taken as the integer `toInt()` already produced. The string-to-integer conversion is not modelled.

## Findings

| source | as written | input that shows it | evidently intended | confidence | as-written member | corrected member |
|---|---|---|---|---|---|---|
| site/plugins/baukasten-sitemap/index.php:45-47 | `str_replace('/' . code, '', url)` removes every occurrence of `/en`, including the start of a slug (`DropDefaultCodeAsWrittenCutsSlugs`). | Default language `en`: `/entries` becomes `tries`. | Remove only the whole `/en` path segment: `/en/about` becomes `/about` (`DropDefaultCodeDropsLanguageSegment`), and `/entries` stays unchanged (`DropSegmentKeepsOtherSegments`). | not executed | Sitemap.DropDefaultCodeAsWritten | Sitemap.DropDefaultCode |

=== FILE: attributes.dfy ===
/**
 * Attribute lists as the block and layout editors store them (a list of
 * `{attribute, value}` pairs) and their normalisation into a map, shared by
 * the block converter and the section template.
 */
module Attributes {
  import opened Wrappers

  datatype Attr = Attr(attribute: string, value: string)

  /** A normalised value: the exact string `"true"` becomes boolean `true`, anything else stays text. */
  datatype AttrValue = AttrTrue | AttrText(text: string)

  function Convert(v: string): (r: AttrValue)
    ensures r == AttrTrue <==> v == "true"
    ensures r.AttrText? ==> r.text == v
  {
    if v == "true" then AttrTrue else AttrText(v)
  }

  /**
   * The normalisation loop: walk the list in order, writing each converted
   * value under its attribute name, so a later duplicate overwrites an
   * earlier one.
   */
  function Normalise(attrs: seq<Attr>): map<string, AttrValue>
    decreases |attrs|
  {
    if |attrs| == 0 then map[]
    else
      var last := attrs[|attrs| - 1];
      Normalise(attrs[..|attrs| - 1])[last.attribute := Convert(last.value)]
  }

  /** Reference reading: the value of the last pair named `key`, if any. */
  function LastValue(attrs: seq<Attr>, key: string): (r: Option<string>)
    ensures r.None? <==> forall k :: 0 <= k < |attrs| ==> attrs[k].attribute != key
    ensures r.Some? ==>
      exists k ::
        && 0 <= k < |attrs| && attrs[k].attribute == key && attrs[k].value == r.value
        && forall j :: k < j < |attrs| ==> attrs[j].attribute != key
  {
    if |attrs| == 0 then None
    else if attrs[|attrs| - 1].attribute == key then Some(attrs[|attrs| - 1].value)
    else LastValue(attrs[..|attrs| - 1], key)
  }

  /**
   * The map has one key per attribute name in the list, and each key holds
   * the converted value of the last pair with that name.
   */
  lemma {:induction false} NormaliseIsLastWins(attrs: seq<Attr>, key: string)
    ensures key in Normalise(attrs) <==> LastValue(attrs, key).Some?
    ensures key in Normalise(attrs) ==> Normalise(attrs)[key] == Convert(LastValue(attrs, key).value)
    decreases |attrs|
  {
    if |attrs| > 0 {
      NormaliseIsLastWins(attrs[..|attrs| - 1], key);
    }
  }

  /** The keys of the map are exactly the attribute names of the list. */
  lemma NormaliseKeys(attrs: seq<Attr>)
    ensures Normalise(attrs).Keys == set a | a in attrs :: a.attribute
  {
    forall key ensures key in Normalise(attrs) <==> key in set a | a in attrs :: a.attribute {
      NormaliseIsLastWins(attrs, key);
      if key in set a | a in attrs :: a.attribute {
        var a :| a in attrs && a.attribute == key;
        var k :| 0 <= k < |attrs| && attrs[k] == a;
      }
    }
  }

  /** Only `"true"` turns into a boolean: `"false"`, `"1"` and `"TRUE"` stay text. */
  lemma OnlyExactTrueIsBoolean()
    ensures Normalise([Attr("a", "true"), Attr("b", "false"), Attr("c", "TRUE")]) ==
      map["a" := AttrTrue, "b" := AttrText("false"), "c" := AttrText("TRUE")]
    ensures Normalise([Attr("x", "1"), Attr("x", "true")]) == map["x" := AttrTrue]
  {
    var two := [Attr("x", "1"), Attr("x", "true")];
    assert two[..1] == [Attr("x", "1")];
    assert [Attr("x", "1")][..0] == [];
    var three := [Attr("a", "true"), Attr("b", "false"), Attr("c", "TRUE")];
    assert three[..2] == [Attr("a", "true"), Attr("b", "false")];
    assert three[..2][..1] == [Attr("a", "true")];
    assert [Attr("a", "true")][..0] == [];
  }
}

=== FILE: blocks.dfy ===
/**
 * `getBlockArray` (baukasten-blocks): the JSON shape of one content block.
 * `columns` and `grid` blocks hold layouts of columns of further blocks and
 * are converted recursively; `image` blocks get their image data; every
 * other block keeps its stored content. Afterwards a metadata attribute list
 * in the content is normalised into a map.
 */
module Blocks {
  import opened Wrappers
  import opened Fields
  import opened Attributes
  import opened LinkArray

  /** The file an `image` block points at, as far as the block array reads it. */
  datatype ImageFile = ImageFile(
    url: string,
    width: nat,
    height: nat,
    alt: string,
    captionToggle: string,
    linkToggle: string,
    linkExternal: Option<LinkObject>)

  /**
   * `$block->toArray()['content']`: the stored fields, with the metadata's
   * attribute list (`content.metadata.attributes`) apart, `None` when unset.
   */
  datatype Content = Content(fields: map<string, string>, attributes: Option<seq<Attr>>)

  datatype Block = Block(
    id: string,
    blockType: string,
    content: Content,
    // the `layout` field as layouts (read by `columns` blocks)
    layout: seq<Layout>,
    // the `grid` field as layouts (read by `grid` blocks)
    grid: seq<Layout>,
    title: string,
    // the `image` field as a file (read by `image` blocks)
    image: Option<ImageFile>)

  datatype Layout = Layout(id: string, columns: seq<Column>)

  datatype Column = Column(id: string, width: string, span: int, blocks: seq<Block>)

  datatype ImageData = ImageData(
    url: string,
    width: nat,
    height: nat,
    alt: string,
    captionToggle: bool,
    linkToggle: bool,
    linkExternal: Option<Link>)

  datatype ColumnOut = ColumnOut(id: string, width: string, span: int, blocks: seq<BlockOut>)

  datatype GridOut = GridOut(id: string, columns: seq<ColumnOut>)

  /** The `columns` entry of a `columns` block: `null` when the first layout has no column. */
  datatype ColumnsEntry = NullColumns | ColumnList(list: seq<ColumnOut>)

  /** The `content` key of a block array. */
  datatype ContentOut =
    | EmptyContent
    | ColumnsContent(columns: ColumnsEntry)
    | GridContent(title: string, grid: seq<GridOut>)
      // `image` is `None` when the block is not an `image` block, so the stored field stays in `fields`
    | CopiedContent(fields: map<string, string>, attributes: Option<map<string, AttrValue>>, image: Option<Option<ImageData>>)

  datatype BlockOut = BlockOut(id: string, blockType: string, content: ContentOut)

  /** The image data of an `image` block: `null` without a file. */
  function ImageOf(f: Option<ImageFile>): (r: Option<ImageData>)
    ensures r.None? <==> f.None?
    ensures r.Some? ==> r.value.url == f.value.url && r.value.width == f.value.width && r.value.height == f.value.height
    ensures r.Some? ==> (r.value.captionToggle <==> !IsEmptyField(f.value.captionToggle) && AcceptedAsTrue(f.value.captionToggle))
    ensures r.Some? ==> (r.value.linkToggle <==> !IsEmptyField(f.value.linkToggle) && AcceptedAsTrue(f.value.linkToggle))
    ensures r.Some? ==> (r.value.linkExternal.Some? <==> f.value.linkExternal.Some?)
  {
    match f
    case None => None
    case Some(file) =>
      Some(ImageData(file.url, file.width, file.height, file.alt,
        ToBool(file.captionToggle, false), ToBool(file.linkToggle, false), GetLinkArray(file.linkExternal)))
  }

  /** The metadata step: a set attribute list becomes a map, an unset one stays unset. */
  function NormaliseMetadata(attrs: Option<seq<Attr>>): (r: Option<map<string, AttrValue>>)
    ensures r.Some? <==> attrs.Some?
  {
    match attrs
    case None => None
    case Some(a) => Some(Normalise(a))
  }

  function ConvertBlock(b: Block): (r: BlockOut)
    ensures r.id == b.id && r.blockType == b.blockType
    decreases b, 0
  {
    var content :=
      if b.blockType == "columns" then
        if |b.layout| == 0 then EmptyContent
        else if |b.layout[0].columns| == 0 then ColumnsContent(NullColumns)
        else ColumnsContent(ColumnList(ConvertColumns(b.layout[0].columns)))
      else if b.blockType == "grid" then
        GridContent(b.title, ConvertGrid(b.grid))
      else if b.blockType == "image" then
        CopiedContent(b.content.fields - {"image"}, NormaliseMetadata(b.content.attributes), Some(ImageOf(b.image)))
      else
        CopiedContent(b.content.fields, NormaliseMetadata(b.content.attributes), None);
    BlockOut(b.id, b.blockType, content)
  }

  /** Every block of a column, in order; none is skipped. */
  function ConvertBlocks(bs: seq<Block>): (r: seq<BlockOut>)
    ensures |r| == |bs|
    ensures forall k :: 0 <= k < |bs| ==> r[k].id == bs[k].id && r[k].blockType == bs[k].blockType
    decreases bs, 0
  {
    if |bs| == 0 then [] else [ConvertBlock(bs[0])] + ConvertBlocks(bs[1..])
  }

  function ConvertColumns(cs: seq<Column>): (r: seq<ColumnOut>)
    ensures |r| == |cs|
    ensures forall k :: 0 <= k < |cs| ==> r[k].id == cs[k].id && r[k].width == cs[k].width && r[k].span == cs[k].span
    ensures forall k :: 0 <= k < |cs| ==> |r[k].blocks| == |cs[k].blocks|
    decreases cs, 0
  {
    if |cs| == 0 then []
    else [ColumnOut(cs[0].id, cs[0].width, cs[0].span, ConvertBlocks(cs[0].blocks))] + ConvertColumns(cs[1..])
  }

  function ConvertGrid(ls: seq<Layout>): (r: seq<GridOut>)
    ensures |r| == |ls|
    ensures forall k :: 0 <= k < |ls| ==> r[k].id == ls[k].id && |r[k].columns| == |ls[k].columns|
    decreases ls, 0
  {
    if |ls| == 0 then [] else [GridOut(ls[0].id, ConvertColumns(ls[0].columns))] + ConvertGrid(ls[1..])
  }

  // ---------------------------------------------------------------------
  // Properties
  // ---------------------------------------------------------------------

  /**
   * The content by block type: a `columns` block without a layout keeps the
   * empty content; a `grid` block has its title and one entry per layout; an
   * `image` block keeps its fields but its `image` slot; any other block
   * keeps all its fields. Only the copied kinds normalise metadata.
   */
  lemma ContentByType(b: Block)
    ensures var c := ConvertBlock(b).content;
      && (b.blockType == "columns" ==> (c.EmptyContent? <==> |b.layout| == 0))
      && (b.blockType == "columns" && |b.layout| > 0 ==> c == ColumnsContent(if |b.layout[0].columns| == 0 then NullColumns else ColumnList(ConvertColumns(b.layout[0].columns))))
      && (b.blockType == "grid" ==> c.GridContent? && c.title == b.title && |c.grid| == |b.grid|)
      && (b.blockType == "image" ==> c.CopiedContent? && c.fields == b.content.fields - {"image"} && c.image == Some(ImageOf(b.image)))
      && (b.blockType !in {"columns", "grid", "image"} ==> c.CopiedContent? && c.fields == b.content.fields && c.image.None?)
  {
  }

  /** A `columns` block reads its first layout only: the others never change the result. */
  lemma ColumnsUseFirstLayoutOnly(b: Block, b': Block)
    requires b.blockType == "columns" && b' == b.(layout := b'.layout)
    requires |b.layout| > 0 && |b'.layout| > 0 && b.layout[0] == b'.layout[0]
    ensures ConvertBlock(b) == ConvertBlock(b')
  {
  }

  /**
   * A copied block's metadata map is the attribute list with later
   * duplicates winning and only `"true"` turned into a boolean.
   */
  lemma MetadataLastWins(b: Block, key: string)
    requires b.blockType !in {"columns", "grid"} && b.content.attributes.Some?
    ensures var m := ConvertBlock(b).content.attributes;
      && m.Some?
      && (key in m.value <==> LastValue(b.content.attributes.value, key).Some?)
      && (key in m.value ==> m.value[key] == Convert(LastValue(b.content.attributes.value, key).value))
  {
    NormaliseIsLastWins(b.content.attributes.value, key);
  }

  /** A block of another type without metadata attributes keeps exactly its stored content. */
  lemma DefaultCopiesContent(b: Block)
    requires b.blockType !in {"columns", "grid", "image"} && b.content.attributes.None?
    ensures ConvertBlock(b).content == CopiedContent(b.content.fields, None, None)
  {
  }

  // ---------------------------------------------------------------------
  // No nested block is lost
  // ---------------------------------------------------------------------

  /** The blocks a conversion visits, counting the block itself. */
  function BlocksIn(b: Block): nat
    decreases b, 0
  {
    1 + (if b.blockType == "columns" && |b.layout| > 0 then BlocksInColumns(b.layout[0].columns)
         else if b.blockType == "grid" then BlocksInLayouts(b.grid)
         else 0)
  }

  function BlocksInSeq(bs: seq<Block>): nat
    decreases bs, 0
  {
    if |bs| == 0 then 0 else BlocksIn(bs[0]) + BlocksInSeq(bs[1..])
  }

  function BlocksInColumns(cs: seq<Column>): nat
    decreases cs, 0
  {
    if |cs| == 0 then 0 else BlocksInSeq(cs[0].blocks) + BlocksInColumns(cs[1..])
  }

  function BlocksInLayouts(ls: seq<Layout>): nat
    decreases ls, 0
  {
    if |ls| == 0 then 0 else BlocksInColumns(ls[0].columns) + BlocksInLayouts(ls[1..])
  }

  /** The block arrays in a converted tree, counting the root. */
  function ArraysIn(o: BlockOut): nat
    decreases o, 0
  {
    1 + match o.content
        case ColumnsContent(cols) => ArraysInOptColumns(cols)
        case GridContent(_, g) => ArraysInGrid(g)
        case _ => 0
  }

  function ArraysInOptColumns(cols: ColumnsEntry): nat
    decreases cols, 0
  {
    match cols
    case NullColumns => 0
    case ColumnList(cs) => ArraysInColumns(cs)
  }

  function ArraysInSeq(os: seq<BlockOut>): nat
    decreases os, 0
  {
    if |os| == 0 then 0 else ArraysIn(os[0]) + ArraysInSeq(os[1..])
  }

  function ArraysInColumns(cs: seq<ColumnOut>): nat
    decreases cs, 0
  {
    if |cs| == 0 then 0 else ArraysInSeq(cs[0].blocks) + ArraysInColumns(cs[1..])
  }

  function ArraysInGrid(g: seq<GridOut>): nat
    decreases g, 0
  {
    if |g| == 0 then 0 else ArraysInColumns(g[0].columns) + ArraysInGrid(g[1..])
  }

  /**
   * The `!$blockData` skips never fire: the converted tree has exactly one
   * block array per block the conversion visits (the first layout of a
   * `columns` block, every layout of a `grid` block).
   */
  lemma {:induction false} NoBlockLost(b: Block)
    ensures ArraysIn(ConvertBlock(b)) == BlocksIn(b)
    decreases b, 1
  {
    if b.blockType == "columns" && |b.layout| > 0 {
      if |b.layout[0].columns| > 0 {
        NoBlockLostColumns(b.layout[0].columns);
      }
    } else if b.blockType == "grid" {
      NoBlockLostLayouts(b.grid);
    }
  }

  lemma {:induction false} NoBlockLostSeq(bs: seq<Block>)
    ensures ArraysInSeq(ConvertBlocks(bs)) == BlocksInSeq(bs)
    decreases bs, 1
  {
    if |bs| > 0 {
      var r := ConvertBlocks(bs);
      assert r[1..] == ConvertBlocks(bs[1..]);
      NoBlockLost(bs[0]);
      NoBlockLostSeq(bs[1..]);
    }
  }

  lemma {:induction false} NoBlockLostColumns(cs: seq<Column>)
    ensures ArraysInColumns(ConvertColumns(cs)) == BlocksInColumns(cs)
    decreases cs, 1
  {
    if |cs| > 0 {
      var r := ConvertColumns(cs);
      assert r[1..] == ConvertColumns(cs[1..]);
      NoBlockLostSeq(cs[0].blocks);
      NoBlockLostColumns(cs[1..]);
    }
  }

  lemma {:induction false} NoBlockLostLayouts(ls: seq<Layout>)
    ensures ArraysInGrid(ConvertGrid(ls)) == BlocksInLayouts(ls)
    decreases ls, 1
  {
    if |ls| > 0 {
      var r := ConvertGrid(ls);
      assert r[1..] == ConvertGrid(ls[1..]);
      NoBlockLostColumns(ls[0].columns);
      NoBlockLostLayouts(ls[1..]);
    }
  }
}

=== FILE: cache_manager.dfy ===
/**
 * The cache-clearing routes of the cache manager: `POST cache-clear` and
 * `POST cache-clear/(:any)`, open to administrators only, flushing the
 * `api` cache, the `pages` cache or both.
 */
module CacheManager {
  import opened Wrappers
  import opened Strings

  /** The logged-in user, if any. */
  datatype User = User(isAdmin: bool)

  /**
   * The outcome of flushing one cache: `None` when it succeeds, else the
   * message of the exception it throws.
   */
  type FlushOutcome = Option<string>

  datatype Body =
    | Cleared(message: string, cleared: seq<string>)   // `success: true`
    | ClearFailed(error: string)                        // `success: false`
    | Unauthorized                                      // `error: 'Unauthorized'`

  /** The JSON response, and the caches actually flushed before it was sent. */
  datatype Response = Response(status: int, body: Body, flushed: seq<string>)

  const AllCaches: string := "all"

  function Message(cleared: seq<string>): string {
    "Cleared " + Join(cleared, " and ") + " cache(s)"
  }

  /**
   * `baukastenCacheClear($type)`: `api` is flushed first for `all` and `api`,
   * then `pages` for `all` and `pages`; the first exception stops the work
   * and turns the answer into a 500.
   */
  function CacheClear(cacheType: string, api: FlushOutcome, pages: FlushOutcome): (r: Response)
    ensures r.status == 200 <==> r.body.Cleared?
    ensures r.body.Cleared? ==> r.body.cleared == r.flushed && r.body.message == Message(r.flushed)
    ensures r.status == 500 <==> r.body.ClearFailed?
    ensures r.status == 200 || r.status == 500
  {
    var wantsApi := cacheType == AllCaches || cacheType == "api";
    var wantsPages := cacheType == AllCaches || cacheType == "pages";
    if wantsApi && api.Some? then
      Response(500, ClearFailed("Failed to clear cache: " + api.value), [])
    else
      var afterApi := if wantsApi then ["api"] else [];
      if wantsPages && pages.Some? then
        Response(500, ClearFailed("Failed to clear cache: " + pages.value), afterApi)
      else
        var cleared := afterApi + (if wantsPages then ["pages"] else []);
        Response(200, Cleared(Message(cleared), cleared), cleared)
  }

  /**
   * When every flush succeeds, the cleared list is fixed by the type: both
   * caches, `api` before `pages`, for `all`; the one named for `api` or
   * `pages`; none for any other type, which still reports success.
   */
  lemma ClearedByType(cacheType: string)
    ensures var r := CacheClear(cacheType, None, None);
      && r.status == 200
      && (cacheType == "all" ==> r.flushed == ["api", "pages"])
      && (cacheType == "api" ==> r.flushed == ["api"])
      && (cacheType == "pages" ==> r.flushed == ["pages"])
      && (cacheType !in {"all", "api", "pages"} ==> r.flushed == [])
  {
  }

  /** The messages: `Cleared api and pages cache(s)` for everything, and for an unknown type `Cleared  cache(s)`. */
  lemma ClearMessages()
    ensures CacheClear("all", None, None).body.message == "Cleared api and pages cache(s)"
    ensures CacheClear("api", None, None).body.message == "Cleared api cache(s)"
    ensures CacheClear("everything", None, None).body.message == "Cleared  cache(s)"
  {
    AllMessage();
    assert CacheClear("api", None, None).flushed == ["api"];
    assert CacheClear("everything", None, None).flushed == [];
  }

  lemma AllMessage()
    ensures CacheClear("all", None, None).body.message == "Cleared api and pages cache(s)"
  {
    var both: seq<string> := ["api"] + ["pages"];
    assert both == ["api", "pages"] && both[..1] == ["api"];
    assert Join(both, " and ") == "api and pages";
    assert CacheClear("all", None, None).flushed == both;
  }

  /**
   * A failing flush reports its exception's message with status 500; a
   * failing `pages` flush comes after a completed `api` flush for `all`, and
   * a failing `api` flush keeps `pages` from being flushed at all.
   */
  lemma FailureReportsMessage(cacheType: string, api: FlushOutcome, pages: FlushOutcome)
    ensures var r := CacheClear(cacheType, api, pages);
      && ((cacheType == "all" || cacheType == "api") && api.Some? ==>
            r == Response(500, ClearFailed("Failed to clear cache: " + api.value), []))
      && (cacheType == "all" && api.None? && pages.Some? ==>
            r == Response(500, ClearFailed("Failed to clear cache: " + pages.value), ["api"]))
      && (cacheType !in {"all", "api", "pages"} ==> r.status == 200)
  {
  }

  /** `flushed` lists each cache at most once, `api` always before `pages`. */
  lemma FlushOrder(cacheType: string, api: FlushOutcome, pages: FlushOutcome)
    ensures var f := CacheClear(cacheType, api, pages).flushed;
      f == [] || f == ["api"] || f == ["pages"] || f == ["api", "pages"]
  {
    assert ["api"] + ["pages"] == ["api", "pages"];
  }

  /**
   * The two routes. Neither flushes anything unless an administrator is
   * logged in (401 otherwise); `cache-clear` clears `all`, and
   * `cache-clear/<type>` passes its segment on (`typeParam` is `None` for
   * the bare route).
   */
  function CacheClearRoute(user: Option<User>, typeParam: Option<string>, api: FlushOutcome, pages: FlushOutcome): (r: Response)
    ensures !(user.Some? && user.value.isAdmin) ==> r == Response(401, Unauthorized, [])
    ensures user.Some? && user.value.isAdmin ==> r == CacheClear(typeParam.GetOr(AllCaches), api, pages)
  {
    if user.Some? && user.value.isAdmin then CacheClear(typeParam.GetOr(AllCaches), api, pages)
    else Response(401, Unauthorized, [])
  }

  /** Only an administrator's request ever flushes a cache. */
  lemma OnlyAdminsFlush(user: Option<User>, typeParam: Option<string>, api: FlushOutcome, pages: FlushOutcome)
    ensures CacheClearRoute(user, typeParam, api, pages).flushed != [] ==> user.Some? && user.value.isAdmin
    ensures CacheClearRoute(Some(User(true)), None, None, None).flushed == ["api", "pages"]
  {
  }
}

=== FILE: fields.dfy ===
/**
 * The content-field conversions the plugins use. A field's stored value is a
 * string; an empty field holds "".
 */
module Fields {
  import opened Strings

  /** The text a field holds for an empty list; `isEmpty()` counts it as empty. */
  const EmptyListText: string := "[]"

  /**
   * `$field->isEmpty()`: once `trim` has removed the surrounding whitespace,
   * the value is `""` or the empty list `"[]"` (`"0"` does not count as empty).
   */
  predicate IsEmptyField(v: string) {
    var t := TrimAny(v, PhpWhitespace);
    t == "" || t == EmptyListText
  }

  /** The characters `filter_var` strips before reading a boolean: those of `trim` except NUL. */
  const FilterWhitespace: set<char> := {' ', '\t', '\n', '\r', 11 as char}

  /**
   * The strings `filter_var(…, FILTER_VALIDATE_BOOLEAN)` reads as true:
   * after stripping surrounding whitespace and lower-casing, one of "1",
   * "true", "on" or "yes".
   */
  predicate AcceptedAsTrue(v: string) {
    var l := Lower(TrimAny(v, FilterWhitespace));
    l == "1" || l == "true" || l == "on" || l == "yes"
  }

  /**
   * `$field->toBool($default)`: a field holding nothing but whitespace, or
   * an empty list `[]` inside whitespace, gives the default; anything else is
   * parsed.
   */
  function ToBool(v: string, default: bool): (r: bool)
    ensures (forall k :: 0 <= k < |v| ==> v[k] in PhpWhitespace) ==> r == default
    ensures TrimAny(v, PhpWhitespace) == EmptyListText ==> r == default
    ensures (exists k :: 0 <= k < |v| && v[k] !in PhpWhitespace) && TrimAny(v, PhpWhitespace) != EmptyListText
      ==> (r <==> AcceptedAsTrue(v))
  {
    if IsEmptyField(v) then default else AcceptedAsTrue(v)
  }

  /** Surrounding whitespace does not change the reading: `" Yes\n"` is true, `" \t"` is the default. */
  lemma ToBoolIgnoresWhitespace()
    ensures ToBool(" Yes\n", false)
    ensures ToBool(" \t", true)
  {
    var v := " Yes\n";
    assert v == [' ', 'Y', 'e', 's', '\n'];
    assert v[1] !in PhpWhitespace;
    var t := TrimAny(v, FilterWhitespace);
    assert TrimAnyLeft(v, FilterWhitespace) == v[1..];
    assert v[1..][..3] == ['Y', 'e', 's'];
    assert TrimAnyRight(v[1..], FilterWhitespace) == v[1..][..3];
    assert t == ['Y', 'e', 's'];
    assert Lower(t) == "yes";
    var w := " \t";
    assert w == [' ', '\t'];
    assert w[0] in PhpWhitespace && w[1] in PhpWhitespace;
  }

  /** An empty list inside whitespace, `" []\n"`, is an empty field: it gives the default. */
  lemma ToBoolEmptyList()
    ensures ToBool(" []\n", true)
  {
    var e := " []\n";
    var m := e[1..];
    assert m == ['[', ']', '\n'];
    assert e[0] in PhpWhitespace && m[0] !in PhpWhitespace;
    assert TrimAnyLeft(m, PhpWhitespace) == m;
    assert TrimAnyLeft(e, PhpWhitespace) == m;
    var l := m[..2];
    assert l == EmptyListText;
    assert m[2] in PhpWhitespace && l[1] !in PhpWhitespace;
    assert TrimAnyRight(l, PhpWhitespace) == l;
    assert TrimAnyRight(m, PhpWhitespace) == l;
  }
}

=== FILE: flat_url_resolver.dfy ===
/**
 * Flat-URL resolution (FlatUrlResolver): a request path that is not a
 * readable page of the tree is matched against the flat URIs of all pages of
 * the index; ambiguous matches are settled by a priority order, and a
 * hierarchical lookup is the last resort.
 */
module FlatUrlResolver {
  import opened Wrappers
  import opened Strings
  import opened Pages
  import opened UrlHelper

  /** What a route handler hands back to the framework. */
  datatype Outcome =
    | Serve(id: Id)                          // the page object itself: rendered by the framework
    | Redirect(target: string, status: int)  // `go($target, $status)`
    | NotFound                               // `null`: the framework's 404

  const MovedPermanently: int := 301

  // ---------------------------------------------------------------------
  // Candidate collection
  // ---------------------------------------------------------------------

  /** A page that `findPagesByFlatUrl` accepts for `path`: not a section, and its URI is `path`. */
  predicate IsFlatMatch(s: Site, id: Id, toggle: bool, path: string)
    requires WF(s) && id in s.pages
  {
    !s.pages[id].IsSection() && GeneratePageUri(s, id, true, toggle) == path
  }

  /** The pages of `ids` that match, in their order in `ids`. */
  function FlatMatches(s: Site, ids: seq<Id>, toggle: bool, path: string): (r: seq<Id>)
    requires WF(s) && forall k :: 0 <= k < |ids| ==> ids[k] in s.pages
    ensures forall k :: 0 <= k < |r| ==> r[k] in s.pages
    ensures forall x :: x in r <==> x in ids && IsFlatMatch(s, x, toggle, path)
    ensures |r| <= |ids|
  {
    if |ids| == 0 then []
    else
      var init := FlatMatches(s, ids[..|ids| - 1], toggle, path);
      var last := ids[|ids| - 1];
      assert forall x :: x in ids <==> x in ids[..|ids| - 1] || x == last;
      if IsFlatMatch(s, last, toggle, path) then init + [last] else init
  }

  /** Without repeated pages in the input, no page is a candidate twice. */
  lemma {:induction false} FlatMatchesDistinct(s: Site, ids: seq<Id>, toggle: bool, path: string)
    requires WF(s) && forall k :: 0 <= k < |ids| ==> ids[k] in s.pages
    requires Distinct(ids)
    ensures Distinct(FlatMatches(s, ids, toggle, path))
  {
    if |ids| > 0 {
      var front := ids[..|ids| - 1];
      FlatMatchesDistinct(s, front, toggle, path);
      var init := FlatMatches(s, front, toggle, path);
      var last := ids[|ids| - 1];
      assert last !in front;
      assert last !in init;
      if IsFlatMatch(s, last, toggle, path) {
        var r := init + [last];
        forall i, j | 0 <= i < j < |r| ensures r[i] != r[j] {
          assert r[i] == init[i] && r[i] in init;
          if j == |r| - 1 {
            assert r[j] == last;
          } else {
            assert r[j] == init[j];
          }
        }
      }
    }
  }

  /** No matching page in `ids`, no candidate. */
  lemma {:induction false} FlatMatchesEmpty(s: Site, ids: seq<Id>, toggle: bool, path: string)
    requires WF(s) && forall k :: 0 <= k < |ids| ==> ids[k] in s.pages
    requires forall k :: 0 <= k < |ids| ==> !IsFlatMatch(s, ids[k], toggle, path)
    ensures FlatMatches(s, ids, toggle, path) == []
  {
    if |ids| > 0 {
      FlatMatchesEmpty(s, ids[..|ids| - 1], toggle, path);
    }
  }

  /** If `id` is the only page of `ids` that matches, it is the single candidate. */
  lemma {:induction false} FlatMatchesSingleton(s: Site, ids: seq<Id>, toggle: bool, path: string, id: Id)
    requires WF(s) && forall k :: 0 <= k < |ids| ==> ids[k] in s.pages
    requires Distinct(ids)
    requires id in ids && IsFlatMatch(s, id, toggle, path)
    requires forall x :: x in ids && x != id ==> !IsFlatMatch(s, x, toggle, path)
    ensures FlatMatches(s, ids, toggle, path) == [id]
  {
    var front := ids[..|ids| - 1];
    var last := ids[|ids| - 1];
    if last == id {
      forall k | 0 <= k < |front| ensures !IsFlatMatch(s, front[k], toggle, path) {
        assert front[k] == ids[k] && ids[k] in ids;
      }
      FlatMatchesEmpty(s, front, toggle, path);
    } else {
      assert id in front by {
        var i :| 0 <= i < |ids| && ids[i] == id;
        assert front[i] == id;
      }
      assert forall x :: x in front ==> x in ids;
      FlatMatchesSingleton(s, front, toggle, path, id);
    }
  }

  /** `end(explode('/', trim($path, '/')))`, `None` for an empty segment list. */
  function LastSegment(segments: seq<string>): Option<string> {
    if |segments| == 0 then None else Some(segments[|segments| - 1])
  }

  /**
   * `findPagesByFlatUrl($path, $segments)`: one pass over the index with the
   * source's two checks. The second (slug) check only accepts a page whose
   * URI already equals the path, so it never adds a page the first missed.
   */
  method FindPagesByFlatUrl(s: Site, toggle: bool, path: string, segments: seq<string>)
    returns (candidates: seq<Id>)
    requires WF(s)
    ensures candidates == FlatMatches(s, s.index, toggle, path)
    ensures forall x :: x in candidates <==>
      x in s.index && !s.pages[x].IsSection() && GeneratePageUri(s, x, true, toggle) == path
    ensures Distinct(candidates)
  {
    var lastSegment := LastSegment(segments);
    candidates := [];
    var i := 0;
    while i < |s.index|
      invariant 0 <= i <= |s.index|
      invariant candidates == FlatMatches(s, s.index[..i], toggle, path)
    {
      var id := s.index[i];
      assert s.index[..i + 1][..i] == s.index[..i];
      var page := s.pages[id];
      if !page.IsSection() {
        var flatUri := GeneratePageUri(s, id, true, toggle);
        if flatUri == path {
          candidates := candidates + [id];
        } else if lastSegment == Some(page.slug) {
          var expectedFlatUri := GeneratePageUri(s, id, true, toggle);
          if expectedFlatUri == path {
            candidates := candidates + [id];
          }
        }
      }
      i := i + 1;
    }
    assert s.index[..i] == s.index;
    FlatMatchesDistinct(s, s.index, toggle, path);
  }

  // ---------------------------------------------------------------------
  // Priority order among candidates
  // ---------------------------------------------------------------------

  /** `count(explode('/', $uri))`. */
  function Depth(uri: string): (r: nat)
    ensures r == CountChar(uri, '/') + 1
  {
    |Split(uri, '/')|
  }

  /** PHP arithmetic on a nullable number: `null` acts as 0. */
  function NumValue(num: Option<int>): int {
    num.GetOr(0)
  }

  /**
   * The `usort` comparator of `resolvePriorityConflict`, as written: depth of
   * the hierarchical URI, listed before unlisted, then `num` (a strict `!==`
   * test, then a subtraction in which `null` is 0), then `strcmp` of slugs.
   * On pages whose number matches their status, as the framework builds
   * them, it is the key order `Compare`.
   */
  function CompareAsWritten(a: Page, b: Page): (r: int)
    ensures a.NumMatchesStatus() && b.NumMatchesStatus() ==> r == Compare(a, b)
  {
    var da := Depth(a.uri);
    var db := Depth(b.uri);
    if da != db then da - db
    else if a.IsListed() != b.IsListed() then (if b.IsListed() then 1 else -1)
    else if a.num != b.num then NumValue(a.num) - NumValue(b.num)
    else StrCmp(a.slug, b.slug)
  }

  /** The priority key: depth, unlisted-ness, sort number with `null` as 0, slug. */
  datatype Key = Key(depth: int, unlisted: int, num: int, slug: string)

  function KeyOf(p: Page): Key {
    Key(Depth(p.uri), if p.IsListed() then 0 else 1, NumValue(p.num), p.slug)
  }

  /** Lexicographic comparison of keys: negative, zero or positive. */
  function CompareKeys(a: Key, b: Key): int {
    if a.depth != b.depth then a.depth - b.depth
    else if a.unlisted != b.unlisted then a.unlisted - b.unlisted
    else if a.num != b.num then a.num - b.num
    else StrCmp(a.slug, b.slug)
  }

  /**
   * The priority order as a comparison of keys: the same four keys, `null`
   * counted as 0, and a tie on the number always falls through to the slug.
   */
  function Compare(a: Page, b: Page): (r: int)
    ensures r == 0 <==> KeyOf(a) == KeyOf(b)
    ensures (r < 0 <==> CompareKeys(KeyOf(a), KeyOf(b)) < 0) && (r > 0 <==> CompareKeys(KeyOf(a), KeyOf(b)) > 0)
  {
    var da := Depth(a.uri);
    var db := Depth(b.uri);
    if da != db then da - db
    else if a.IsListed() != b.IsListed() then (if b.IsListed() then 1 else -1)
    else if NumValue(a.num) != NumValue(b.num) then NumValue(a.num) - NumValue(b.num)
    else StrCmp(a.slug, b.slug)
  }

  /** The key order is a total preorder: antisymmetric in sign and transitive. */
  lemma CompareAntisymmetric(a: Page, b: Page)
    ensures (Compare(a, b) < 0 <==> Compare(b, a) > 0) && (Compare(a, b) == 0 <==> Compare(b, a) == 0)
  {
    StrCmpAntisymmetric(a.slug, b.slug);
  }

  lemma CompareTransitive(a: Page, b: Page, c: Page)
    requires Compare(a, b) <= 0 && Compare(b, c) <= 0
    ensures Compare(a, c) <= 0
    ensures Compare(a, b) < 0 || Compare(b, c) < 0 ==> Compare(a, c) < 0
  {
    var ka, kb, kc := KeyOf(a), KeyOf(b), KeyOf(c);
    if ka.depth == kb.depth == kc.depth && ka.unlisted == kb.unlisted == kc.unlisted && ka.num == kb.num == kc.num {
      StrCmpTransitive(a.slug, b.slug, c.slug);
      StrCmpAntisymmetric(a.slug, c.slug);
      if StrCmp(a.slug, c.slug) == 0 {
        assert a.slug == c.slug;
        StrCmpAntisymmetric(a.slug, b.slug);
      }
    }
  }

  /**
   * The written comparator and the key order differ only on a `null`/`0`
   * pair of numbers, which two pages of the same status never form.
   */
  lemma CompareAgreesWithoutNullZeroPair(a: Page, b: Page)
    requires !(a.num == None && b.num == Some(0)) && !(a.num == Some(0) && b.num == None)
    ensures CompareAsWritten(a, b) == Compare(a, b)
  {
  }

  /** The position `usort` moves to the front: with a stable sort, the first minimal candidate. */
  function FirstMinimalIndex(s: Site, cs: seq<Id>): (i: nat)
    requires |cs| > 0 && forall k :: 0 <= k < |cs| ==> cs[k] in s.pages
    ensures i < |cs|
  {
    if |cs| == 1 then 0
    else
      var m := FirstMinimalIndex(s, cs[..|cs| - 1]);
      if CompareAsWritten(s.pages[cs[|cs| - 1]], s.pages[cs[m]]) < 0 then |cs| - 1 else m
  }

  /** `resolvePriorityConflict($candidates, $path)`; `null` for no candidates. */
  function ResolvePriorityConflict(s: Site, candidates: seq<Id>): (r: Option<Id>)
    requires forall k :: 0 <= k < |candidates| ==> candidates[k] in s.pages
    ensures r.None? <==> |candidates| == 0
    ensures r.Some? ==> r.value in candidates
  {
    if |candidates| == 0 then None else Some(candidates[FirstMinimalIndex(s, candidates)])
  }

  /** The winner is minimal under the priority order: no candidate has a smaller key. */
  lemma {:induction false} FirstMinimalIsLeast(s: Site, cs: seq<Id>)
    requires WF(s)
    requires |cs| > 0 && forall k :: 0 <= k < |cs| ==> cs[k] in s.pages
    ensures var w := cs[FirstMinimalIndex(s, cs)];
      forall k :: 0 <= k < |cs| ==> CompareAsWritten(s.pages[w], s.pages[cs[k]]) <= 0
  {
    assert forall k :: 0 <= k < |cs| ==> s.pages[cs[k]].NumMatchesStatus();
    var w := cs[FirstMinimalIndex(s, cs)];
    if |cs| == 1 {
      CompareAntisymmetric(s.pages[w], s.pages[w]);
    } else {
      var front := cs[..|cs| - 1];
      var m := FirstMinimalIndex(s, front);
      var last := s.pages[cs[|cs| - 1]];
      FirstMinimalIsLeast(s, front);
      assert front[m] == cs[m];
      CompareAntisymmetric(last, s.pages[cs[m]]);
      forall k | 0 <= k < |cs| ensures Compare(s.pages[w], s.pages[cs[k]]) <= 0 {
        if k < |cs| - 1 {
          assert cs[k] == front[k];
          if Compare(last, s.pages[cs[m]]) < 0 {
            CompareTransitive(last, s.pages[cs[m]], s.pages[cs[k]]);
          }
        } else {
          CompareAntisymmetric(s.pages[w], s.pages[w]);
        }
      }
    }
  }

  /** The winner is strictly better than every candidate before it, as a stable sort keeps it first. */
  lemma {:induction false} FirstMinimalIsFirst(s: Site, cs: seq<Id>)
    requires WF(s)
    requires |cs| > 0 && forall k :: 0 <= k < |cs| ==> cs[k] in s.pages
    ensures var i := FirstMinimalIndex(s, cs);
      forall j :: 0 <= j < i ==> CompareAsWritten(s.pages[cs[j]], s.pages[cs[i]]) > 0
  {
    assert forall k :: 0 <= k < |cs| ==> s.pages[cs[k]].NumMatchesStatus();
    if |cs| > 1 {
      var front := cs[..|cs| - 1];
      var m := FirstMinimalIndex(s, front);
      var last := s.pages[cs[|cs| - 1]];
      FirstMinimalIsFirst(s, front);
      assert front[m] == cs[m];
      if Compare(last, s.pages[cs[m]]) < 0 {
        FirstMinimalIsLeast(s, front);
        forall j | 0 <= j < |cs| - 1 ensures Compare(s.pages[cs[j]], last) > 0 {
          assert cs[j] == front[j];
          CompareTransitive(last, s.pages[cs[m]], s.pages[cs[j]]);
          CompareAntisymmetric(last, s.pages[cs[j]]);
        }
      } else {
        forall j | 0 <= j < m ensures Compare(s.pages[cs[j]], s.pages[cs[m]]) > 0 {
          assert cs[j] == front[j];
        }
      }
    }
  }

  // ---------------------------------------------------------------------
  // The resolver
  // ---------------------------------------------------------------------

  /**
   * `tryHierarchicalFallback($path, $segments)`: a readable page found at
   * `path` is redirected (301) to its flat URI when that differs from `path`
   * and the toggle is off, and served as is otherwise; no readable page gives
   * `null`.
   */
  function TryHierarchicalFallback(s: Site, toggle: bool, path: string): (r: Outcome)
    requires WF(s)
    ensures FindReadable(s, path).None? <==> r == NotFound
    ensures r.Redirect? <==>
      && FindReadable(s, path).Some?
      && !toggle
      && GeneratePageUri(s, FindReadable(s, path).value, true, toggle) != path
    ensures r.Redirect? ==>
      && r.status == MovedPermanently
      && r.target == GeneratePageUri(s, FindReadable(s, path).value, true, toggle)
    ensures r.Serve? ==> FindReadable(s, path) == Some(r.id)
  {
    match FindReadable(s, path)
    case None => NotFound
    case Some(page) =>
      var flatUri := GeneratePageUri(s, page, true, toggle);
      if flatUri != path && !toggle then Redirect(flatUri, MovedPermanently)
      else Serve(page)
  }

  /** `handleFlatUrlResolution($path)` under the given toggle state. */
  function HandleFlatUrlResolution(s: Site, toggle: bool, path: string): (r: Outcome)
    requires WF(s)
    ensures FindReadable(s, path).Some? ==> r == Serve(FindReadable(s, path).value)
    ensures FindReadable(s, path).None? && toggle ==> r == NotFound
    ensures r.Serve? ==> r.id in s.pages && s.pages[r.id].readable
  {
    match FindReadable(s, path)
    case Some(page) => Serve(page)
    case None =>
      if toggle then NotFound
      else
        var candidates := FlatMatches(s, s.index, toggle, path);
        if |candidates| == 0 then TryHierarchicalFallback(s, toggle, path)
        else if |candidates| == 1 && s.pages[candidates[0]].readable then Serve(candidates[0])
        else
          var resolved := ResolvePriorityConflict(s, candidates);
          if resolved.Some? && s.pages[resolved.value].readable then Serve(resolved.value)
          else TryHierarchicalFallback(s, toggle, path)
  }

  /**
   * What the resolver can answer: the readable page found at `path`; with the
   * toggle on nothing else; with it off, a readable non-section index page
   * whose flat URI is `path`. It never redirects: its fallback repeats the
   * lookup that already failed.
   */
  lemma HandleOutcomes(s: Site, toggle: bool, path: string)
    requires WF(s)
    ensures var r := HandleFlatUrlResolution(s, toggle, path);
      && !r.Redirect?
      && (FindReadable(s, path).Some? ==> r == Serve(FindReadable(s, path).value))
      && (FindReadable(s, path).None? && toggle ==> r == NotFound)
      && (r.Serve? && FindReadable(s, path).None? ==>
            && !toggle
            && r.id in s.index
            && s.pages[r.id].readable
            && !s.pages[r.id].IsSection()
            && GeneratePageUri(s, r.id, true, toggle) == path)
  {
    if FindReadable(s, path).None? && !toggle {
      var candidates := FlatMatches(s, s.index, toggle, path);
      if |candidates| > 0 {
        assert candidates[0] in candidates;
      }
    }
  }

  /**
   * Among several candidates, a readable priority winner is served, and it is
   * minimal under the priority order among all candidates.
   */
  lemma HandleServesPriorityWinner(s: Site, path: string)
    requires WF(s) && FindReadable(s, path).None?
    requires |FlatMatches(s, s.index, false, path)| > 1
    ensures var cs := FlatMatches(s, s.index, false, path);
      var i := FirstMinimalIndex(s, cs);
      var w := cs[i];
      && (s.pages[w].readable ==> HandleFlatUrlResolution(s, false, path) == Serve(w))
      && (!s.pages[w].readable ==> HandleFlatUrlResolution(s, false, path) == NotFound)
      && (forall k :: 0 <= k < |cs| ==> Compare(s.pages[w], s.pages[cs[k]]) <= 0)
      && (forall j :: 0 <= j < i ==> Compare(s.pages[cs[j]], s.pages[w]) > 0)
  {
    FirstMinimalIsLeast(s, FlatMatches(s, s.index, false, path));
    FirstMinimalIsFirst(s, FlatMatches(s, s.index, false, path));
  }

  /**
   * Round trip: with the toggle off, requesting a readable page's flat URI
   * gives that page back when it is the only index page with that flat URI
   * and no readable page sits at that path in the tree.
   */
  lemma FlatUriRoundTrip(s: Site, id: Id)
    requires WF(s) && id in s.index && s.pages[id].readable && !s.pages[id].IsSection()
    requires FindReadable(s, GeneratePageUri(s, id, true, false)).None?
    requires forall x :: x in s.index && x != id ==>
      !IsFlatMatch(s, x, false, GeneratePageUri(s, id, true, false))
    ensures HandleFlatUrlResolution(s, false, GeneratePageUri(s, id, true, false)) == Serve(id)
  {
    var path := GeneratePageUri(s, id, true, false);
    FlatMatchesSingleton(s, s.index, false, path, id);
  }

  /** `isSectionPageAccessible($page)`: non-section pages always, section pages only with the toggle on. */
  function IsSectionPageAccessible(s: Site, id: Id, toggle: bool): (r: bool)
    requires id in s.pages
    ensures !s.pages[id].IsSection() ==> r
    ensures s.pages[id].IsSection() ==> r == toggle
  {
    if !s.pages[id].IsSection() then true else toggle
  }

  /** Every page the flat scan can serve is accessible in the sense of `isSectionPageAccessible`. */
  lemma FlatCandidatesAreAccessible(s: Site, toggle: bool, path: string)
    requires WF(s)
    ensures forall x :: x in FlatMatches(s, s.index, toggle, path) ==> IsSectionPageAccessible(s, x, toggle)
  {
  }
}

=== FILE: index_api.dfy ===
/**
 * The `index.json` data (IndexApi::getData): one record per page of the
 * site index that the frontend may route to, with its public URI, its URI in
 * every configured language, its effective parent and its navigation.
 */
module IndexApi {
  import opened Wrappers
  import opened Strings
  import opened Pages
  import opened UrlHelper
  import opened Navigation
  import opened LanguageHelper

  datatype IndexRecord = IndexRecord(
    id: Id,
    uri: string,
    status: Status,
    intendedTemplate: string,
    // `null` for every page that is not an `item`
    parent: Option<string>,
    // `null` for every page that is not an `item`
    coverOnly: Option<bool>,
    translations: map<string, string>,
    navigation: PageNav)

  /**
   * The pages `getData` keeps: cover-only items are dropped, and with the
   * toggle off so is a section whose URI comes out empty.
   */
  predicate Retained(s: Site, id: Id, toggle: bool)
    requires WF(s) && id in s.pages
  {
    && !s.pages[id].IsCoverOnlyItem()
    && !(PageUri(s, id, toggle) == "" && s.pages[id].IsSection() && !toggle)
  }

  /** The URI of a page in one language: hierarchical with the toggle on, flat in that language's slugs otherwise. */
  function TranslatedUri(s: Site, id: Id, code: string, toggle: bool): string
    requires WF(s) && id in s.pages
  {
    if toggle then s.pages[id].UriIn(code)
    else if s.pages[id].isHome then "home"
    else Join(FlatSegments(s, id, Some(code)), "/")
  }

  /** The `translations` map, filled in configured language order (a repeated code keeps the last value). */
  function Translations(s: Site, id: Id, langs: seq<Language>, toggle: bool): (r: map<string, string>)
    requires WF(s) && id in s.pages
    ensures r.Keys == set l | l in langs :: l.code
    ensures forall l :: l in langs ==> r[l.code] == TranslatedUri(s, id, l.code, toggle)
    decreases |langs|
  {
    if |langs| == 0 then map[]
    else
      var last := langs[|langs| - 1];
      var front := langs[..|langs| - 1];
      assert forall l :: l in langs <==> l in front || l == last;
      Translations(s, id, front, toggle)[last.code := TranslatedUri(s, id, last.code, toggle)]
  }

  /** `generatePageUri` of the effective parent, for `item` pages only. */
  function ParentUri(s: Site, id: Id, toggle: bool): (r: Option<string>)
    requires WF(s) && id in s.pages
    ensures r.Some? <==> s.pages[id].IsItem() && EffectiveParent(s, id, toggle).Some?
    ensures r.Some? ==> r.value == GeneratePageUri(s, EffectiveParent(s, id, toggle).value, true, toggle)
  {
    if s.pages[id].IsItem() then
      match EffectiveParent(s, id, toggle)
      case None => None
      case Some(p) => Some(PageUri(s, p, toggle))
    else None
  }

  /** The record of one retained page. */
  function Record(s: Site, id: Id, langs: seq<Language>, toggle: bool): (r: IndexRecord)
    requires WF(s) && id in s.pages
    ensures r.id == id && r.uri == GeneratePageUri(s, id, true, toggle)
    ensures r.coverOnly.Some? <==> s.pages[id].IsItem()
    ensures r.coverOnly.Some? ==> r.coverOnly.value == s.pages[id].coverOnly
    ensures r.parent.Some? ==> s.pages[id].IsItem()
    ensures r.translations.Keys == set l | l in langs :: l.code
  {
    var p := s.pages[id];
    IndexRecord(
      id,
      PageUri(s, id, toggle),
      p.status,
      p.template,
      ParentUri(s, id, toggle),
      if p.IsItem() then Some(p.coverOnly) else None,
      Translations(s, id, langs, toggle),
      PageNavigation(s, id, toggle))
  }

  /** The retained pages of `ids`, in order. */
  function RetainedIds(s: Site, ids: seq<Id>, toggle: bool): (r: seq<Id>)
    requires WF(s) && forall k :: 0 <= k < |ids| ==> ids[k] in s.pages
    ensures forall k :: 0 <= k < |r| ==> r[k] in s.pages
    ensures forall x :: x in r <==> x in ids && Retained(s, x, toggle)
  {
    if |ids| == 0 then []
    else
      var rest := RetainedIds(s, ids[1..], toggle);
      assert forall x :: x in ids <==> x == ids[0] || x in ids[1..];
      if Retained(s, ids[0], toggle) then [ids[0]] + rest else rest
  }

  /** The records of `ids`, in order. */
  function RecordsOf(s: Site, ids: seq<Id>, langs: seq<Language>, toggle: bool): (r: seq<IndexRecord>)
    requires WF(s) && forall k :: 0 <= k < |ids| ==> ids[k] in s.pages
    ensures |r| == |ids|
  {
    if |ids| == 0 then [] else [Record(s, ids[0], langs, toggle)] + RecordsOf(s, ids[1..], langs, toggle)
  }

  /** Each record is the record of the page at the same position. */
  lemma {:induction false} RecordsOfAt(s: Site, ids: seq<Id>, langs: seq<Language>, toggle: bool, k: nat)
    requires WF(s) && forall j :: 0 <= j < |ids| ==> ids[j] in s.pages
    requires k < |ids|
    ensures RecordsOf(s, ids, langs, toggle)[k] == Record(s, ids[k], langs, toggle)
  {
    var all := RecordsOf(s, ids, langs, toggle);
    var rest := RecordsOf(s, ids[1..], langs, toggle);
    assert all == [Record(s, ids[0], langs, toggle)] + rest;
    if k > 0 {
      assert all[k] == rest[k - 1] && ids[1..][k - 1] == ids[k];
      RecordsOfAt(s, ids[1..], langs, toggle, k - 1);
    }
  }

  /**
   * `getData()`: one pass over the site index, skipping what is not
   * retained and building a record for the rest.
   */
  method GetData(s: Site, langs: seq<Language>, toggle: bool) returns (index: seq<IndexRecord>)
    requires WF(s)
    ensures index == RecordsOf(s, RetainedIds(s, s.index, toggle), langs, toggle)
    ensures forall x :: x in s.index ==> (Retained(s, x, toggle) <==> exists k :: 0 <= k < |index| && index[k].id == x)
  {
    index := [];
    var i := |s.index|;
    // built back to front, so that each step prepends the record of s.index[i]
    while i > 0
      invariant 0 <= i <= |s.index|
      invariant index == RecordsOf(s, RetainedIds(s, s.index[i..], toggle), langs, toggle)
    {
      i := i - 1;
      var id := s.index[i];
      ghost var later := RetainedIds(s, s.index[i + 1..], toggle);
      assert s.index[i..][1..] == s.index[i + 1..];
      if Retained(s, id, toggle) {
        assert RetainedIds(s, s.index[i..], toggle) == [id] + later;
        assert ([id] + later)[1..] == later;
        index := [Record(s, id, langs, toggle)] + index;
      } else {
        assert RetainedIds(s, s.index[i..], toggle) == later;
      }
    }
    assert s.index[0..] == s.index;
    RecordsCoverRetained(s, langs, toggle, index);
  }

  lemma RecordsCoverRetained(s: Site, langs: seq<Language>, toggle: bool, index: seq<IndexRecord>)
    requires WF(s) && index == RecordsOf(s, RetainedIds(s, s.index, toggle), langs, toggle)
    ensures forall x :: x in s.index ==> (Retained(s, x, toggle) <==> exists k :: 0 <= k < |index| && index[k].id == x)
  {
    var ids := RetainedIds(s, s.index, toggle);
    forall x | x in s.index
      ensures Retained(s, x, toggle) <==> exists k :: 0 <= k < |index| && index[k].id == x
    {
      if Retained(s, x, toggle) {
        assert x in ids;
        var k :| 0 <= k < |ids| && ids[k] == x;
        RecordsOfAt(s, ids, langs, toggle, k);
        assert index[k].id == x;
      } else {
        forall k | 0 <= k < |index| ensures index[k].id != x {
          RecordsOfAt(s, ids, langs, toggle, k);
          assert index[k].id == ids[k] && ids[k] in ids;
        }
      }
    }
  }

  /** The home page is always kept: its URI is `home`, never empty. */
  lemma HomeIsRetained(s: Site, id: Id, toggle: bool)
    requires WF(s) && id in s.pages && s.pages[id].isHome && !s.pages[id].IsCoverOnlyItem()
    ensures Retained(s, id, toggle)
  {
  }

  /**
   * What is dropped: every cover-only item, and with the toggle off every
   * section whose flat URI is empty; with the toggle on, every other page
   * is kept.
   */
  lemma RetainedCases(s: Site, id: Id, toggle: bool)
    requires WF(s) && id in s.pages
    ensures s.pages[id].IsCoverOnlyItem() ==> !Retained(s, id, toggle)
    ensures toggle ==> (Retained(s, id, toggle) <==> !s.pages[id].IsCoverOnlyItem())
    ensures !toggle && s.pages[id].IsSection() && !s.pages[id].isHome && FlatUri(s, id, None) == "" ==>
      !Retained(s, id, toggle)
    ensures !s.pages[id].IsSection() && !s.pages[id].IsCoverOnlyItem() ==> Retained(s, id, toggle)
  {
  }

  /** A language whose slugs agree with the default slugs along the whole chain. */
  predicate DefaultSlugsOnChain(s: Site, id: Id, code: string)
    requires WF(s) && id in s.pages
  {
    forall k :: 0 <= k < |UpChain(s, id)| ==>
      s.pages[UpChain(s, id)[k]].SlugIn(Some(code)) == s.pages[UpChain(s, id)[k]].slug
  }

  lemma {:induction false} FlatSegmentsDefaultSlugs(s: Site, id: Id, code: string)
    requires WF(s) && id in s.pages && DefaultSlugsOnChain(s, id, code)
    ensures FlatSegments(s, id, Some(code)) == FlatSegments(s, id, None)
    decreases s.rank[id]
  {
    var p := s.pages[id];
    assert UpChain(s, id)[0] == id;
    if !p.isHome && p.parent.Some? {
      var q := p.parent.value;
      assert UpChain(s, id) == [id] + UpChain(s, q);
      forall k | 0 <= k < |UpChain(s, q)|
        ensures s.pages[UpChain(s, q)[k]].SlugIn(Some(code)) == s.pages[UpChain(s, q)[k]].slug
      {
        assert UpChain(s, q)[k] == UpChain(s, id)[k + 1];
      }
      FlatSegmentsDefaultSlugs(s, q, code);
    }
  }

  /**
   * With the toggle off, the per-language URI is the same walk as the
   * page's own URI: for a language whose slugs agree with the default slugs
   * along the chain, the translation equals the record's `uri`.
   */
  lemma FlatTranslationMatchesUri(s: Site, id: Id, code: string)
    requires WF(s) && id in s.pages && DefaultSlugsOnChain(s, id, code)
    ensures TranslatedUri(s, id, code, false) == GeneratePageUri(s, id, true, false)
  {
    if !s.pages[id].isHome {
      FlatSegmentsDefaultSlugs(s, id, code);
    }
  }

  /** With the toggle off, a translation of a non-home, non-section page ends with its slug in that language. */
  lemma FlatTranslationEndsWithSlug(s: Site, id: Id, code: string)
    requires WF(s) && id in s.pages && !s.pages[id].isHome && !s.pages[id].IsSection()
    ensures HasSuffix(TranslatedUri(s, id, code, false), s.pages[id].SlugIn(Some(code)))
  {
    FlatUriEndsWithOwnSlug(s, id, Some(code));
  }
}

=== FILE: language_helper.dfy ===
/**
 * Language lists (LanguageHelper): the configured languages as entries for
 * the API, the translations (every language but the default), and the
 * default language with its URL prefix optionally removed.
 */
module LanguageHelper {
  import opened Wrappers
  import opened Strings

  /** A configured language, as the framework reports it. */
  datatype Language = Language(code: string, name: string, url: string, locale: string)

  /** One API entry: `['code', 'name', 'url', 'locale', 'active']`. */
  datatype LanguageEntry = LanguageEntry(code: string, name: string, url: string, locale: string, active: bool)

  /** The entry of one language while `current` is the request's language code. */
  function EntryOf(l: Language, current: string): (e: LanguageEntry)
    ensures e.code == l.code && e.name == l.name && e.url == l.url && e.locale == l.locale
    ensures e.active <==> l.code == current
  {
    LanguageEntry(l.code, l.name, l.url, l.locale, l.code == current)
  }

  /** `getAllLanguages`: one entry per configured language, in configured order. */
  function GetAllLanguages(langs: seq<Language>, current: string): (r: seq<LanguageEntry>)
    ensures |r| == |langs|
    ensures forall k :: 0 <= k < |r| ==> r[k] == EntryOf(langs[k], current)
  {
    if |langs| == 0 then []
    else [EntryOf(langs[0], current)] + GetAllLanguages(langs[1..], current)
  }

  /** `getTranslations`: the languages whose code differs from the default code, in order. */
  function GetTranslations(langs: seq<Language>, defaultCode: string, current: string): (r: seq<LanguageEntry>)
    ensures forall k :: 0 <= k < |r| ==> r[k].code != defaultCode
    ensures forall k :: 0 <= k < |r| ==> (r[k].active <==> r[k].code == current)
    ensures forall l :: l in langs && l.code != defaultCode ==> EntryOf(l, current) in r
    ensures forall e :: e in r ==> exists l :: l in langs && e == EntryOf(l, current)
  {
    if |langs| == 0 then []
    else
      var rest := GetTranslations(langs[1..], defaultCode, current);
      assert forall l :: l in langs ==> l == langs[0] || l in langs[1..];
      if langs[0].code != defaultCode then [EntryOf(langs[0], current)] + rest else rest
  }

  /** Number of configured languages carrying code `c`. */
  function CountCode(langs: seq<Language>, c: string): nat {
    if |langs| == 0 then 0
    else (if langs[0].code == c then 1 else 0) + CountCode(langs[1..], c)
  }

  /** The entries of `all` whose code is not `c`, in order. */
  function WithoutCode(all: seq<LanguageEntry>, c: string): seq<LanguageEntry> {
    if |all| == 0 then []
    else (if all[0].code != c then [all[0]] else []) + WithoutCode(all[1..], c)
  }

  /**
   * The translations are exactly the full language list with the default
   * language's entries taken out, order preserved; so there are as many as
   * languages minus those with the default code.
   */
  lemma {:induction false} TranslationsAreAllButDefault(langs: seq<Language>, defaultCode: string, current: string)
    ensures GetTranslations(langs, defaultCode, current) == WithoutCode(GetAllLanguages(langs, current), defaultCode)
    ensures |GetTranslations(langs, defaultCode, current)| == |langs| - CountCode(langs, defaultCode)
  {
    if |langs| > 0 {
      TranslationsAreAllButDefault(langs[1..], defaultCode, current);
      var all := GetAllLanguages(langs, current);
      assert all[1..] == GetAllLanguages(langs[1..], current);
    }
  }

  /**
   * `getDefaultLanguage`: when the `prefixDefaultLocale` option is truthy the
   * URL is kept; otherwise every occurrence of `/` + code is removed from it.
   * `prefixOption` is the option's value, `None` when it is not set.
   */
  function GetDefaultLanguage(default: Language, current: string, prefixOption: Option<bool>): (e: LanguageEntry)
    ensures e.code == default.code && e.name == default.name && e.locale == default.locale
    ensures e.active <==> default.code == current
    ensures prefixOption == Some(true) ==> e.url == default.url
    ensures prefixOption != Some(true) ==> e.url == ReplaceAll(default.url, "/" + default.code, "")
  {
    var url := if prefixOption == Some(true) then default.url else ReplaceAll(default.url, "/" + default.code, "");
    LanguageEntry(default.code, default.name, url, default.locale, default.code == current)
  }

  /** Without the option, a URL that never contains `/` + code is reported unchanged. */
  lemma DefaultUrlKeptWithoutCode(default: Language, current: string, prefixOption: Option<bool>)
    requires forall i: nat :: !OccursAt(default.url, "/" + default.code, i)
    ensures GetDefaultLanguage(default, current, prefixOption).url == default.url
  {
    ReplaceAllNoOccurrence(default.url, "/" + default.code, "");
  }

  /** Without the option, the default language `en` at `/en/home` is reported at `/home`. */
  lemma DefaultUrlDropsCode()
    ensures GetDefaultLanguage(Language("en", "English", "/en/home", "en_US"), "en", None).url == "/home"
    ensures GetDefaultLanguage(Language("en", "English", "/en/home", "en_US"), "en", None).active
  {
    assert "/" + "en" == "/en";
    EnHomeReplaced();
  }

  lemma EnHomeReplaced()
    ensures ReplaceAll("/en/home", "/en", "") == "/home"
  {
    var u := "/en/home";
    assert u == ['/', 'e', 'n'] + ['/', 'h', 'o', 'm', 'e'];
    assert HasPrefix(u, "/en") && u[3..] == "/home";
    assert ReplaceAll(u, "/en", "") == "" + ReplaceAll("/home", "/en", "");
    var t := "/home";
    assert t == ['/'] + ['h', 'o', 'm', 'e'];
    assert !HasPrefix(t, "/en") && t[1..] == "home";
    assert ReplaceAll(t, "/en", "") == "/" + ReplaceAll("home", "/en", "");
    assert '/' !in "home" by { assert "home" == ['h', 'o', 'm', 'e']; }
    FirstCharAbsentNoReplace("home", "/en", "");
  }

  /**
   * The first language, in configured order, whose `code/` starts `uri`, and
   * `uri` with that prefix removed; `uri` unchanged when none does. Both the
   * `.json` route and the sitemap strip at most one prefix this way.
   */
  function StripLanguagePrefix(uri: string, langs: seq<Language>): (r: string)
    ensures |r| <= |uri| && HasSuffix(uri, r)
    ensures (forall l :: l in langs ==> !HasPrefix(uri, l.code + "/")) ==> r == uri
  {
    if |langs| == 0 then uri
    else if HasPrefix(uri, langs[0].code + "/") then uri[|langs[0].code| + 1..]
    else StripLanguagePrefix(uri, langs[1..])
  }

  /** The prefix removed is that of the first matching language. */
  lemma {:induction false} StripLanguagePrefixFirstMatch(uri: string, langs: seq<Language>, k: nat)
    requires k < |langs| && HasPrefix(uri, langs[k].code + "/")
    requires forall j :: 0 <= j < k ==> !HasPrefix(uri, langs[j].code + "/")
    ensures StripLanguagePrefix(uri, langs) == uri[|langs[k].code| + 1..]
    ensures uri == langs[k].code + "/" + StripLanguagePrefix(uri, langs)
  {
    if k > 0 {
      StripLanguagePrefixFirstMatch(uri, langs[1..], k - 1);
    }
  }
}

=== FILE: link_array.dfy ===
/**
 * `getLinkArray` (baukasten-field-methods): the JSON shape of a link field,
 * pointing either at a page of the site or at an external target.
 */
module LinkArray {
  import opened Wrappers
  import opened Strings

  /** The page a link targets, as far as the link array reads it. */
  datatype LinkedPage = LinkedPage(title: string, uri: string)

  /** What `$field->toLinkObject()` yields for a field holding a link. */
  datatype LinkObject = LinkObject(
    text: string,
    page: Option<LinkedPage>,
    href: string,
    linkType: string,
    // whether the link also names a file
    hasFile: bool,
    popup: string,
    hash: string)

  datatype Link = Link(
    href: Option<string>,
    title: Option<string>,
    linkType: string,
    uri: Option<string>,
    popup: bool,
    hash: string)

  /**
   * `getLinkArray($field)`, with `field` the field's link object (`None`
   * when the field yields none).
   */
  function GetLinkArray(field: Option<LinkObject>): (r: Option<Link>)
    ensures field.None? <==> r.None?
    ensures r.Some? ==> r.value.linkType == field.value.linkType && r.value.hash == field.value.hash
    ensures r.Some? ==> (r.value.popup <==> Truthy(field.value.popup))
    ensures r.Some? ==> (r.value.href.None? <==> field.value.page.Some?)
    ensures r.Some? && r.value.href.Some? ==> r.value.href.value == field.value.href
    ensures r.Some? ==> (r.value.uri.Some? <==> field.value.page.Some?)
  {
    match field
    case None => None
    case Some(l) =>
      var title :=
        if Truthy(l.text) then Some(l.text)
        else if l.page.Some? then Some(l.page.value.title)
        else None;
      var uri :=
        match l.page
        case None => None
        case Some(p) => Some(p.uri + (if l.hasFile then p.uri else ""));
      Some(Link(if l.page.Some? then None else Some(l.href), title, l.linkType, uri, Truthy(l.popup), l.hash))
  }

  /**
   * The title: the link text when it is truthy, else the linked page's
   * title, else `null`.
   */
  lemma LinkTitle(l: LinkObject)
    ensures var t := GetLinkArray(Some(l)).value.title;
      && (Truthy(l.text) ==> t == Some(l.text))
      && (!Truthy(l.text) && l.page.Some? ==> t == Some(l.page.value.title))
      && (!Truthy(l.text) && l.page.None? ==> t.None?)
  {
  }

  /**
   * A link array carries exactly one target: `href` for an external link,
   * `uri` for a page link, never both and never neither.
   */
  lemma ExactlyOneTarget(field: Option<LinkObject>)
    requires field.Some?
    ensures GetLinkArray(field).value.href.Some? != GetLinkArray(field).value.uri.Some?
  {
  }

  /**
   * The page URI, written out once without a file and twice with one (the
   * code concatenates the page URI with itself when a file is attached).
   */
  lemma PageUriDoubledWithFile(l: LinkObject)
    requires l.page.Some?
    ensures var u := GetLinkArray(Some(l)).value.uri.value;
      && (!l.hasFile ==> u == l.page.value.uri)
      && (l.hasFile ==> |u| == 2 * |l.page.value.uri| && HasPrefix(u, l.page.value.uri) && HasSuffix(u, l.page.value.uri))
  {
    var u := GetLinkArray(Some(l)).value.uri.value;
    var p := l.page.value.uri;
    if l.hasFile {
      assert u == p + p;
      assert u[..|p|] == p;
      assert u[|u| - |p|..] == p;
    }
  }

  /** The `getLinkArray` field method: its `title` argument is accepted and not used. */
  function FieldMethod(field: Option<LinkObject>, title: bool): (r: Option<Link>)
    ensures r == GetLinkArray(field)
  {
    GetLinkArray(field)
  }

  lemma TitleArgumentIgnored(field: Option<LinkObject>)
    ensures FieldMethod(field, true) == FieldMethod(field, false)
  {
  }
}

=== FILE: navigation.dfy ===
/**
 * Previous/next navigation (NavigationHelper): the effective parent of a
 * page, the sibling collection navigation runs over, and the two neighbour
 * entries.
 */
module Navigation {
  import opened Wrappers
  import opened Pages
  import opened UrlHelper

  /** A page the toggle-off parent walk passes over: a section that is not the home page. */
  predicate Skipped(s: Site, id: Id)
    requires id in s.pages
  {
    !s.pages[id].isHome && s.pages[id].IsSection()
  }

  /**
   * The `while` loop of `getEffectiveParent`: starting at `cur`, return the
   * first page that is not a skipped section; a home page stops the walk and
   * is returned; running off the root gives `null`.
   */
  function WalkUp(s: Site, cur: Option<Id>): (r: Option<Id>)
    requires WF(s) && (cur.Some? ==> cur.value in s.pages)
    ensures r.Some? ==> r.value in s.pages && !Skipped(s, r.value)
    decreases if cur.Some? then s.rank[cur.value] + 1 else 0
  {
    match cur
    case None => None
    case Some(c) =>
      if s.pages[c].isHome || !s.pages[c].IsSection() then Some(c)
      else WalkUp(s, s.pages[c].parent)
  }

  /** `getEffectiveParent($page)` under the given toggle state. */
  function EffectiveParent(s: Site, id: Id, toggle: bool): (r: Option<Id>)
    requires WF(s) && id in s.pages
    ensures s.pages[id].parent.None? ==> r.None?
    ensures toggle ==> r == s.pages[id].parent
    ensures r.Some? ==> r.value in s.pages
    ensures !toggle && r.Some? ==> s.pages[r.value].isHome || !s.pages[r.value].IsSection()
  {
    match s.pages[id].parent
    case None => None
    case Some(p) => if toggle then Some(p) else WalkUp(s, Some(p))
  }

  /** Every page of `chain` before position `k` is a skipped section. */
  predicate SkippedBefore(s: Site, chain: seq<Id>, k: int)
    requires forall i :: 0 <= i < |chain| ==> chain[i] in s.pages
  {
    0 <= k <= |chain| && forall j :: 0 <= j < k ==> Skipped(s, chain[j])
  }

  /**
   * Where the walk from `c` ends, described on the list `[c] + Ancestors(c)`:
   * at the first position `k` whose page is not a skipped section, or
   * nowhere when every page on the list is a skipped section.
   */
  lemma {:induction false} WalkUpStopsAtFirstUnskipped(s: Site, c: Id)
    requires WF(s) && c in s.pages
    ensures var chain := UpChain(s, c);
      var r := WalkUp(s, Some(c));
      && (r.Some? ==> exists k :: SkippedBefore(s, chain, k) && k < |chain| && chain[k] == r.value)
      && (r.None? ==> SkippedBefore(s, chain, |chain|))
    decreases s.rank[c]
  {
    var chain := UpChain(s, c);
    if s.pages[c].isHome || !s.pages[c].IsSection() {
      assert WalkUp(s, Some(c)) == Some(c);
      assert SkippedBefore(s, chain, 0);
    } else {
      assert chain[0] == c && Skipped(s, c);
      assert WalkUp(s, Some(c)) == WalkUp(s, s.pages[c].parent);
      match s.pages[c].parent
      case None =>
        assert chain == [c];
        assert SkippedBefore(s, chain, 1);
      case Some(q) =>
        WalkUpStopsAtFirstUnskipped(s, q);
        var up := UpChain(s, q);
        assert chain == [c] + up;
        match WalkUp(s, Some(q))
        case Some(r) =>
          var k :| SkippedBefore(s, up, k) && k < |up| && up[k] == r;
          assert chain[k + 1] == r;
          forall j | 0 <= j < k + 1 ensures Skipped(s, chain[j]) {
            if j > 0 { assert chain[j] == up[j - 1]; }
          }
          assert SkippedBefore(s, chain, k + 1);
        case None =>
          assert SkippedBefore(s, up, |up|);
          forall j | 0 <= j < |chain| ensures Skipped(s, chain[j]) {
            if j > 0 { assert chain[j] == up[j - 1]; }
          }
          assert SkippedBefore(s, chain, |chain|);
    }
  }

  /**
   * With the toggle off, the effective parent is the first strict ancestor
   * that is not a skipped section: the first non-home, non-section ancestor,
   * or the home page where the walk stopped; `None` when every ancestor is a
   * skipped section.
   */
  lemma EffectiveParentIsFirstUnskippedAncestor(s: Site, id: Id)
    requires WF(s) && id in s.pages
    ensures var anc := Ancestors(s, id);
      var r := EffectiveParent(s, id, false);
      && (r.Some? ==> exists k :: SkippedBefore(s, anc, k) && k < |anc| && anc[k] == r.value)
      && (r.None? ==> SkippedBefore(s, anc, |anc|))
  {
    match s.pages[id].parent
    case None =>
    case Some(p) =>
      WalkUpStopsAtFirstUnskipped(s, p);
      assert Ancestors(s, id) == [p] + Ancestors(s, p);
  }

  /** The pages navigation may step to: listed, and not a cover-only item. */
  function Navigable(s: Site, ids: seq<Id>): (r: seq<Id>)
    requires forall k :: 0 <= k < |ids| ==> ids[k] in s.pages
    ensures |r| <= |ids| && SubsequenceOf(r, ids)
    ensures forall x :: x in r <==>
      x in ids && s.pages[x].IsListed() && !s.pages[x].IsCoverOnlyItem()
  {
    if |ids| == 0 then []
    else
      var rest := Navigable(s, ids[1..]);
      var p := s.pages[ids[0]];
      if p.IsListed() && !p.IsCoverOnlyItem() then [ids[0]] + rest else rest
  }

  /**
   * `getNavigationSiblings($page, $effectiveParent)`: both toggle branches
   * take the listed children of the page's direct parent, minus cover-only
   * items; the `effectiveParent` argument is not used.
   */
  function NavigationSiblings(s: Site, id: Id, effectiveParent: Option<Id>, toggle: bool): (r: seq<Id>)
    requires WF(s) && id in s.pages
    ensures s.pages[id].parent.None? ==> r == []
    ensures s.pages[id].parent.Some? ==> SubsequenceOf(r, Children(s, s.pages[id].parent.value))
    ensures forall x :: x in r <==>
      && s.pages[id].parent.Some?
      && x in s.index
      && s.pages[x].parent == s.pages[id].parent
      && s.pages[x].IsListed()
      && !s.pages[x].IsCoverOnlyItem()
  {
    if toggle then
      match s.pages[id].parent
      case None => []
      case Some(p) => Navigable(s, Children(s, p))
    else
      match s.pages[id].parent
      case None => []
      case Some(p) => Navigable(s, Children(s, p))
  }

  /** The siblings keep the order of the site's page index. */
  lemma SiblingsInIndexOrder(s: Site, id: Id, effectiveParent: Option<Id>, toggle: bool)
    requires WF(s) && id in s.pages
    ensures SubsequenceOf(NavigationSiblings(s, id, effectiveParent, toggle), s.index)
  {
    if s.pages[id].parent.Some? {
      var p := s.pages[id].parent.value;
      SubsequenceTransitive(NavigationSiblings(s, id, effectiveParent, toggle), Children(s, p), s.index);
    }
  }

  /** The sibling collection is the same whatever the toggle and the effective-parent argument. */
  lemma SiblingsIgnoreToggleAndParentArgument(s: Site, id: Id, e1: Option<Id>, e2: Option<Id>, t1: bool, t2: bool)
    requires WF(s) && id in s.pages
    ensures NavigationSiblings(s, id, e1, t1) == NavigationSiblings(s, id, e2, t2)
  {
  }

  /** The first position of `x` in `xs`. */
  function Position(xs: seq<Id>, x: Id): (r: Option<nat>)
    ensures r.None? <==> x !in xs
    ensures r.Some? ==> (r.value < |xs| && xs[r.value] == x &&
                          forall j :: 0 <= j < r.value ==> xs[j] != x)
  {
    if |xs| == 0 then None
    else if xs[0] == x then Some(0)
    else match Position(xs[1..], x)
      case None => None
      case Some(i) => Some(i + 1)
  }

  /** `$page->nextListed($collection)` for a collection of listed pages: the entry right after the page. */
  function NextIn(xs: seq<Id>, x: Id): (r: Option<Id>)
    ensures r.Some? <==> exists i :: 0 <= i < |xs| - 1 && xs[i] == x && forall j :: 0 <= j < i ==> xs[j] != x
    ensures r.Some? ==> exists i :: 0 <= i < |xs| - 1 && xs[i] == x && xs[i + 1] == r.value
    ensures r.Some? ==> r.value in xs
  {
    match Position(xs, x)
    case None => None
    case Some(i) => if i + 1 < |xs| then Some(xs[i + 1]) else None
  }

  /** `$page->prevListed($collection)`: the entry right before the page. */
  function PrevIn(xs: seq<Id>, x: Id): (r: Option<Id>)
    ensures r.Some? <==> exists i :: 0 < i < |xs| && xs[i] == x && forall j :: 0 <= j < i ==> xs[j] != x
    ensures r.Some? ==> exists i :: 0 < i < |xs| && xs[i] == x && xs[i - 1] == r.value
    ensures r.Some? ==> r.value in xs
  {
    match Position(xs, x)
    case None => None
    case Some(i) => if i > 0 then Some(xs[i - 1]) else None
  }

  /** One navigation entry: `['title' => …, 'uri' => …, 'id' => …]`. */
  datatype NavEntry = NavEntry(title: string, uri: string, id: Id)

  datatype PageNav = PageNav(nextPage: Option<NavEntry>, prevPage: Option<NavEntry>)

  function Entry(s: Site, id: Id, toggle: bool): (e: NavEntry)
    requires WF(s) && id in s.pages
    ensures e.id == id && e.title == s.pages[id].title
    ensures e.uri == GeneratePageUri(s, id, true, toggle)
  {
    NavEntry(s.pages[id].title, PageUri(s, id, toggle), id)
  }

  /** `getPageNavigation($page)`. */
  function PageNavigation(s: Site, id: Id, toggle: bool): (r: PageNav)
    requires WF(s) && id in s.pages
    ensures var sibs := NavigationSiblings(s, id, EffectiveParent(s, id, toggle), toggle);
      && (r.nextPage.Some? <==> NextIn(sibs, id).Some?)
      && (r.prevPage.Some? <==> PrevIn(sibs, id).Some?)
      && (r.nextPage.Some? ==>
            && r.nextPage.value.id in sibs
            && r.nextPage.value.uri == GeneratePageUri(s, r.nextPage.value.id, true, toggle)
            && r.nextPage.value.title == s.pages[r.nextPage.value.id].title)
      && (r.prevPage.Some? ==>
            && r.prevPage.value.id in sibs
            && r.prevPage.value.uri == GeneratePageUri(s, r.prevPage.value.id, true, toggle)
            && r.prevPage.value.title == s.pages[r.prevPage.value.id].title)
    ensures s.pages[id].parent.None? ==> r.nextPage.None? && r.prevPage.None?
  {
    var sibs := NavigationSiblings(s, id, EffectiveParent(s, id, toggle), toggle);
    var next := match NextIn(sibs, id)
      case None => None
      case Some(n) => Some(Entry(s, n, toggle));
    var prev := match PrevIn(sibs, id)
      case None => None
      case Some(p) => Some(Entry(s, p, toggle));
    PageNav(next, prev)
  }

  /**
   * The neighbours are the siblings immediately around the page: the next
   * entry follows it and the previous one precedes it in sibling order.
   */
  lemma NeighboursAreAdjacentSiblings(s: Site, id: Id, toggle: bool)
    requires WF(s) && id in s.pages
    ensures var sibs := NavigationSiblings(s, id, EffectiveParent(s, id, toggle), toggle);
      var nav := PageNavigation(s, id, toggle);
      && (nav.nextPage.Some? ==> exists i :: 0 <= i < |sibs| - 1 && sibs[i] == id && sibs[i + 1] == nav.nextPage.value.id)
      && (nav.prevPage.Some? ==> exists i :: 0 < i < |sibs| && sibs[i] == id && sibs[i - 1] == nav.prevPage.value.id)
  {
    var sibs := NavigationSiblings(s, id, EffectiveParent(s, id, toggle), toggle);
    var n := NextIn(sibs, id);
    var p := PrevIn(sibs, id);
  }
}

=== FILE: pages.dfy ===
/**
 * The content tree as the plugins see it through the framework: an immutable
 * map from page id to page record, the site's page index (a depth-first
 * listing, so siblings appear in their own order), and the framework's
 * `site()->find(path)` lookup as a finite map.
 */
module Pages {
  import opened Wrappers

  type Id = string

  /** A page's publication status. */
  datatype Status = Draft | Unlisted | Listed

  const SectionTemplate: string := "section"
  const ItemTemplate: string := "item"

  datatype Page = Page(
    title: string,
    slug: string,
    // slugs translated per language code; a missing code falls back to `slug`
    slugs: map<string, string>,
    // the framework's hierarchical URI, taken as given
    uri: string,
    // the hierarchical URI per language code; a missing code falls back to `uri`
    uris: map<string, string>,
    template: string,
    isHome: bool,
    status: Status,
    readable: bool,
    // the `coverOnly` field already converted with `toBool(false)`
    coverOnly: bool,
    num: Option<int>,
    parent: Option<Id>)
  {
    predicate IsSection() { template == SectionTemplate }

    predicate IsItem() { template == ItemTemplate }

    predicate IsListed() { status == Listed }

    /**
     * The framework numbers exactly the listed pages: `isListed()` is
     * `num() !== null`, unlisted pages carry no number, and the index holds
     * no drafts.
     */
    predicate NumMatchesStatus() { IsListed() <==> num.Some? }

    /** An `item` page flagged cover-only: hidden from listings, the index and the sitemap. */
    predicate IsCoverOnlyItem() { template == ItemTemplate && coverOnly }

    /** `$page->slug($code)`; `None` is the call without a language. */
    function SlugIn(lang: Option<string>): string {
      match lang
      case None => slug
      case Some(code) => if code in slugs then slugs[code] else slug
    }

    /** `$page->uri($code)`. */
    function UriIn(code: string): string {
      if code in uris then uris[code] else uri
    }
  }

  datatype Site = Site(
    pages: map<Id, Page>,
    index: seq<Id>,
    // a rank that strictly decreases from child to parent: the tree is acyclic
    rank: map<Id, nat>,
    // `site()->find(path)`
    find: map<string, Id>)

  /** No id occurs twice. */
  predicate Distinct(xs: seq<Id>) {
    forall i, j :: 0 <= i < j < |xs| ==> xs[i] != xs[j]
  }

  /** The shape every framework content tree has. */
  predicate WF(s: Site) {
    && (forall id :: id in s.pages ==> id in s.rank)
    && (forall id :: id in s.pages && s.pages[id].parent.Some? ==>
          s.pages[id].parent.value in s.pages && s.pages[id].parent.value in s.rank &&
          s.rank[s.pages[id].parent.value] < s.rank[id])
    && (forall i :: 0 <= i < |s.index| ==> s.index[i] in s.pages)
    && Distinct(s.index)
    && (forall path :: path in s.find ==> s.find[path] in s.pages)
    && (forall id :: id in s.pages ==> id in s.find && s.find[id] == id)
    && (forall id :: id in s.pages ==> s.pages[id].NumMatchesStatus())
  }

  function ParentOf(s: Site, id: Id): Option<Id>
    requires id in s.pages
  {
    s.pages[id].parent
  }

  /**
   * The strict ancestors of a page, from its parent up to the top-level
   * ancestor (which has no parent).
   */
  function Ancestors(s: Site, id: Id): (r: seq<Id>)
    requires WF(s) && id in s.pages
    ensures forall k :: 0 <= k < |r| ==> r[k] in s.pages
    ensures |r| == 0 <==> s.pages[id].parent.None?
    ensures |r| > 0 ==> r[0] == s.pages[id].parent.value
    ensures forall k :: 0 <= k < |r| - 1 ==> s.pages[r[k]].parent == Some(r[k + 1])
    ensures |r| > 0 ==> s.pages[r[|r| - 1]].parent.None?
    decreases s.rank[id]
  {
    match s.pages[id].parent
    case None => []
    case Some(p) => [p] + Ancestors(s, p)
  }

  /** A page followed by its ancestors, bottom-up. */
  function UpChain(s: Site, id: Id): (r: seq<Id>)
    requires WF(s) && id in s.pages
    ensures |r| > 0 && r[0] == id
    ensures forall k :: 0 <= k < |r| ==> r[k] in s.pages
  {
    [id] + Ancestors(s, id)
  }

  /** `site()->find(path)` restricted to readable pages. */
  function FindReadable(s: Site, path: string): (r: Option<Id>)
    requires WF(s)
    ensures r.Some? <==> path in s.find && s.pages[s.find[path]].readable
    ensures r.Some? ==> r.value == s.find[path]
  {
    if path in s.find && s.pages[s.find[path]].readable then Some(s.find[path]) else None
  }

  /** The children of a page, in sibling order (`$page->children()`): the index order. */
  function Children(s: Site, id: Id): (r: seq<Id>)
    requires WF(s)
    ensures SubsequenceOf(r, s.index)
    ensures forall k :: 0 <= k < |r| ==> r[k] in s.index && r[k] in s.pages
    ensures forall x :: x in r <==> x in s.index && s.pages[x].parent == Some(id)
  {
    ChildrenIn(s, s.index, id)
  }

  function ChildrenIn(s: Site, ids: seq<Id>, id: Id): (r: seq<Id>)
    requires forall k :: 0 <= k < |ids| ==> ids[k] in s.pages
    ensures SubsequenceOf(r, ids)
    ensures forall k :: 0 <= k < |r| ==> r[k] in ids
    ensures forall x :: x in r <==> x in ids && s.pages[x].parent == Some(id)
  {
    if |ids| == 0 then []
    else
      var rest := ChildrenIn(s, ids[1..], id);
      if s.pages[ids[0]].parent == Some(id) then [ids[0]] + rest else rest
  }
}

=== FILE: routes.dfy ===
/**
 * The plugin's route table (Routes::getRoutes) and the two page routes: the
 * `.json` route that turns a request path into a page for JSON rendering,
 * and the catch-all that hands the path to the flat-URL resolver.
 */
module Routes {
  import opened Wrappers
  import opened Strings
  import opened Pages
  import opened UrlHelper
  import opened LanguageHelper
  import opened IndexApi
  import opened FlatUrlResolver

  /** A route pattern, in the router's own vocabulary. */
  datatype Pattern =
    | Exact(text: string)          // a literal path such as `index.json`
    | Root                         // `/`
    | AnyWithSuffix(suffix: string) // `(:any).json`
    | Any                          // `(:any)`

  datatype Action = IndexJson | GlobalJson | PanelRedirect | PageJson | FlatPage

  datatype Route = Route(pattern: Pattern, httpMethod: string, allLanguages: bool, action: Action)

  /** The table in its declared order; the router tries routes in this order. */
  const RouteTable: seq<Route> := [
    Route(Exact("index.json"), "GET", true, IndexJson),
    Route(Exact("global.json"), "GET", true, GlobalJson),
    Route(Root, "GET", false, PanelRedirect),
    Route(AnyWithSuffix(".json"), "GET", true, PageJson),
    Route(Any, "GET", true, FlatPage)
  ]

  /**
   * A path that `(:any)` accepts: one non-empty path segment. The router's
   * exact character class is not modelled; a segment is anything without `/`.
   */
  predicate IsSegment(p: string) {
    |p| > 0 && '/' !in p
  }

  predicate Matches(pat: Pattern, path: string) {
    match pat
    case Exact(t) => path == t
    case Root => path == ""
    case AnyWithSuffix(suf) => HasSuffix(path, suf) && IsSegment(path[..|path| - |suf|])
    case Any => IsSegment(path)
  }

  /** The action of the first route, in table order, whose pattern accepts `path`. */
  function Dispatch(table: seq<Route>, path: string): (r: Option<Action>)
    ensures r.Some? <==> exists k :: 0 <= k < |table| && Matches(table[k].pattern, path)
    ensures r.Some? ==> exists k :: (0 <= k < |table| && Matches(table[k].pattern, path) && table[k].action == r.value
      && forall j :: 0 <= j < k ==> !Matches(table[j].pattern, path))
  {
    if |table| == 0 then None
    else if Matches(table[0].pattern, path) then Some(table[0].action)
    else
      var r := Dispatch(table[1..], path);
      assert forall k :: 1 <= k < |table| ==> table[k] == table[1..][k - 1];
      if r.Some? then
        assert exists k :: (0 <= k < |table[1..]| && Matches(table[1..][k].pattern, path) && table[1..][k].action == r.value
          && forall j :: 0 <= j < k ==> !Matches(table[1..][j].pattern, path));
        r
      else r
  }

  /**
   * Five routes, all GET; the `.json` route comes before the catch-all,
   * which is the last one, and `/` is the only route bound to the default
   * language alone.
   */
  lemma RouteTableShape()
    ensures |RouteTable| == 5
    ensures forall k :: 0 <= k < |RouteTable| ==> RouteTable[k].httpMethod == "GET"
    ensures RouteTable[3].pattern == AnyWithSuffix(".json") && RouteTable[4].pattern == Any
    ensures forall k :: 0 <= k < |RouteTable| ==> (RouteTable[k].allLanguages <==> RouteTable[k].pattern != Root)
  {
  }

  /**
   * Because the `.json` route is tried first, a request for `name.json`
   * reaches the page-JSON action, never the flat-URL catch-all that would
   * also accept it.
   */
  lemma JsonRequestsReachJsonRoute(name: string)
    requires IsSegment(name) && name + ".json" != "index.json" && name + ".json" != "global.json"
    ensures Matches(Any, name + ".json")
    ensures Dispatch(RouteTable, name + ".json") == Some(PageJson)
  {
    var p := name + ".json";
    assert p[..|p| - 5] == name;
    assert p[|p| - 5..] == ".json";
    assert '/' !in ".json";
    assert forall c :: c in p ==> c in name || c in ".json";
    assert Matches(RouteTable[3].pattern, p);
    var t := RouteTable;
    assert Dispatch(t[3..], p) == Some(PageJson);
    assert t[2..][1..] == t[3..];
    assert Dispatch(t[2..], p) == Some(PageJson);
    assert t[1..][1..] == t[2..];
    assert Dispatch(t[1..], p) == Some(PageJson);
  }

  /** `/` sends the visitor to the panel (`go('/panel')`, the framework's default 302). */
  function PanelRedirectOutcome(): (r: Outcome)
    ensures r.Redirect? && r.target == "/panel"
  {
    Redirect("/panel", 302)
  }

  /**
   * The page URI the `.json` route works with: the full request path without
   * its `.json` suffix when it has one, else the route parameter; then the
   * first matching language prefix `code/` is removed.
   */
  function JsonPageUri(fullPath: string, param: string, langs: seq<Language>): (r: string)
    ensures HasSuffix(fullPath, ".json") ==> HasSuffix(fullPath[..|fullPath| - 5], r)
    ensures !HasSuffix(fullPath, ".json") ==> HasSuffix(param, r)
  {
    var pageUri := if HasSuffix(fullPath, ".json") then fullPath[..|fullPath| - 5] else param;
    StripLanguagePrefix(pageUri, langs)
  }

  /** The first page of `ids`, in order, whose public URI is `uri`. */
  function FirstWithUri(s: Site, ids: seq<Id>, toggle: bool, uri: string): (r: Option<Id>)
    requires WF(s) && forall k :: 0 <= k < |ids| ==> ids[k] in s.pages
    ensures r.None? <==> forall k :: 0 <= k < |ids| ==> PageUri(s, ids[k], toggle) != uri
    ensures r.Some? ==> exists k :: (0 <= k < |ids| && ids[k] == r.value && PageUri(s, r.value, toggle) == uri
      && forall j :: 0 <= j < k ==> PageUri(s, ids[j], toggle) != uri)
  {
    if |ids| == 0 then None
    else if PageUri(s, ids[0], toggle) == uri then Some(ids[0])
    else
      var r := FirstWithUri(s, ids[1..], toggle, uri);
      assert forall k :: 1 <= k < |ids| ==> ids[k] == ids[1..][k - 1];
      if r.Some? then
        assert exists k :: (0 <= k < |ids[1..]| && ids[1..][k] == r.value && PageUri(s, r.value, toggle) == uri
          && forall j :: 0 <= j < k ==> PageUri(s, ids[1..][j], toggle) != uri);
        r
      else r
  }

  /** What the `.json` route answers: a page rendered as JSON, or `null` (404). */
  datatype JsonOutcome = RenderJson(id: Id) | JsonNotFound

  /**
   * The `(:any).json` action. The index records are `IndexApi::getData()`,
   * whose `uri` is each retained page's public URI, so the first record with
   * a matching `uri` is the first retained page with that URI; its id always
   * resolves. Failing that, the page URI is looked up directly.
   */
  function JsonPage(s: Site, toggle: bool, langs: seq<Language>, fullPath: string, param: string): (r: JsonOutcome)
    requires WF(s)
    ensures JsonPageUri(fullPath, param, langs) == "" ==> r == JsonNotFound
    ensures r.RenderJson? ==> r.id in s.pages
  {
    var pageUri := JsonPageUri(fullPath, param, langs);
    if pageUri == "" then JsonNotFound
    else
      match FirstWithUri(s, RetainedIds(s, s.index, toggle), toggle, pageUri)
      case Some(id) => RenderJson(s.find[id])
      case None =>
        if pageUri in s.find then RenderJson(s.find[pageUri]) else JsonNotFound
  }

  /**
   * The index takes precedence: when a retained page has the requested
   * public URI, the first such page (in index order) is rendered, even if a
   * different page sits at that path in the tree; otherwise the direct
   * lookup decides.
   */
  lemma JsonPagePrefersIndex(s: Site, toggle: bool, langs: seq<Language>, fullPath: string, param: string)
    requires WF(s)
    ensures var uri := JsonPageUri(fullPath, param, langs);
      var ids := RetainedIds(s, s.index, toggle);
      var r := JsonPage(s, toggle, langs, fullPath, param);
      && (uri != "" && FirstWithUri(s, ids, toggle, uri).Some? ==>
            && r == RenderJson(FirstWithUri(s, ids, toggle, uri).value)
            && Retained(s, r.id, toggle)
            && PageUri(s, r.id, toggle) == uri)
      && (uri != "" && FirstWithUri(s, ids, toggle, uri).None? ==>
            (r.RenderJson? <==> uri in s.find) && (r.RenderJson? ==> r.id == s.find[uri]))
  {
    var uri := JsonPageUri(fullPath, param, langs);
    var ids := RetainedIds(s, s.index, toggle);
    if uri != "" && FirstWithUri(s, ids, toggle, uri).Some? {
      var id := FirstWithUri(s, ids, toggle, uri).value;
      assert id in ids;
    }
  }

  /** The `(:any)` action: the path goes to the flat-URL resolver unchanged. */
  function FlatPageAction(s: Site, toggle: bool, path: string): (r: Outcome)
    requires WF(s)
    ensures r == HandleFlatUrlResolution(s, toggle, path)
  {
    HandleFlatUrlResolution(s, toggle, path)
  }
}

=== FILE: scenarios.dfy ===
/**
 * A worked site: the home page, a `section` page `team` and an `item` page
 * `team/jane` under it. With the section toggle off, Jane's public URI is
 * `jane`; with it on, `team/jane`.
 */
module Scenarios {
  import opened Wrappers
  import opened Pages
  import opened UrlHelper
  import opened Navigation
  import opened FlatUrlResolver
  import opened IndexApi

  const HomeId: Id := "home"
  const TeamId: Id := "team"
  const JaneId: Id := "team/jane"

  function TeamSite(): (s: Site)
    ensures WF(s)
  {
    var home := Page("Home", "home", map[], "home", map[], "home", true, Unlisted, true, false, None, None);
    var team := Page("Team", "team", map[], "team", map[], SectionTemplate, false, Listed, true, false, Some(1), None);
    var jane := Page("Jane", "jane", map[], "team/jane", map[], ItemTemplate, false, Listed, true, false, Some(1), Some(TeamId));
    var s := Site(
      map[HomeId := home, TeamId := team, JaneId := jane],
      [HomeId, TeamId, JaneId],
      map[HomeId := 0, TeamId := 0, JaneId := 1],
      map[HomeId := HomeId, TeamId := TeamId, JaneId := JaneId]);
    assert s.index[0] != s.index[1] && s.index[1] != s.index[2] && s.index[0] != s.index[2];
    s
  }

  /** Jane's URI leaves out the section with the toggle off and is the framework URI with it on. */
  lemma JaneUris()
    ensures PageUri(TeamSite(), JaneId, false) == "jane"
    ensures PageUri(TeamSite(), JaneId, true) == "team/jane"
    ensures PageUri(TeamSite(), TeamId, false) == ""
    ensures PageUri(TeamSite(), HomeId, false) == "home"
  {
    var s := TeamSite();
    assert FlatSegments(s, TeamId, None) == [];
    assert FlatSegments(s, JaneId, None) == ["jane"];
  }

  /**
   * With the toggle off the section is skipped and, having no page above
   * it, the walk runs off the root: Jane has no effective parent. With the
   * toggle on the parent is the section itself.
   */
  lemma JaneEffectiveParent()
    ensures EffectiveParent(TeamSite(), JaneId, false) == None
    ensures EffectiveParent(TeamSite(), JaneId, true) == Some(TeamId)
  {
  }

  /**
   * Requests for Jane: `jane` is found only through the flat index scan;
   * `team/jane` is served by the direct lookup, which comes first; only the
   * fallback on its own would redirect it (301) to `jane`. With the toggle on,
   * `jane` is not found.
   */
  lemma JaneRequests()
    ensures HandleFlatUrlResolution(TeamSite(), false, "jane") == Serve(JaneId)
    ensures HandleFlatUrlResolution(TeamSite(), false, "team/jane") == Serve(JaneId)
    ensures TryHierarchicalFallback(TeamSite(), false, "team/jane") == Redirect("jane", MovedPermanently)
    ensures HandleFlatUrlResolution(TeamSite(), true, "jane") == NotFound
  {
    var s := TeamSite();
    JaneUris();
    assert "jane" !in s.find;
    assert !IsFlatMatch(s, HomeId, false, "jane");
    assert !IsFlatMatch(s, TeamId, false, "jane");
    assert IsFlatMatch(s, JaneId, false, "jane");
    FlatMatchesSingleton(s, s.index, false, "jane", JaneId);
  }

  /** The section drops out of `index.json` with the toggle off (its URI is empty) and stays with it on. */
  lemma SectionInIndex()
    ensures !Retained(TeamSite(), TeamId, false)
    ensures Retained(TeamSite(), TeamId, true)
    ensures Retained(TeamSite(), JaneId, false)
  {
    JaneUris();
  }
}

=== FILE: section_json.dfy ===
/**
 * The JSON representation of a `section` page (the `section.json` template):
 * its items, its display settings with their defaults, its layouts with
 * attribute lists normalised, its blocks and its navigation.
 */
module SectionJson {
  import opened Wrappers
  import opened Strings
  import opened Fields
  import opened Pages
  import opened Navigation
  import opened Attributes
  import opened Blocks

  // ---------------------------------------------------------------------
  // Items
  // ---------------------------------------------------------------------

  /** The thumbnail file of a child page, as far as the item record reads it. */
  datatype ThumbnailFile = ThumbnailFile(url: string, width: nat, height: nat, alt: string, name: string, orientation: string)

  /** What the item record reads of a child besides the page record: the escaped description and the thumbnail. */
  datatype ItemDetails = ItemDetails(description: string, thumbnail: Option<ThumbnailFile>)

  /** The `thumbnail` key: `[]` without a file. */
  datatype Thumbnail = NoThumbnail | ThumbnailOf(url: string, width: nat, height: nat, alt: string, name: string, orientation: string)

  datatype Item = Item(
    title: string,
    uri: string,
    description: string,
    parent: string,
    thumbnail: Thumbnail,
    coverOnly: bool,
    status: Status,
    position: Option<int>)

  function DetailsOf(details: map<Id, ItemDetails>, id: Id): ItemDetails {
    if id in details then details[id] else ItemDetails("", None)
  }

  function ThumbnailOfFile(f: Option<ThumbnailFile>): (r: Thumbnail)
    ensures r.NoThumbnail? <==> f.None?
    ensures r.ThumbnailOf? ==> r.url == f.value.url && r.width == f.value.width && r.height == f.value.height
  {
    match f
    case None => NoThumbnail
    case Some(t) => ThumbnailOf(t.url, t.width, t.height, t.alt, t.name, t.orientation)
  }

  /** The item record of child `c` of a section titled `sectionTitle`. */
  function ItemOf(s: Site, c: Id, sectionTitle: string, details: map<Id, ItemDetails>): (r: Item)
    requires c in s.pages
    ensures r.title == s.pages[c].title && r.uri == s.pages[c].uri && r.position == s.pages[c].num
    ensures r.parent == Lower(sectionTitle)
    ensures r.coverOnly == s.pages[c].coverOnly
  {
    var p := s.pages[c];
    var d := DetailsOf(details, c);
    Item(p.title, p.uri, d.description, Lower(sectionTitle), ThumbnailOfFile(d.thumbnail), p.coverOnly, p.status, p.num)
  }

  function ItemsOf(s: Site, cs: seq<Id>, sectionTitle: string, details: map<Id, ItemDetails>): (r: seq<Item>)
    requires forall k :: 0 <= k < |cs| ==> cs[k] in s.pages
    ensures |r| == |cs|
    ensures forall k :: 0 <= k < |cs| ==> r[k] == ItemOf(s, cs[k], sectionTitle, details)
  {
    if |cs| == 0 then [] else [ItemOf(s, cs[0], sectionTitle, details)] + ItemsOf(s, cs[1..], sectionTitle, details)
  }

  /** `getItems`, present only when the page has children. */
  function GetItems(s: Site, id: Id, details: map<Id, ItemDetails>): (r: Option<seq<Item>>)
    requires WF(s) && id in s.pages
    ensures r.Some? <==> |Children(s, id)| > 0
  {
    var cs := Children(s, id);
    if |cs| == 0 then None else Some(ItemsOf(s, cs, s.pages[id].title, details))
  }

  /**
   * One item per child, in child order, each naming the section by its
   * lower-cased title (which holds no upper-case ASCII letter).
   */
  lemma ItemsFollowChildren(s: Site, id: Id, details: map<Id, ItemDetails>)
    requires WF(s) && id in s.pages && |Children(s, id)| > 0
    ensures var items := GetItems(s, id, details).value;
      var cs := Children(s, id);
      && |items| == |cs|
      && (forall k :: 0 <= k < |cs| ==> items[k].title == s.pages[cs[k]].title && items[k].uri == s.pages[cs[k]].uri)
      && (forall k, j :: 0 <= k < |items| && 0 <= j < |items[k].parent| ==> !('A' <= items[k].parent[j] <= 'Z'))
  {
  }

  // ---------------------------------------------------------------------
  // Settings
  // ---------------------------------------------------------------------

  /** `$value ?: $default` for a field value that may be `null`. */
  function ValueOr(v: Option<string>, default: string): (r: string)
    ensures v.Some? && Truthy(v.value) ==> r == v.value
    ensures v.None? || !Truthy(v.value) ==> r == default
  {
    if v.Some? && Truthy(v.value) then v.value else default
  }

  /**
   * `getValueWithFallback`: `'default'` defers to the site's design field
   * (`'16'` when that is falsy); `null` and `''` become `'16'`; anything else,
   * `'0'` included, is kept.
   */
  function ValueWithFallback(value: Option<string>, siteValue: string): (r: string)
    ensures value == Some("default") ==> r == OrElse(siteValue, "16")
    ensures value.None? || value == Some("") ==> r == "16"
    ensures value.Some? && value.value !in {"default", ""} ==> r == value.value
  {
    if value == Some("default") then OrElse(siteValue, "16")
    else if value.Some? && value.value != "" then value.value
    else "16"
  }

  /** A gap setting is never empty, but unlike the `?:` defaults it may be `'0'`. */
  lemma FallbackNeverEmpty(value: Option<string>, siteValue: string)
    ensures ValueWithFallback(value, siteValue) != ""
    ensures ValueWithFallback(Some("0"), siteValue) == "0"
    ensures ValueOr(Some("0"), "16") == "16"
  {
  }

  /** The display fields of a section page; `None` is a key missing from its object field. */
  datatype SettingsFields = SettingsFields(
    ratio: Option<string>, ratioMobile: Option<string>,
    elements: Option<string>,
    gap: Option<string>, gapMobile: Option<string>,
    gapHorizontal: Option<string>, gapHorizontalMobile: Option<string>,
    span: Option<string>, spanMobile: Option<string>,
    titleToggle: string, level: Option<string>,
    titleFont: Option<string>, titleSize: Option<string>, titleColor: Option<string>, titleAlign: Option<string>,
    textToggle: string,
    textFont: Option<string>, textSize: Option<string>, textColor: Option<string>, textAlign: Option<string>,
    captionAlign: string,
    captionControls: string,
    // `captionOverlayRange` after `toInt()`
    captionOverlayRange: int,
    captionColor: string)

  /** The site's design fields the gap settings fall back to. */
  datatype DesignFields = DesignFields(gridBlockDesktop: string, gridBlockMobile: string, gridGapDesktop: string, gridGapMobile: string)

  datatype GridSettings = GridSettings(elements: string, gap: string, gapMobile: string, gapHorizontal: string, gapHorizontalMobile: string, span: string, spanMobile: string)

  datatype TitleSettings = TitleSettings(toggle: bool, level: string, font: Option<string>, size: Option<string>, color: Option<string>, align: Option<string>)

  datatype TextSettings = TextSettings(toggle: bool, font: Option<string>, size: Option<string>, color: Option<string>, align: Option<string>)

  datatype CaptionSettings = CaptionSettings(align: string, controls: seq<string>, overlayRange: int, color: string)

  datatype Settings = Settings(ratio: string, ratioMobile: string, grid: GridSettings, title: TitleSettings, text: TextSettings, caption: CaptionSettings)

  /**
   * The framework's `split(',')` on a field: the comma pieces, trimmed, with
   * empty ones dropped, in their order. Every non-empty trimmed piece is
   * kept, and nothing else comes out.
   */
  function SplitList(v: string): (r: seq<string>)
    ensures forall k :: 0 <= k < |r| ==> r[k] != "" && ',' !in r[k]
    ensures forall k :: 0 <= k < |r| ==> r[k][0] !in PhpWhitespace && r[k][|r[k]| - 1] !in PhpWhitespace
    ensures SubsequenceOf(r, Trimmed(Split(v, ',')))
    ensures |r| == NonEmptyCount(Trimmed(Split(v, ',')))
    ensures forall k :: 0 <= k < |Split(v, ',')| && TrimAny(Split(v, ',')[k], PhpWhitespace) != "" ==>
      TrimAny(Split(v, ',')[k], PhpWhitespace) in r
  {
    NonEmptyTrimmedPieces(Split(v, ','));
    NonEmptyTrimmed(Split(v, ','))
  }

  /** Each piece with its surrounding whitespace removed. */
  function Trimmed(pieces: seq<string>): (r: seq<string>)
    ensures |r| == |pieces| && forall k :: 0 <= k < |r| ==> r[k] == TrimAny(pieces[k], PhpWhitespace)
  {
    seq(|pieces|, k requires 0 <= k < |pieces| => TrimAny(pieces[k], PhpWhitespace))
  }

  /** How many of the strings are non-empty. */
  function NonEmptyCount(ts: seq<string>): nat
  {
    if |ts| == 0 then 0 else (if ts[0] == "" then 0 else 1) + NonEmptyCount(ts[1..])
  }

  function NonEmptyTrimmed(pieces: seq<string>): (r: seq<string>)
    requires forall k :: 0 <= k < |pieces| ==> ',' !in pieces[k]
    ensures |r| <= |pieces|
    ensures forall k :: 0 <= k < |r| ==> r[k] != "" && ',' !in r[k]
    ensures forall k :: 0 <= k < |r| ==> r[k][0] !in PhpWhitespace && r[k][|r[k]| - 1] !in PhpWhitespace
  {
    if |pieces| == 0 then []
    else
      var t := TrimAny(pieces[0], PhpWhitespace);
      var rest := NonEmptyTrimmed(pieces[1..]);
      if t == "" then rest else [t] + rest
  }

  /**
   * What the pieces become: the non-empty trimmed pieces, in their order,
   * each one kept and nothing else added.
   */
  lemma {:induction false} NonEmptyTrimmedPieces(pieces: seq<string>)
    requires forall k :: 0 <= k < |pieces| ==> ',' !in pieces[k]
    ensures SubsequenceOf(NonEmptyTrimmed(pieces), Trimmed(pieces))
    ensures |NonEmptyTrimmed(pieces)| == NonEmptyCount(Trimmed(pieces))
    ensures forall k :: 0 <= k < |pieces| && TrimAny(pieces[k], PhpWhitespace) != "" ==>
      TrimAny(pieces[k], PhpWhitespace) in NonEmptyTrimmed(pieces)
  {
    if |pieces| > 0 {
      var r := NonEmptyTrimmed(pieces);
      var rest := NonEmptyTrimmed(pieces[1..]);
      NonEmptyTrimmedPieces(pieces[1..]);
      assert Trimmed(pieces)[1..] == Trimmed(pieces[1..]);
      assert Trimmed(pieces)[0] == TrimAny(pieces[0], PhpWhitespace);
      if TrimAny(pieces[0], PhpWhitespace) != "" {
        assert r[1..] == rest;
      }
      forall k | 1 <= k < |pieces| && TrimAny(pieces[k], PhpWhitespace) != ""
        ensures TrimAny(pieces[k], PhpWhitespace) in r
      {
        assert pieces[k] == pieces[1..][k - 1];
      }
    }
  }

  /** `getSettings`. */
  function GetSettings(f: SettingsFields, design: DesignFields): (r: Settings)
    ensures r.ratio == ValueOr(f.ratio, "16/9") && r.ratioMobile == ValueOr(f.ratioMobile, "16/9")
    ensures r.grid.gap == ValueWithFallback(f.gap, design.gridBlockDesktop)
    ensures r.grid.gapMobile == ValueWithFallback(f.gapMobile, design.gridBlockMobile)
    ensures r.grid.gapHorizontal == ValueWithFallback(f.gapHorizontal, design.gridGapDesktop)
    ensures r.grid.gapHorizontalMobile == ValueWithFallback(f.gapHorizontalMobile, design.gridGapMobile)
    ensures r.title.toggle == ToBool(f.titleToggle, true) && r.text.toggle == ToBool(f.textToggle, true)
    ensures r.grid.elements == ValueOr(f.elements, "10")
    ensures r.grid.span == ValueOr(f.span, "6") && r.grid.spanMobile == ValueOr(f.spanMobile, "6")
    ensures r.title.level == ValueOr(f.level, "h2")
    ensures r.title.font == f.titleFont && r.title.size == f.titleSize && r.title.color == f.titleColor && r.title.align == f.titleAlign
    ensures r.text.font == f.textFont && r.text.size == f.textSize && r.text.color == f.textColor && r.text.align == f.textAlign
    ensures r.caption.align == OrElse(f.captionAlign, "bottom") && r.caption.color == OrElse(f.captionColor, "#000000")
    ensures r.caption.controls == SplitList(f.captionControls)
    ensures r.caption.overlayRange == (if f.captionOverlayRange == 0 then 50 else f.captionOverlayRange)
  {
    Settings(
      ValueOr(f.ratio, "16/9"),
      ValueOr(f.ratioMobile, "16/9"),
      GridSettings(
        ValueOr(f.elements, "10"),
        ValueWithFallback(f.gap, design.gridBlockDesktop),
        ValueWithFallback(f.gapMobile, design.gridBlockMobile),
        ValueWithFallback(f.gapHorizontal, design.gridGapDesktop),
        ValueWithFallback(f.gapHorizontalMobile, design.gridGapMobile),
        ValueOr(f.span, "6"),
        ValueOr(f.spanMobile, "6")),
      TitleSettings(ToBool(f.titleToggle, true), ValueOr(f.level, "h2"), f.titleFont, f.titleSize, f.titleColor, f.titleAlign),
      TextSettings(ToBool(f.textToggle, true), f.textFont, f.textSize, f.textColor, f.textAlign),
      CaptionSettings(
        OrElse(f.captionAlign, "bottom"),
        SplitList(f.captionControls),
        if f.captionOverlayRange == 0 then 50 else f.captionOverlayRange,
        OrElse(f.captionColor, "#000000")))
  }

  /** `r` is what `v ?: d` gives: a truthy field value is kept, anything else becomes `d`. */
  predicate Defaulted(v: Option<string>, r: string, d: string) {
    if v.Some? && Truthy(v.value) then r == v.value else r == d
  }

  /**
   * The `?:` defaults: ratios `16/9`, 10 elements, spans of 6, heading level
   * `h2`, caption at the `bottom` in `#000000`, overlay range 50. Every such
   * setting is therefore truthy whatever the fields hold, and the title and
   * text are shown unless their toggle field says otherwise.
   */
  lemma SettingsDefaults(f: SettingsFields, design: DesignFields)
    ensures var r := GetSettings(f, design);
      && Defaulted(f.ratio, r.ratio, "16/9") && Defaulted(f.ratioMobile, r.ratioMobile, "16/9")
      && Defaulted(f.elements, r.grid.elements, "10")
      && Defaulted(f.span, r.grid.span, "6") && Defaulted(f.spanMobile, r.grid.spanMobile, "6")
      && Defaulted(f.level, r.title.level, "h2")
      && r.caption.align == (if Truthy(f.captionAlign) then f.captionAlign else "bottom")
      && r.caption.color == (if Truthy(f.captionColor) then f.captionColor else "#000000")
      && (f.captionOverlayRange == 0 ==> r.caption.overlayRange == 50)
      && Truthy(r.ratio) && Truthy(r.ratioMobile)
      && Truthy(r.grid.elements) && Truthy(r.grid.span) && Truthy(r.grid.spanMobile)
      && Truthy(r.title.level) && Truthy(r.caption.align) && Truthy(r.caption.color)
      && r.caption.overlayRange != 0
      && (f.titleToggle == "" ==> r.title.toggle) && (f.textToggle == "" ==> r.text.toggle)
  {
  }

  /** Settings of a page with every display field empty: every default, and gaps of 16 whatever the design says. */
  lemma EmptyFieldsSettings(design: DesignFields)
    ensures var f := SettingsFields(None, None, None, None, None, None, None, None, None, "", None, None, None, None, None, "", None, None, None, None, "", "", 0, "");
      GetSettings(f, design) == Settings(
        "16/9", "16/9",
        GridSettings("10", "16", "16", "16", "16", "6", "6"),
        TitleSettings(true, "h2", None, None, None, None),
        TextSettings(true, None, None, None, None),
        CaptionSettings("bottom", [], 50, "#000000"))
  {
    assert Split("", ',') == [""];
  }

  // ---------------------------------------------------------------------
  // Layouts
  // ---------------------------------------------------------------------

  /**
   * One entry of a layout field after conversion to an array; only its
   * attribute list is read here, the rest is carried along as `fields`.
   */
  datatype LayoutArray = LayoutArray(fields: map<string, string>, attributes: Option<seq<Attr>>)

  datatype LayoutAttributes = RawAttributes(list: seq<Attr>) | NormalisedAttributes(byName: map<string, AttrValue>)

  datatype LayoutOut = LayoutOut(fields: map<string, string>, attributes: Option<LayoutAttributes>)

  /** An empty array is falsy and is skipped, like `null`. */
  predicate Kept(l: Option<LayoutArray>) {
    l.Some? && (l.value.fields != map[] || l.value.attributes.Some?)
  }

  function LayoutOf(l: LayoutArray, normalise: bool): (r: LayoutOut)
    ensures r.fields == l.fields
    ensures r.attributes.Some? <==> l.attributes.Some?
  {
    match l.attributes
    case None => LayoutOut(l.fields, None)
    case Some(a) => LayoutOut(l.fields, Some(if normalise then NormalisedAttributes(Normalise(a)) else RawAttributes(a)))
  }

  /** The loop over a layout field: falsy entries skipped, attribute lists normalised when asked. */
  function Layouts(ls: seq<Option<LayoutArray>>, normalise: bool): (r: seq<LayoutOut>)
    ensures |r| <= |ls|
  {
    if |ls| == 0 then []
    else
      var rest := Layouts(ls[1..], normalise);
      if Kept(ls[0]) then [LayoutOf(ls[0].value, normalise)] + rest else rest
  }

  /** Number of entries that survive the falsy check. */
  function CountKept(ls: seq<Option<LayoutArray>>): nat {
    if |ls| == 0 then 0 else (if Kept(ls[0]) then 1 else 0) + CountKept(ls[1..])
  }

  /**
   * Each kept entry gives one layout, in order; `layoutPre` and `layoutPost`
   * normalise attribute lists, `layoutFooter` keeps them as lists.
   */
  lemma {:induction false} LayoutsKeepTruthyEntries(ls: seq<Option<LayoutArray>>, normalise: bool)
    ensures |Layouts(ls, normalise)| == CountKept(ls)
    ensures forall o :: o in Layouts(ls, normalise) ==>
      exists k :: 0 <= k < |ls| && Kept(ls[k]) && o == LayoutOf(ls[k].value, normalise)
    ensures forall o :: o in Layouts(ls, normalise) && o.attributes.Some? ==>
      (normalise <==> o.attributes.value.NormalisedAttributes?)
  {
    if |ls| > 0 {
      LayoutsKeepTruthyEntries(ls[1..], normalise);
      var rest := Layouts(ls[1..], normalise);
      forall o | o in rest
        ensures exists k :: 0 <= k < |ls| && Kept(ls[k]) && o == LayoutOf(ls[k].value, normalise)
      {
        var k :| 0 <= k < |ls[1..]| && Kept(ls[1..][k]) && o == LayoutOf(ls[1..][k].value, normalise);
        assert ls[1..][k] == ls[k + 1];
      }
    }
  }

  /** The falsy check alone: the kept entries, in order. */
  function KeptEntries(ls: seq<Option<LayoutArray>>): (r: seq<LayoutArray>)
    ensures |r| == CountKept(ls)
    ensures forall k :: 0 <= k < |r| ==> Some(r[k]) in ls
  {
    if |ls| == 0 then []
    else if Kept(ls[0]) then [ls[0].value] + KeptEntries(ls[1..])
    else KeptEntries(ls[1..])
  }

  /** The loop is a filter followed by a map: the `k`-th layout comes from the `k`-th kept entry. */
  lemma {:induction false} LayoutsAreFilterThenMap(ls: seq<Option<LayoutArray>>, normalise: bool)
    ensures |Layouts(ls, normalise)| == |KeptEntries(ls)|
    ensures forall k :: 0 <= k < |KeptEntries(ls)| ==>
      Layouts(ls, normalise)[k] == LayoutOf(KeptEntries(ls)[k], normalise)
  {
    if |ls| > 0 {
      LayoutsAreFilterThenMap(ls[1..], normalise);
      LayoutsKeepTruthyEntries(ls, normalise);
    }
  }

  /** A normalised layout's attribute map gives each name its last value. */
  lemma NormalisedLayoutLastWins(l: LayoutArray, key: string)
    requires l.attributes.Some?
    ensures var m := LayoutOf(l, true).attributes.value.byName;
      && (key in m <==> LastValue(l.attributes.value, key).Some?)
      && (key in m ==> m[key] == Convert(LastValue(l.attributes.value, key).value))
  {
    NormaliseIsLastWins(l.attributes.value, key);
  }

  // ---------------------------------------------------------------------
  // The whole document
  // ---------------------------------------------------------------------

  /**
   * The page's layout and block fields after conversion; `None` is a field
   * that is empty, so its key is absent from the JSON.
   */
  datatype SectionFields = SectionFields(
    settings: SettingsFields,
    layoutPre: Option<seq<Option<LayoutArray>>>,
    layoutPost: Option<seq<Option<LayoutArray>>>,
    blocks: Option<seq<Block>>)

  datatype SectionDocument = SectionDocument(
    items: Option<seq<Item>>,
    settings: Settings,
    layoutPre: Option<seq<LayoutOut>>,
    layoutPost: Option<seq<LayoutOut>>,
    layoutFooter: Option<seq<LayoutOut>>,
    blocks: Option<seq<BlockOut>>,
    navigation: PageNav)

  function FieldLayouts(field: Option<seq<Option<LayoutArray>>>, normalise: bool): (r: Option<seq<LayoutOut>>)
    ensures r.Some? <==> field.Some?
  {
    match field
    case None => None
    case Some(ls) => Some(Layouts(ls, normalise))
  }

  /** The `section.json` document of page `id`; `footer` is the site's `layoutFooter` field. */
  function SectionDocumentOf(s: Site, id: Id, toggle: bool, details: map<Id, ItemDetails>,
                             f: SectionFields, design: DesignFields,
                             footer: Option<seq<Option<LayoutArray>>>): (r: SectionDocument)
    requires WF(s) && id in s.pages
    ensures r.items.Some? <==> |Children(s, id)| > 0
    ensures r.layoutPre.Some? <==> f.layoutPre.Some?
    ensures r.layoutPost.Some? <==> f.layoutPost.Some?
    ensures r.layoutFooter.Some? <==> footer.Some?
    ensures r.blocks.Some? <==> f.blocks.Some?
    ensures r.blocks.Some? ==> |r.blocks.value| == |f.blocks.value|
    ensures r.navigation == PageNavigation(s, id, toggle)
  {
    SectionDocument(
      GetItems(s, id, details),
      GetSettings(f.settings, design),
      FieldLayouts(f.layoutPre, true),
      FieldLayouts(f.layoutPost, true),
      FieldLayouts(footer, false),
      match f.blocks
      case None => None
      case Some(bs) => Some(ConvertBlocks(bs)),
      PageNavigation(s, id, toggle))
  }
}

=== FILE: site_data.dfy ===
/**
 * The site-wide data the global API exposes (SiteDataHelper): favicon files,
 * navigation menus, the logo's call to action, fonts, font sizes, headline
 * styles and analytics settings.
 */
module SiteData {
  import opened Wrappers
  import opened Strings
  import opened Fields
  import opened LinkArray

  // ---------------------------------------------------------------------
  // Favicon
  // ---------------------------------------------------------------------

  /** The favicon object field: the URL of each file it names, `None` when the file is missing. */
  datatype FaviconFiles = FaviconFiles(svg: Option<string>, ico: Option<string>, png192: Option<string>, png512: Option<string>, pngApple: Option<string>)

  datatype Favicon = Favicon(svgSrc: Option<string>, icoSrc: Option<string>, png192Src: Option<string>, png512Src: Option<string>, pngAppleSrc: Option<string>)

  /** `getFavicon`: `null` without the object, else each source URL or `null` for a missing file. */
  function GetFavicon(obj: Option<FaviconFiles>): (r: Option<Favicon>)
    ensures r.None? <==> obj.None?
    ensures r.Some? ==> r.value.svgSrc == obj.value.svg && r.value.icoSrc == obj.value.ico
    ensures r.Some? ==> r.value.png192Src == obj.value.png192 && r.value.png512Src == obj.value.png512
    ensures r.Some? ==> r.value.pngAppleSrc == obj.value.pngApple
  {
    match obj
    case None => None
    case Some(f) => Some(Favicon(f.svg, f.ico, f.png192, f.png512, f.pngApple))
  }

  // ---------------------------------------------------------------------
  // Navigation menus
  // ---------------------------------------------------------------------

  function LinksOf(items: seq<Option<LinkObject>>): (r: seq<Option<Link>>)
    ensures |r| == |items|
    ensures forall k :: 0 <= k < |items| ==> r[k] == GetLinkArray(items[k])
  {
    if |items| == 0 then [] else [GetLinkArray(items[0])] + LinksOf(items[1..])
  }

  /**
   * `getNavigation`: the link array of every structure item, in order (a
   * `null` link is kept as `null`); `null` when the structure is empty.
   */
  function GetNavigation(items: seq<Option<LinkObject>>): (r: Option<seq<Option<Link>>>)
    ensures r.None? <==> |items| == 0
    ensures r.Some? ==> |r.value| == |items|
    ensures r.Some? ==> forall k :: 0 <= k < |items| ==> (r.value[k].None? <==> items[k].None?)
    ensures r.Some? ==> r.value == LinksOf(items)
  {
    if |items| == 0 then None else Some(LinksOf(items))
  }

  // ---------------------------------------------------------------------
  // Logo call to action
  // ---------------------------------------------------------------------

  /**
   * `getLogoCta`'s result: `[]` for an empty field (whitespace only, or the
   * empty list `[]`), else the link array (itself possibly `null`).
   */
  datatype LogoCta = NoCta | Cta(link: Option<Link>)

  /** `value` is the CTA field's stored text, `link` its link object. */
  function GetLogoCta(value: string, link: Option<LinkObject>): (r: LogoCta)
    ensures r.NoCta? <==>
      || (forall k :: 0 <= k < |value| ==> value[k] in PhpWhitespace)
      || TrimAny(value, PhpWhitespace) == EmptyListText
    ensures r.Cta? ==> (r.link.Some? <==> link.Some?)
  {
    if IsEmptyField(value) then NoCta else Cta(GetLinkArray(link))
  }

  // ---------------------------------------------------------------------
  // Fonts
  // ---------------------------------------------------------------------

  /** A font structure item: its name and the URL of `file2`, `None` when that file is missing. */
  datatype FontItem = FontItem(name: string, file2: Option<string>)

  datatype Font = Font(name: string, url2: string)

  function FontsOf(items: seq<FontItem>): (r: seq<Font>)
    ensures |r| <= |items|
    ensures |r| == 0 <==> forall k :: 0 <= k < |items| ==> items[k].file2.None?
    ensures forall f :: f in r <==> exists it :: it in items && it.file2.Some? && f == Font(it.name, it.file2.value)
  {
    if |items| == 0 then []
    else
      var rest := FontsOf(items[1..]);
      assert forall it :: it in items <==> it == items[0] || it in items[1..];
      if items[0].file2.Some? then [Font(items[0].name, items[0].file2.value)] + rest else rest
  }

  /** `getFonts`: the items with a `file2`, in order; `null` when none has one. */
  function GetFonts(items: seq<FontItem>): (r: Option<seq<Font>>)
    ensures r.None? <==> forall k :: 0 <= k < |items| ==> items[k].file2.None?
    ensures r.Some? ==> |r.value| > 0 && r.value == FontsOf(items)
  {
    var fonts := FontsOf(items);
    if |fonts| == 0 then None else Some(fonts)
  }

  /** Fonts keep the structure's order: the fonts of `a + b` are those of `a` followed by those of `b`. */
  lemma {:induction false} FontsKeepOrder(a: seq<FontItem>, b: seq<FontItem>)
    ensures FontsOf(a + b) == FontsOf(a) + FontsOf(b)
  {
    if |a| > 0 {
      assert (a + b)[1..] == a[1..] + b;
      FontsKeepOrder(a[1..], b);
    } else {
      assert a + b == b;
    }
  }

  // ---------------------------------------------------------------------
  // Font sizes
  // ---------------------------------------------------------------------

  datatype FontSizeItem = FontSizeItem(
    name: string,
    sizeMobile: string, lineHeightMobile: string, letterSpacingMobile: string,
    sizeDesktop: string, lineHeightDesktop: string, letterSpacingDesktop: string,
    sizeDesktopXl: string, lineHeightDesktopXl: string, letterSpacingDesktopXl: string,
    transform: string, decoration: string)

  /**
   * A font size entry: the item itself, every size, line height and letter
   * spacing copied, with `transform` and `decoration` defaulting to `none`.
   */
  function FontSizeOf(it: FontSizeItem): (r: FontSizeItem)
    ensures r.(transform := it.transform, decoration := it.decoration) == it
    ensures r.transform == OrElse(it.transform, "none") && r.decoration == OrElse(it.decoration, "none")
    ensures Truthy(r.transform) && Truthy(r.decoration)
  {
    it.(transform := OrElse(it.transform, "none"), decoration := OrElse(it.decoration, "none"))
  }

  /** `getFontSizes`: one entry per item, in order; an empty list, never `null`, when there are none. */
  function GetFontSizes(items: seq<FontSizeItem>): (r: seq<FontSizeItem>)
    ensures |r| == |items|
    ensures forall k :: 0 <= k < |items| ==> r[k] == FontSizeOf(items[k])
  {
    if |items| == 0 then [] else [FontSizeOf(items[0])] + GetFontSizes(items[1..])
  }

  // ---------------------------------------------------------------------
  // Headlines
  // ---------------------------------------------------------------------

  datatype Headline = Headline(font: string, size: string)

  /** `h1` … `h6`. */
  function Tag(i: nat): string
    requires 1 <= i <= 6
  {
    "h" + [('0' as int + i) as char]
  }

  /** A field of the `headlines` object, `""` when it is missing. */
  function FieldOf(fields: map<string, string>, key: string): string {
    if key in fields then fields[key] else ""
  }

  /**
   * `getHeadlines`: for `i` from 1 to 6, the entry `h<i>` reads the object
   * fields `h<i>font` and `h<i>size`.
   */
  method GetHeadlines(fields: map<string, string>) returns (headlines: map<string, Headline>)
    ensures headlines.Keys == set i | 1 <= i <= 6 :: Tag(i)
    ensures forall i :: 1 <= i <= 6 ==>
      headlines[Tag(i)] == Headline(FieldOf(fields, Tag(i) + "font"), FieldOf(fields, Tag(i) + "size"))
  {
    headlines := map[];
    var i := 1;
    while i <= 6
      invariant 1 <= i <= 7
      invariant headlines.Keys == set j | 1 <= j < i :: Tag(j)
      invariant forall j :: 1 <= j < i ==>
        headlines[Tag(j)] == Headline(FieldOf(fields, Tag(j) + "font"), FieldOf(fields, Tag(j) + "size"))
    {
      var tag := Tag(i);
      TagsDistinct(i);
      headlines := headlines[tag := Headline(FieldOf(fields, tag + "font"), FieldOf(fields, tag + "size"))];
      i := i + 1;
    }
  }

  lemma TagsDistinct(i: nat)
    requires 1 <= i <= 6
    ensures forall j :: 1 <= j <= 6 && j != i ==> Tag(j) != Tag(i)
  {
    forall j | 1 <= j <= 6 && j != i ensures Tag(j) != Tag(i) {
      assert Tag(j)[1] != Tag(i)[1];
    }
  }

  /** Exactly six headline entries. */
  lemma SixHeadlines()
    ensures |set i | 1 <= i <= 6 :: Tag(i)| == 6
  {
    assert (set i | 1 <= i <= 6 :: Tag(i)) == {"h1", "h2", "h3", "h4", "h5", "h6"} by {
      assert Tag(1) == "h1" && Tag(2) == "h2" && Tag(3) == "h3";
      assert Tag(4) == "h4" && Tag(5) == "h5" && Tag(6) == "h6";
    }
  }

  // ---------------------------------------------------------------------
  // Analytics
  // ---------------------------------------------------------------------

  datatype AnalyticsFields = AnalyticsFields(
    searchConsoleToggle: string, searchConsoleCode: string,
    googleAnalyticsToggle: string, googleAnalyticsCode: string,
    // the `analyticsLink` field's stored text and its link object
    analyticsLink: string, analyticsLinkObject: Option<LinkObject>)

  datatype Analytics = Analytics(searchConsoleCode: Option<string>, googleAnalyticsCode: Option<string>, analyticsLink: Option<Link>)

  /**
   * `getAnalytics`: each code only when its toggle reads as true (an empty
   * toggle is off); the link only when its field is not empty, an empty list
   * `[]` counting as empty.
   */
  function GetAnalytics(f: AnalyticsFields): (r: Analytics)
    ensures r.searchConsoleCode.Some? <==> !IsEmptyField(f.searchConsoleToggle) && AcceptedAsTrue(f.searchConsoleToggle)
    ensures r.searchConsoleCode.Some? ==> r.searchConsoleCode.value == f.searchConsoleCode
    ensures r.googleAnalyticsCode.Some? <==> !IsEmptyField(f.googleAnalyticsToggle) && AcceptedAsTrue(f.googleAnalyticsToggle)
    ensures r.googleAnalyticsCode.Some? ==> r.googleAnalyticsCode.value == f.googleAnalyticsCode
    ensures (forall k :: 0 <= k < |f.analyticsLink| ==> f.analyticsLink[k] in PhpWhitespace) ==> r.analyticsLink.None?
    ensures TrimAny(f.analyticsLink, PhpWhitespace) == EmptyListText ==> r.analyticsLink.None?
    ensures !IsEmptyField(f.analyticsLink) ==> r.analyticsLink == GetLinkArray(f.analyticsLinkObject)
  {
    Analytics(
      if ToBool(f.searchConsoleToggle, false) then Some(f.searchConsoleCode) else None,
      if ToBool(f.googleAnalyticsToggle, false) then Some(f.googleAnalyticsCode) else None,
      if !IsEmptyField(f.analyticsLink) then GetLinkArray(f.analyticsLinkObject) else None)
  }
}

=== FILE: sitemap.dfy ===
/**
 * The sitemap hooks (baukasten-sitemap): which pages the sitemap lists, and
 * how each listed URL is rewritten from the CMS address to the frontend
 * address, with the default language's prefix and, with the section toggle
 * off, the hierarchical path replaced by the page's flat URI.
 */
module Sitemap {
  import opened Wrappers
  import opened Strings
  import opened Pages
  import opened UrlHelper
  import opened LanguageHelper

  /**
   * The `meta.sitemap.url` hook: `false` drops the page (a cover-only item,
   * or a section while the toggle is off); otherwise the page is listed.
   */
  function SitemapListed(s: Site, id: Id, toggle: bool): (r: bool)
    requires id in s.pages
    ensures !r <==> s.pages[id].IsCoverOnlyItem() || (s.pages[id].IsSection() && !toggle)
  {
    if s.pages[id].IsCoverOnlyItem() then false
    else if s.pages[id].IsSection() && !toggle then false
    else true
  }

  /** The settings the `meta.sitemap:after` hook reads once for all URLs. */
  datatype SitemapConfig = SitemapConfig(
    // `$kirby->url('index')`
    cmsUrl: string,
    // the site field `frontendUrl`, before `rtrim('/')`
    frontendField: string,
    langs: seq<Language>,
    defaultCode: string,
    // `option('prefixDefaultLocale')`, `None` when unset
    prefixOption: Option<bool>)

  // ---------------------------------------------------------------------
  // Removing the default language from a URL
  // ---------------------------------------------------------------------

  /** The hook as written: `str_replace('/' . code, '', url)` removes every occurrence. */
  function DropDefaultCodeAsWritten(url: string, code: string): string {
    ReplaceAll(url, "/" + code, "")
  }

  /** `seg` occurs at `i` as a whole path segment: followed by `/` or by the end of `s`. */
  predicate SegmentAt(s: string, seg: string, i: nat) {
    OccursAt(s, seg, i) && (i + |seg| == |s| || s[i + |seg|] == '/')
  }

  /** Remove every whole-segment occurrence of `seg`, scanning left to right. */
  function DropSegment(s: string, seg: string): (r: string)
    ensures |r| <= |s|
    decreases |s|
  {
    if |seg| == 0 || |s| == 0 then s
    else if SegmentAt(s, seg, 0) then DropSegment(s[|seg|..], seg)
    else [s[0]] + DropSegment(s[1..], seg)
  }

  /** The evident intent: drop the language segment `/code`, and only that segment. */
  function DropDefaultCode(url: string, code: string): string {
    DropSegment(url, "/" + code)
  }

  /** A URL in which `/code` is never a whole segment is left unchanged. */
  lemma {:induction false} DropSegmentKeepsOtherSegments(s: string, seg: string)
    requires forall i: nat :: !SegmentAt(s, seg, i)
    ensures DropSegment(s, seg) == s
    decreases |s|
  {
    if |seg| > 0 && |s| > 0 {
      assert !SegmentAt(s, seg, 0);
      forall i: nat ensures !SegmentAt(s[1..], seg, i) {
        assert !SegmentAt(s, seg, i + 1);
        if i + |seg| <= |s[1..]| {
          assert s[1..][i..i + |seg|] == s[i + 1..i + 1 + |seg|];
          if i + |seg| < |s[1..]| {
            assert s[1..][i + |seg|] == s[i + 1 + |seg|];
          }
        }
      }
      DropSegmentKeepsOtherSegments(s[1..], seg);
    }
  }

  /**
   * The discrepancy: a page whose slug starts with the language code loses
   * part of its path, `/entries` becoming `tries` for the default language
   * `en`, where the segment-wise removal keeps it.
   */
  lemma DropDefaultCodeAsWrittenCutsSlugs()
    ensures DropDefaultCodeAsWritten("/entries", "en") == "tries"
    ensures DropDefaultCode("/entries", "en") == "/entries"
  {
    EntriesAsWritten();
    EntriesSegmentwise();
  }

  lemma EntriesAsWritten()
    ensures DropDefaultCodeAsWritten("/entries", "en") == "tries"
  {
    assert "/" + "en" == "/en";
    EntriesReplaced();
  }

  lemma EntriesReplaced()
    ensures ReplaceAll("/entries", "/en", "") == "tries"
  {
    var u := "/entries";
    assert u == ['/', 'e', 'n'] + ['t', 'r', 'i', 'e', 's'];
    assert HasPrefix(u, "/en") && u[3..] == "tries";
    assert ReplaceAll(u, "/en", "") == "" + ReplaceAll("tries", "/en", "");
    assert '/' !in "tries" by { assert "tries" == ['t', 'r', 'i', 'e', 's']; }
    FirstCharAbsentNoReplace("tries", "/en", "");
  }

  lemma EntriesSegmentwise()
    ensures DropDefaultCode("/entries", "en") == "/entries"
  {
    var u := "/entries";
    assert "/" + "en" == "/en";
    assert u[3] == 't' by { assert u == ['/', 'e', 'n', 't', 'r', 'i', 'e', 's']; }
    assert !SegmentAt(u, "/en", 0);
    assert '/' !in u[1..] by { assert u[1..] == ['e', 'n', 't', 'r', 'i', 'e', 's']; }
    NoInnerSegment(u, "/en");
    DropSegmentKeepsOtherSegments(u, "/en");
  }

  /**
   * A segment `/…` can only start at a `/`: in a URL whose only `/` is the
   * first character, it occurs as a segment at position 0 or nowhere.
   */
  lemma NoInnerSegment(s: string, seg: string)
    requires |s| > 0 && |seg| > 0 && seg[0] == '/' && '/' !in s[1..]
    requires !SegmentAt(s, seg, 0)
    ensures forall i: nat :: !SegmentAt(s, seg, i)
  {
    forall i: nat | 1 <= i && i + |seg| <= |s| ensures !OccursAt(s, seg, i) {
      assert s[i..i + |seg|][0] == s[i] == s[1..][i - 1];
    }
  }

  /** The segment-wise removal still turns `/en/about` into `/about`. */
  lemma DropDefaultCodeDropsLanguageSegment()
    ensures DropDefaultCode("/en/about", "en") == "/about"
  {
    var u := "/en/about";
    assert "/" + "en" == "/en";
    assert u == ['/', 'e', 'n'] + ['/', 'a', 'b', 'o', 'u', 't'];
    assert SegmentAt(u, "/en", 0) && u[3..] == "/about";
    var v := "/about";
    assert v[1] == 'a' by { assert v == ['/', 'a', 'b', 'o', 'u', 't']; }
    assert !SegmentAt(v, "/en", 0);
    assert '/' !in v[1..] by { assert v[1..] == ['a', 'b', 'o', 'u', 't']; }
    NoInnerSegment(v, "/en");
    DropSegmentKeepsOtherSegments(v, "/en");
  }

  // ---------------------------------------------------------------------
  // Rewriting one URL
  // ---------------------------------------------------------------------

  /** `strpos($haystack, $needle) !== false`. */
  predicate Contains(haystack: string, needle: string) {
    exists i: nat :: i <= |haystack| && OccursAt(haystack, needle, i)
  }

  /**
   * The language prefix of a rewritten flat URL: the first language whose
   * `/code/` appears in the original URL decides; it contributes `/code`
   * only when there are several languages and the prefix option is exactly
   * `true` or the language is not the default one.
   */
  function LanguagePrefix(original: string, langs: seq<Language>, cfg: SitemapConfig): (r: string)
    ensures r != "" ==> |cfg.langs| > 1
    ensures r != "" ==> exists l :: (l in langs && r == "/" + l.code && Contains(original, "/" + l.code + "/")
      && (cfg.prefixOption == Some(true) || l.code != cfg.defaultCode))
  {
    if |langs| == 0 then ""
    else if Contains(original, "/" + langs[0].code + "/") then
      if |cfg.langs| > 1 && (cfg.prefixOption == Some(true) || langs[0].code != cfg.defaultCode)
      then "/" + langs[0].code
      else ""
    else LanguagePrefix(original, langs[1..], cfg)
  }

  /**
   * The converse: the first language whose `/code/` appears decides alone,
   * giving `/code` when it qualifies and nothing otherwise, whatever the
   * later languages are.
   */
  lemma {:induction false} LanguagePrefixFirstMatch(original: string, langs: seq<Language>, cfg: SitemapConfig, k: nat)
    requires k < |langs| && Contains(original, "/" + langs[k].code + "/")
    requires forall j :: 0 <= j < k ==> !Contains(original, "/" + langs[j].code + "/")
    ensures LanguagePrefix(original, langs, cfg) ==
      if |cfg.langs| > 1 && (cfg.prefixOption == Some(true) || langs[k].code != cfg.defaultCode)
      then "/" + langs[k].code
      else ""
    decreases k
  {
    if k > 0 {
      assert !Contains(original, "/" + langs[0].code + "/");
      assert langs[1..][k - 1] == langs[k];
      forall j | 0 <= j < k - 1 ensures !Contains(original, "/" + langs[1..][j].code + "/") {
        assert langs[1..][j] == langs[j + 1];
      }
      LanguagePrefixFirstMatch(original, langs[1..], cfg, k - 1);
    }
  }

  /** No language's `/code/` in the URL: no prefix. */
  lemma {:induction false} LanguagePrefixNoMatch(original: string, langs: seq<Language>, cfg: SitemapConfig)
    requires forall j :: 0 <= j < |langs| ==> !Contains(original, "/" + langs[j].code + "/")
    ensures LanguagePrefix(original, langs, cfg) == ""
  {
    if |langs| > 0 {
      assert !Contains(original, "/" + langs[0].code + "/");
      forall j | 0 <= j < |langs| - 1 ensures !Contains(original, "/" + langs[1..][j].code + "/") {
        assert langs[1..][j] == langs[j + 1];
      }
      LanguagePrefixNoMatch(original, langs[1..], cfg);
    }
  }

  /** The hierarchical page path inside a CMS URL, for the framework's page lookup. */
  function LookupPath(original: string, cfg: SitemapConfig): string {
    StripLanguagePrefix(TrimLeft(ReplaceAll(original, cfg.cmsUrl, ""), '/'), cfg.langs)
  }

  /**
   * The rewrite applied to every `loc` value and every `xhtml:link` href:
   * nothing happens while the frontend URL (after `rtrim('/')`) is falsy;
   * otherwise the CMS base URL becomes the frontend URL and, with a single
   * language or the prefix option exactly `false`, the default language's
   * `/code` segment is dropped; with the toggle off, a URL whose page is
   * found is rebuilt from the page's flat URI.
   */
  function RewriteUrl(s: Site, toggle: bool, cfg: SitemapConfig, original: string): (r: string)
    requires WF(s)
    ensures !Truthy(TrimRight(cfg.frontendField, '/')) ==> r == original
    ensures Truthy(TrimRight(cfg.frontendField, '/')) && !toggle && LookupPath(original, cfg) in s.find ==>
      |r| == 0 || r[|r| - 1] != '/'
  {
    var frontend := TrimRight(cfg.frontendField, '/');
    if !Truthy(frontend) then original
    else
      var path := LookupPath(original, cfg);
      if toggle || path !in s.find then Localised(cfg, frontend, original)
      else FlatRebuilt(cfg, frontend, original, GeneratePageUri(s, s.find[path], true, false))
  }

  /** The base URL swapped for the frontend URL, and the default language's segment dropped where configured. */
  function Localised(cfg: SitemapConfig, frontend: string, original: string): string {
    var replaced := ReplaceAll(original, cfg.cmsUrl, frontend);
    if |cfg.langs| == 1 || cfg.prefixOption == Some(false) then DropDefaultCode(replaced, cfg.defaultCode)
    else replaced
  }

  /** `rtrim($frontendUrl . $languagePrefix . '/' . $flatUri, '/')`. */
  function FlatRebuilt(cfg: SitemapConfig, frontend: string, original: string, flat: string): (r: string)
    ensures |r| == 0 || r[|r| - 1] != '/'
  {
    TrimRight(frontend + LanguagePrefix(original, cfg.langs, cfg) + "/" + flat, '/')
  }

  /** With no usable frontend URL the sitemap keeps the CMS URLs. */
  lemma RewriteNeedsFrontend(s: Site, toggle: bool, cfg: SitemapConfig, original: string)
    requires WF(s) && !Truthy(TrimRight(cfg.frontendField, '/'))
    ensures RewriteUrl(s, toggle, cfg, original) == original
  {
  }

  /** Trimming `c` from the right never eats into a prefix that does not end in `c`. */
  lemma {:induction false} TrimRightKeepsPrefix(a: string, b: string, c: char)
    requires |a| > 0 && a[|a| - 1] != c
    ensures HasPrefix(TrimRight(a + b, c), a)
    decreases |b|
  {
    if |b| > 0 && b[|b| - 1] == c {
      assert (a + b)[..|a + b| - 1] == a + b[..|b| - 1];
      TrimRightKeepsPrefix(a, b[..|b| - 1], c);
    } else if |b| == 0 {
      assert a + b == a;
    }
  }

  /**
   * With the toggle off, a URL whose page is found becomes the frontend URL,
   * then the language prefix, then the page's flat URI, with no trailing
   * slash; the frontend URL is never cut.
   */
  lemma RewriteFlatUrl(s: Site, cfg: SitemapConfig, original: string)
    requires WF(s) && Truthy(TrimRight(cfg.frontendField, '/'))
    requires LookupPath(original, cfg) in s.find
    ensures var frontend := TrimRight(cfg.frontendField, '/');
      var r := RewriteUrl(s, false, cfg, original);
      var flat := GeneratePageUri(s, s.find[LookupPath(original, cfg)], true, false);
      && r == TrimRight(frontend + LanguagePrefix(original, cfg.langs, cfg) + "/" + flat, '/')
      && HasPrefix(r, frontend)
      && (|r| == 0 || r[|r| - 1] != '/')
  {
    var frontend := TrimRight(cfg.frontendField, '/');
    var flat := GeneratePageUri(s, s.find[LookupPath(original, cfg)], true, false);
    FlatRebuiltKeepsFrontend(cfg, frontend, original, flat);
  }

  lemma FlatRebuiltKeepsFrontend(cfg: SitemapConfig, frontend: string, original: string, flat: string)
    requires |frontend| > 0 && frontend[|frontend| - 1] != '/'
    ensures HasPrefix(FlatRebuilt(cfg, frontend, original, flat), frontend)
  {
    var pre := LanguagePrefix(original, cfg.langs, cfg);
    assert frontend + pre + "/" + flat == frontend + (pre + "/" + flat);
    TrimRightKeepsPrefix(frontend, pre + "/" + flat, '/');
  }

  /**
   * A CMS URL `cmsUrl + rest` that is not rebuilt from a flat URI (toggle on,
   * or no page found) becomes `frontend + rest`; with a single language or
   * the prefix option exactly `false` the default language's `/code` segment
   * is then dropped from it.
   */
  lemma RewriteReplacesBaseUrl(s: Site, toggle: bool, cfg: SitemapConfig, rest: string)
    requires WF(s) && Truthy(TrimRight(cfg.frontendField, '/'))
    requires |cfg.cmsUrl| > 0 && forall i: nat :: !OccursAt(rest, cfg.cmsUrl, i)
    requires toggle || LookupPath(cfg.cmsUrl + rest, cfg) !in s.find
    ensures var frontend := TrimRight(cfg.frontendField, '/');
      var r := RewriteUrl(s, toggle, cfg, cfg.cmsUrl + rest);
      && (|cfg.langs| != 1 && cfg.prefixOption != Some(false) ==> r == frontend + rest)
      && (|cfg.langs| == 1 || cfg.prefixOption == Some(false) ==>
            r == DropDefaultCode(frontend + rest, cfg.defaultCode))
  {
    var frontend := TrimRight(cfg.frontendField, '/');
    ReplaceAllLeading(cfg.cmsUrl, rest, frontend);
    ReplaceAllNoOccurrence(rest, cfg.cmsUrl, frontend);
  }

  /** With a single language the rebuilt flat URL never carries a language prefix. */
  lemma SingleLanguageNoPrefix(original: string, cfg: SitemapConfig)
    requires |cfg.langs| == 1
    ensures LanguagePrefix(original, cfg.langs, cfg) == ""
  {
  }

  /**
   * With the toggle on, only the base URL and the default language change:
   * a URL that does not contain the CMS base URL and has no default-language
   * segment is left as it is.
   */
  lemma RewriteWithToggleOn(s: Site, cfg: SitemapConfig, original: string)
    requires WF(s) && Truthy(TrimRight(cfg.frontendField, '/'))
    requires forall i: nat :: !OccursAt(original, cfg.cmsUrl, i)
    requires forall i: nat :: !SegmentAt(original, "/" + cfg.defaultCode, i)
    ensures RewriteUrl(s, true, cfg, original) == original
  {
    var frontend := TrimRight(cfg.frontendField, '/');
    ReplaceAllNoOccurrence(original, cfg.cmsUrl, frontend);
    DropSegmentKeepsOtherSegments(original, "/" + cfg.defaultCode);
    assert Localised(cfg, frontend, original) == original;
  }
}

=== FILE: strings.dfy ===
/**
 * String primitives the PHP code relies on: `implode`, `explode`, `trim`,
 * `rtrim`, `ltrim`, `str_replace`, `strcmp`, `strtolower` and the truthiness
 * of a string. Strings are `seq<char>`; characters compare by code point,
 * which is what `strcmp` does on single-byte (ASCII) text.
 */
module Strings {

  /** PHP truthiness of a string: only "" and "0" are falsy. */
  predicate Truthy(s: string) {
    s != "" && s != "0"
  }

  /** `$a ?: $b` for a string `$a`. */
  function OrElse(a: string, b: string): (r: string)
    ensures Truthy(a) ==> r == a
    ensures !Truthy(a) ==> r == b
  {
    if Truthy(a) then a else b
  }

  predicate HasPrefix(s: string, p: string) {
    |p| <= |s| && s[..|p|] == p
  }

  predicate HasSuffix(s: string, p: string) {
    |p| <= |s| && s[|s| - |p|..] == p
  }

  /** `implode(sep, segs)`. */
  function Join(segs: seq<string>, sep: string): string
  {
    if |segs| == 0 then ""
    else if |segs| == 1 then segs[0]
    else Join(segs[..|segs| - 1], sep) + sep + segs[|segs| - 1]
  }

  /** Appending one segment appends the separator and that segment (or gives the segment alone). */
  lemma JoinSnoc(segs: seq<string>, x: string, sep: string)
    ensures Join(segs + [x], sep) == if |segs| == 0 then x else Join(segs, sep) + sep + x
  {
    assert (segs + [x])[..|segs|] == segs;
  }

  /** The joined string ends with the last segment. */
  lemma JoinEndsWithLast(segs: seq<string>, sep: string)
    requires |segs| > 0
    ensures HasSuffix(Join(segs, sep), segs[|segs| - 1])
  {
    var j := Join(segs, sep);
    var x := segs[|segs| - 1];
    if |segs| > 1 {
      assert j == Join(segs[..|segs| - 1], sep) + sep + x;
      assert j[|j| - |x|..] == x;
    }
  }

  /** Number of occurrences of character `c` in `s`. */
  function CountChar(s: string, c: char): nat
  {
    if |s| == 0 then 0
    else (if s[0] == c then 1 else 0) + CountChar(s[1..], c)
  }

  /** `explode(c, s)` for a one-character delimiter. */
  function Split(s: string, c: char): (r: seq<string>)
    ensures |r| == CountChar(s, c) + 1
    ensures forall k :: 0 <= k < |r| ==> c !in r[k]
  {
    if |s| == 0 then [""]
    else
      var rest := Split(s[1..], c);
      if s[0] == c then [""] + rest
      else [[s[0]] + rest[0]] + rest[1..]
  }

  /** Joining the pieces of a split gives back the string. */
  lemma {:induction false} JoinSplit(s: string, c: char)
    ensures JoinFront(Split(s, c), [c]) == s
  {
    if |s| > 0 {
      JoinSplit(s[1..], c);
      var rest := Split(s[1..], c);
      if s[0] == c {
        assert Split(s, c) == [""] + rest;
      } else {
        assert Split(s, c) == [[s[0]] + rest[0]] + rest[1..];
        if |rest| > 1 {
          assert rest == [rest[0]] + rest[1..];
        }
      }
    }
  }

  /** `implode` written front-to-back; equal to `Join` (see `JoinFrontIsJoin`). */
  function JoinFront(segs: seq<string>, sep: string): string
  {
    if |segs| == 0 then ""
    else if |segs| == 1 then segs[0]
    else segs[0] + sep + JoinFront(segs[1..], sep)
  }

  lemma {:induction false} JoinFrontIsJoin(segs: seq<string>, sep: string)
    ensures JoinFront(segs, sep) == Join(segs, sep)
    decreases |segs|
  {
    if |segs| > 2 {
      JoinFrontIsJoin(segs[1..], sep);
      JoinFrontIsJoin(segs[..|segs| - 1], sep);
      JoinFrontIsJoin(segs[1..|segs| - 1], sep);
      assert segs[1..][..|segs[1..]| - 1] == segs[1..|segs| - 1];
      assert segs[..|segs| - 1][1..] == segs[1..|segs| - 1];
    } else if |segs| == 2 {
      assert segs[..1] == [segs[0]];
      assert segs[1..] == [segs[1]];
    }
  }

  /** `end(explode(c, s))`: the text after the last `c`. */
  function LastPiece(s: string, c: char): (r: string)
    ensures c !in r
    ensures HasSuffix(s, r)
  {
    if |s| == 0 then ""
    else if s[|s| - 1] == c then ""
    else LastPiece(s[..|s| - 1], c) + [s[|s| - 1]]
  }

  /** `ltrim(s, c)`. */
  function TrimLeft(s: string, c: char): (r: string)
    ensures |r| == 0 || r[0] != c
    ensures HasSuffix(s, r)
    ensures forall k :: 0 <= k < |s| - |r| ==> s[k] == c
  {
    if |s| > 0 && s[0] == c then TrimLeft(s[1..], c) else s
  }

  /** `rtrim(s, c)`. */
  function TrimRight(s: string, c: char): (r: string)
    ensures |r| == 0 || r[|r| - 1] != c
    ensures HasPrefix(s, r)
    ensures forall k :: |r| <= k < |s| ==> s[k] == c
  {
    if |s| > 0 && s[|s| - 1] == c then TrimRight(s[..|s| - 1], c) else s
  }

  /** `trim(s, c)`. */
  function Trim(s: string, c: char): string
  {
    TrimRight(TrimLeft(s, c), c)
  }

  /** The characters PHP's `trim` removes by default: space, tab, newline, carriage return, NUL and vertical tab. */
  const PhpWhitespace: set<char> := {' ', '\t', '\n', '\r', 0 as char, 11 as char}

  /** `ltrim(s, chars)`: every leading character from `cs` removed. */
  function TrimAnyLeft(s: string, cs: set<char>): (r: string)
    ensures HasSuffix(s, r)
    ensures |r| == 0 || r[0] !in cs
    ensures forall k :: 0 <= k < |s| - |r| ==> s[k] in cs
  {
    if |s| > 0 && s[0] in cs then TrimAnyLeft(s[1..], cs) else s
  }

  /** `rtrim(s, chars)`: every trailing character from `cs` removed. */
  function TrimAnyRight(s: string, cs: set<char>): (r: string)
    ensures HasPrefix(s, r)
    ensures |r| == 0 || r[|r| - 1] !in cs
    ensures forall k :: |r| <= k < |s| ==> s[k] in cs
  {
    if |s| > 0 && s[|s| - 1] in cs then TrimAnyRight(s[..|s| - 1], cs) else s
  }

  /**
   * `trim(s, chars)`: the result neither starts nor ends with a character
   * from `cs`, and it is empty exactly when `s` consists of such characters.
   */
  function TrimAny(s: string, cs: set<char>): (r: string)
    ensures |r| <= |s| && forall c :: c in r ==> c in s
    ensures |r| == 0 || (r[0] !in cs && r[|r| - 1] !in cs)
    ensures r == "" <==> forall k :: 0 <= k < |s| ==> s[k] in cs
  {
    var l := TrimAnyLeft(s, cs);
    var r := TrimAnyRight(l, cs);
    assert |r| > 0 ==> r[0] == l[0];
    assert forall c :: c in r ==> c in l;
    assert forall k :: |s| - |l| <= k < |s| ==> s[k] == l[k - (|s| - |l|)];
    r
  }

  /** `pat` occurs in `s` starting at position `i`. */
  predicate OccursAt(s: string, pat: string, i: nat) {
    i + |pat| <= |s| && s[i..i + |pat|] == pat
  }

  /**
   * `str_replace(pat, rep, s)`: every non-overlapping occurrence of `pat`,
   * scanning left to right, is replaced; an empty `pat` leaves `s` unchanged.
   */
  function ReplaceAll(s: string, pat: string, rep: string): string
    decreases |s|
  {
    if |pat| == 0 || |s| == 0 then s
    else if HasPrefix(s, pat) then rep + ReplaceAll(s[|pat|..], pat, rep)
    else [s[0]] + ReplaceAll(s[1..], pat, rep)
  }

  /** An occurrence of `pat` at the very start is replaced, and the scan goes on after it. */
  lemma ReplaceAllLeading(pat: string, rest: string, rep: string)
    requires |pat| > 0
    ensures ReplaceAll(pat + rest, pat, rep) == rep + ReplaceAll(rest, pat, rep)
  {
    assert (pat + rest)[..|pat|] == pat;
    assert (pat + rest)[|pat|..] == rest;
  }

  /** A string without any occurrence of `pat` is left unchanged. */
  lemma {:induction false} ReplaceAllNoOccurrence(s: string, pat: string, rep: string)
    requires forall i: nat :: !OccursAt(s, pat, i)
    ensures ReplaceAll(s, pat, rep) == s
    decreases |s|
  {
    if |pat| > 0 && |s| > 0 {
      assert !OccursAt(s, pat, 0);
      assert !HasPrefix(s, pat);
      forall i: nat ensures !OccursAt(s[1..], pat, i) {
        assert !OccursAt(s, pat, i + 1);
        if i + |pat| <= |s[1..]| {
          assert s[1..][i..i + |pat|] == s[i + 1..i + 1 + |pat|];
        }
      }
      ReplaceAllNoOccurrence(s[1..], pat, rep);
    }
  }

  /** A string that lacks the first character of `pat` has no occurrence of it, so nothing is replaced. */
  lemma FirstCharAbsentNoReplace(s: string, pat: string, rep: string)
    requires |pat| > 0 && pat[0] !in s
    ensures ReplaceAll(s, pat, rep) == s
  {
    forall i: nat ensures !OccursAt(s, pat, i) {
      if i + |pat| <= |s| {
        assert s[i] in s;
        assert s[i..i + |pat|][0] == s[i];
      }
    }
    ReplaceAllNoOccurrence(s, pat, rep);
  }

  /** Replacing by something no longer never makes the string longer. */
  lemma {:induction false} ReplaceAllShrinks(s: string, pat: string, rep: string)
    requires |rep| <= |pat|
    ensures |ReplaceAll(s, pat, rep)| <= |s|
    decreases |s|
  {
    if |pat| > 0 && |s| > 0 {
      if HasPrefix(s, pat) {
        ReplaceAllShrinks(s[|pat|..], pat, rep);
      } else {
        ReplaceAllShrinks(s[1..], pat, rep);
      }
    }
  }

  /** ASCII lower-casing of one character, as `strtolower` does. */
  function LowerChar(c: char): (r: char)
    ensures 'A' <= c <= 'Z' ==> r as int == c as int + 32
    ensures !('A' <= c <= 'Z') ==> r == c
  {
    if 'A' <= c <= 'Z' then (c as int + 32) as char else c
  }

  /** `strtolower(s)`. */
  function Lower(s: string): (r: string)
    ensures |r| == |s|
    ensures forall k :: 0 <= k < |s| ==> r[k] == LowerChar(s[k])
  {
    if |s| == 0 then "" else [LowerChar(s[0])] + Lower(s[1..])
  }

  /** The sign of `strcmp(a, b)`: -1, 0 or 1 by code-point lexicographic order. */
  function StrCmp(a: string, b: string): (r: int)
    ensures -1 <= r <= 1
    ensures r == 0 <==> a == b
  {
    if |a| == 0 && |b| == 0 then 0
    else if |a| == 0 then -1
    else if |b| == 0 then 1
    else if a[0] < b[0] then -1
    else if a[0] > b[0] then 1
    else
      assert a == [a[0]] + a[1..] && b == [b[0]] + b[1..];
      StrCmp(a[1..], b[1..])
  }

  lemma {:induction false} StrCmpAntisymmetric(a: string, b: string)
    ensures StrCmp(a, b) == -StrCmp(b, a)
  {
    if |a| > 0 && |b| > 0 && a[0] == b[0] {
      StrCmpAntisymmetric(a[1..], b[1..]);
    }
  }

  lemma {:induction false} StrCmpTransitive(a: string, b: string, c: string)
    requires StrCmp(a, b) <= 0 && StrCmp(b, c) <= 0
    ensures StrCmp(a, c) <= 0
  {
    if |a| > 0 && |b| > 0 && |c| > 0 && a[0] == b[0] && b[0] == c[0] {
      StrCmpTransitive(a[1..], b[1..], c[1..]);
    }
  }
}

=== FILE: url_helper.dfy ===
/**
 * Public page URIs (UrlHelper): either the framework's hierarchical URI or
 * the "flat" URI, which leaves out every ancestor whose template is
 * `section`. The home page is always the literal `home`.
 */
module UrlHelper {
  import opened Wrappers
  import opened Strings
  import opened Fields
  import opened Pages

  /**
   * `getSectionToggleState`: the site field `designSectionToggle` read with
   * `toBool(true)`, so an unset field, or one holding the empty list `[]`,
   * means the toggle is on (sections appear in URIs).
   */
  function SectionToggleState(field: string): (r: bool)
    ensures field == "" ==> r
    ensures TrimAny(field, PhpWhitespace) == EmptyListText ==> r
    ensures r <==> IsEmptyField(field) || AcceptedAsTrue(field)
  {
    ToBool(field, true)
  }

  /**
   * The segments of the flat URI: walking from the page upward, stopping at
   * the first home page or past the root, keep the slug (in language `lang`)
   * of every page that is not a section, root-most first.
   */
  function FlatSegments(s: Site, id: Id, lang: Option<string>): seq<string>
    requires WF(s) && id in s.pages
    decreases s.rank[id]
  {
    var p := s.pages[id];
    if p.isHome then []
    else
      var above := match p.parent
        case None => []
        case Some(q) => FlatSegments(s, q, lang);
      if p.IsSection() then above else above + [p.SlugIn(lang)]
  }

  /** The flat URI: the segments joined with `/`. */
  function FlatUri(s: Site, id: Id, lang: Option<string>): string
    requires WF(s) && id in s.pages
  {
    Join(FlatSegments(s, id, lang), "/")
  }

  /** `generatePageUri($page, $respectSectionToggle)` under the given toggle state. */
  function GeneratePageUri(s: Site, id: Id, respectToggle: bool, toggle: bool): (r: string)
    requires WF(s) && id in s.pages
    ensures s.pages[id].isHome ==> r == "home"
    ensures !s.pages[id].isHome && (!respectToggle || toggle) ==> r == s.pages[id].uri
    ensures !s.pages[id].isHome && respectToggle && !toggle ==> r == FlatUri(s, id, None)
  {
    if s.pages[id].isHome then "home"
    else if !respectToggle || toggle then s.pages[id].uri
    else FlatUri(s, id, None)
  }

  /** `generatePageUri($page)` with the default `$respectSectionToggle = true`. */
  function PageUri(s: Site, id: Id, toggle: bool): string
    requires WF(s) && id in s.pages
  {
    GeneratePageUri(s, id, true, toggle)
  }

  // ---------------------------------------------------------------------
  // An independent description of the flat walk, through the ancestor list.
  // ---------------------------------------------------------------------

  /** The longest prefix of `c` that contains no home page. */
  function UntilHome(s: Site, c: seq<Id>): (r: seq<Id>)
    requires forall k :: 0 <= k < |c| ==> c[k] in s.pages
    ensures |r| <= |c| && r == c[..|r|]
    ensures forall k :: 0 <= k < |r| ==> !s.pages[r[k]].isHome
    ensures |r| < |c| ==> s.pages[c[|r|]].isHome
  {
    if |c| == 0 || s.pages[c[0]].isHome then []
    else [c[0]] + UntilHome(s, c[1..])
  }

  /** The pages whose slugs make up the flat URI: the page and its ancestors, up to the first home page. */
  function FlatChain(s: Site, id: Id): seq<Id>
    requires WF(s) && id in s.pages
  {
    UntilHome(s, UpChain(s, id))
  }

  /** Slugs of the non-section pages of a bottom-up chain, in root-most-first order. */
  function SlugsRootFirst(s: Site, c: seq<Id>, lang: Option<string>): seq<string>
    requires forall k :: 0 <= k < |c| ==> c[k] in s.pages
  {
    if |c| == 0 then []
    else
      var p := s.pages[c[0]];
      SlugsRootFirst(s, c[1..], lang) + (if p.IsSection() then [] else [p.SlugIn(lang)])
  }

  function CountNonSection(s: Site, c: seq<Id>): nat
    requires forall k :: 0 <= k < |c| ==> c[k] in s.pages
  {
    if |c| == 0 then 0
    else (if s.pages[c[0]].IsSection() then 0 else 1) + CountNonSection(s, c[1..])
  }

  /** The recursive walk computes exactly the slugs of the non-section pages on the chain. */
  lemma {:induction false} FlatSegmentsFollowChain(s: Site, id: Id, lang: Option<string>)
    requires WF(s) && id in s.pages
    ensures FlatSegments(s, id, lang) == SlugsRootFirst(s, FlatChain(s, id), lang)
    decreases s.rank[id]
  {
    var p := s.pages[id];
    var c := UpChain(s, id);
    if !p.isHome {
      assert UntilHome(s, c) == [id] + UntilHome(s, c[1..]);
      match p.parent
      case None =>
        assert Ancestors(s, id) == [];
        assert c[1..] == [];
      case Some(q) =>
        FlatSegmentsFollowChain(s, q, lang);
        assert c[1..] == [q] + Ancestors(s, q);
    }
  }

  lemma {:induction false} SlugsCount(s: Site, c: seq<Id>, lang: Option<string>)
    requires forall k :: 0 <= k < |c| ==> c[k] in s.pages
    ensures |SlugsRootFirst(s, c, lang)| == CountNonSection(s, c)
  {
    if |c| > 0 {
      SlugsCount(s, c[1..], lang);
    }
  }

  /** `x` is the slug (in `lang`) of some non-section page of `c`. */
  predicate IsNonSectionSlug(s: Site, c: seq<Id>, lang: Option<string>, x: string)
    requires forall k :: 0 <= k < |c| ==> c[k] in s.pages
  {
    exists j :: 0 <= j < |c| && !s.pages[c[j]].IsSection() && x == s.pages[c[j]].SlugIn(lang)
  }

  lemma {:induction false} SlugsFromNonSections(s: Site, c: seq<Id>, lang: Option<string>)
    requires forall k :: 0 <= k < |c| ==> c[k] in s.pages
    ensures forall k :: 0 <= k < |SlugsRootFirst(s, c, lang)| ==>
      IsNonSectionSlug(s, c, lang, SlugsRootFirst(s, c, lang)[k])
  {
    if |c| > 0 {
      SlugsFromNonSections(s, c[1..], lang);
      var rest := SlugsRootFirst(s, c[1..], lang);
      var all := SlugsRootFirst(s, c, lang);
      forall k | 0 <= k < |all|
        ensures IsNonSectionSlug(s, c, lang, all[k])
      {
        if k < |rest| {
          assert all[k] == rest[k];
          assert IsNonSectionSlug(s, c[1..], lang, rest[k]);
          var j :| 0 <= j < |c[1..]| && !s.pages[c[1..][j]].IsSection() && rest[k] == s.pages[c[1..][j]].SlugIn(lang);
          assert c[j + 1] == c[1..][j];
        } else {
          assert !s.pages[c[0]].IsSection();
          assert all[k] == s.pages[c[0]].SlugIn(lang);
        }
      }
    }
  }

  lemma {:induction false} AllSectionsNoSlugs(s: Site, c: seq<Id>, lang: Option<string>)
    requires forall k :: 0 <= k < |c| ==> c[k] in s.pages
    requires forall k :: 0 <= k < |c| ==> s.pages[c[k]].IsSection()
    ensures SlugsRootFirst(s, c, lang) == []
  {
    if |c| > 0 {
      AllSectionsNoSlugs(s, c[1..], lang);
    }
  }

  /**
   * With the toggle off, a page's URI has one segment per non-section page on
   * its chain, and every segment is the slug of such a page: no section page
   * contributes a segment.
   */
  lemma FlatSegmentsSkipSections(s: Site, id: Id, lang: Option<string>)
    requires WF(s) && id in s.pages
    ensures |FlatSegments(s, id, lang)| == CountNonSection(s, FlatChain(s, id))
    ensures forall k :: 0 <= k < |FlatSegments(s, id, lang)| ==>
      IsNonSectionSlug(s, FlatChain(s, id), lang, FlatSegments(s, id, lang)[k])
  {
    FlatSegmentsFollowChain(s, id, lang);
    SlugsCount(s, FlatChain(s, id), lang);
    SlugsFromNonSections(s, FlatChain(s, id), lang);
  }

  /** The flat URI of a non-home, non-section page ends with the page's own slug. */
  lemma FlatUriEndsWithOwnSlug(s: Site, id: Id, lang: Option<string>)
    requires WF(s) && id in s.pages
    requires !s.pages[id].isHome && !s.pages[id].IsSection()
    ensures HasSuffix(FlatUri(s, id, lang), s.pages[id].SlugIn(lang))
  {
    var segs := FlatSegments(s, id, lang);
    assert segs[|segs| - 1] == s.pages[id].SlugIn(lang);
    JoinEndsWithLast(segs, "/");
  }

  /** A section page whose chain holds only sections has the empty flat URI. */
  lemma AllSectionChainGivesEmptyUri(s: Site, id: Id, lang: Option<string>)
    requires WF(s) && id in s.pages
    requires forall k :: 0 <= k < |FlatChain(s, id)| ==> s.pages[FlatChain(s, id)[k]].IsSection()
    ensures FlatUri(s, id, lang) == ""
  {
    FlatSegmentsFollowChain(s, id, lang);
    AllSectionsNoSlugs(s, FlatChain(s, id), lang);
  }

  /**
   * The home page is `home` whatever the flag and the toggle; any other page
   * gets its hierarchical URI unless the flag is set and the toggle is off.
   */
  lemma GeneratePageUriCases(s: Site, id: Id, respectToggle: bool, toggle: bool)
    requires WF(s) && id in s.pages
    ensures s.pages[id].isHome ==> GeneratePageUri(s, id, respectToggle, toggle) == "home"
    ensures !s.pages[id].isHome && (!respectToggle || toggle) ==>
      GeneratePageUri(s, id, respectToggle, toggle) == s.pages[id].uri
    ensures !s.pages[id].isHome && respectToggle && !toggle ==>
      GeneratePageUri(s, id, respectToggle, toggle) ==
        Join(SlugsRootFirst(s, FlatChain(s, id), None), "/")
  {
    FlatSegmentsFollowChain(s, id, None);
  }

  // ---------------------------------------------------------------------
  // The flat URI depends only on the tree's shape, not on listing status.
  // ---------------------------------------------------------------------

  /** Two trees with the same pages, parents, slugs, templates and home flags. */
  predicate SameShape(s1: Site, s2: Site) {
    && s1.pages.Keys == s2.pages.Keys
    && s1.rank == s2.rank
    && forall id :: id in s1.pages ==>
         && s1.pages[id].slug == s2.pages[id].slug
         && s1.pages[id].slugs == s2.pages[id].slugs
         && s1.pages[id].template == s2.pages[id].template
         && s1.pages[id].isHome == s2.pages[id].isHome
         && s1.pages[id].parent == s2.pages[id].parent
  }

  /** Status, readability, sort number, title and cover flag never change a flat URI. */
  lemma {:induction false} FlatSegmentsIgnoreStatus(s1: Site, s2: Site, id: Id, lang: Option<string>)
    requires WF(s1) && WF(s2) && SameShape(s1, s2) && id in s1.pages
    ensures FlatSegments(s1, id, lang) == FlatSegments(s2, id, lang)
    decreases s1.rank[id]
  {
    var p := s1.pages[id];
    if !p.isHome && p.parent.Some? {
      FlatSegmentsIgnoreStatus(s1, s2, p.parent.value, lang);
    }
  }
}

=== FILE: wrappers.dfy ===
/**
 * PHP's `null`-or-value, as an explicit datatype, and the order-keeping
 * "some entries left out" relation between lists.
 */
module Wrappers {

  datatype Option<+T> = None | Some(value: T) {

    /** The value, or `default` for `null` (PHP's `??`). */
    function GetOr(default: T): T {
      match this
      case Some(v) => v
      case None => default
    }
  }

  /**
   * `r` is `s` with some entries left out and the rest in their order:
   * either `r` is used up, or the first entry of `s` is kept as `r`'s
   * first or dropped.
   */
  predicate SubsequenceOf<T(==)>(r: seq<T>, s: seq<T>)
    decreases |s|
  {
    || |r| == 0
    || (&& |s| > 0
        && ((r[0] == s[0] && SubsequenceOf(r[1..], s[1..])) || SubsequenceOf(r, s[1..])))
  }

  /** Leaving entries out twice is leaving them out once. */
  lemma {:induction false} SubsequenceTransitive<T>(a: seq<T>, b: seq<T>, c: seq<T>)
    requires SubsequenceOf(a, b) && SubsequenceOf(b, c)
    ensures SubsequenceOf(a, c)
    decreases |c|
  {
    if |a| > 0 {
      if b[0] == c[0] && SubsequenceOf(b[1..], c[1..]) {
        if a[0] == b[0] && SubsequenceOf(a[1..], b[1..]) {
          SubsequenceTransitive(a[1..], b[1..], c[1..]);
        } else {
          SubsequenceTransitive(a, b[1..], c[1..]);
        }
      } else {
        SubsequenceTransitive(a, b, c[1..]);
      }
    }
  }
}
